=== FILE: README.md ===
# nornir_ansible inventory, modelled in Dafny

nornir_ansible's `AnsibleInventory` plugin turns an Ansible inventory file into a nornir
`Inventory`. The pipeline has five steps:

1. The file is read as INI with ConfigParser. If ConfigParser rejects it, it is read as YAML.
   If the YAML loader cannot scan or compose it either, the plugin raises
   `NornirNoValidInventoryError`.
2. The INI sections are normalised into the YAML shape, an `all` group with `children`.
   - `[group]` lists hosts with `key=value` words.
   - `[group:vars]` holds variables.
   - `[group:children]` names sub-groups.
3. Starting from `all`, stored as `defaults`, the parser walks groups and hosts depth-first:
   - it creates each host and group the first time it is seen;
   - it appends the parent group name to the element's `groups` list;
   - it merges inline variables and side-car variables from `host_vars/` and `group_vars/`
     into the element;
   - it renames the Ansible aliases (`ansible_host`, …) to nornir's field names;
   - it routes reserved fields (`hostname`, `port`, …) to the top level and everything else
     to `data`;
   - it fills missing reserved fields with defaults.
4. Every `groups` list is sorted.
5. `load()` builds one nornir `Host` or `Group` object per dict, with connection options.
   It then replaces each parent name with the group object of that name.

Two copies of this pipeline exist in the repository. The model covers both with one
parameter `Variant`:
- `Current` is `nornir_ansible/plugins/inventory/ansible.py`.
- `Legacy` is `nornir_ansible/inventory/ansible.py`.

They differ in three ways:
- The reserved fields: `connection_options` is reserved only in `Current`.
- A host's default `hostname`: in `Current` it is the host's own name.
- Side-car lookup. `Current` also reads directories of vars files. `Legacy` reads a single
  file, and for groups only it turns an empty file into `{}`.

Modules, one per stage:

- `Wrappers`, `Types`: `Result`, YAML values, the raw inventory tree
  (`GroupNode`, `HostNode`), and the parser's three tables
  (`hosts`, `groups`, `defaults`).
- `Text`: Python's string ordering and `list.sort`, `str.split()`, `str.split(sep)`, `int()`
  on decimal text.
- `Ini`: `INIParser.normalize_value`, `normalize_content`, `process_meta`, `normalize`.
- `VarsFiles`: `_vars_file_exists`, `read_vars_file` and the directory merge, on an
  abstract store of loaded files.
- `Normalize`: `map_nornir_vars`, `normalize_data`, `add`.
- `Walker`: the depth-first walk (`parse_group`, `parse_hosts`, `parse`) as pure functions,
  and `sort_groups`. It also proves what the walk produces in terms of the host and group
  *visits* the tree contains.
- `Parser`: the class `AnsibleParser`. Its fields `hosts`, `groups` and `defaults` are
  updated in place by methods that are proved to compute the walk functions.
- `Detect`: the module-level `parse(hostsfile)`: INI first, YAML fallback, which error
  surfaces.
- `Assemble`: `_get_connection_options`, `_get_defaults`, `_get_inventory_element` and
  `AnsibleInventory.load`, with the class `Element` whose `groups` are reassigned to group
  objects.

Failures are `Err` values of `Result`. Each one stands for the Python exception the code
raises at that point:
- `NotAMapping` stands for the `AttributeError`/`TypeError` of calling `.items()`, `.get` or
  `in` on a non-dict.
- `BadOption`, `UnknownTag` and `BadSectionName` stand for `ValueError`.
- `MissingKey` stands for `KeyError`.
- `YamlFailure` stands for any other error of the YAML loader, which is re-raised unchanged.
- `NoValidInventory` stands for `NornirNoValidInventoryError`.

### Behaviour worth knowing

- A host's or group's `groups` list may repeat a name. The parent is appended on every
  visit, so a host listed twice under one group gets that group twice.
  `Walker.DuplicateParents` exhibits it.
- An INI `[all:children]` section does not add to the groups collected from the other
  sections. It replaces the top-level `children` dict, which drops the other groups.
  `Ini.AllChildrenReplaces` states it.

## Model

In the source column:
- `nornir_ansible/plugins/inventory/ansible.py` is the current module.
- `nornir_ansible/inventory/ansible.py` is the legacy module.

A member that models both cites the current module.

| member | source | states |
|---|---|---|
| Text.BelowTotal | nornir_ansible/plugins/inventory/ansible.py:229 | any two strings are comparable under the code-point order `list.sort` uses |
| Text.BelowAntisymmetric | nornir_ansible/plugins/inventory/ansible.py:229 | two strings each not greater than the other are equal |
| Text.BelowTransitive | nornir_ansible/plugins/inventory/ansible.py:229 | the string order is transitive |
| Text.Insert | nornir_ansible/plugins/inventory/ansible.py:229 | inserting a name into a sorted list keeps it sorted and adds exactly that name |
| Text.Sort | nornir_ansible/plugins/inventory/ansible.py:229 | a sorted parent list is in ascending order and holds the same names as before, duplicates included |
| Text.SortIsUnique | nornir_ansible/plugins/inventory/ansible.py:229 | every ascending rearrangement of a list is the one `Sort` gives, so the sorted `groups` list is determined by its contents |
| Text.SortedPermutationsEqual | nornir_ansible/plugins/inventory/ansible.py:229 | two ascending lists with the same elements are equal |
| Text.Words | nornir_ansible/plugins/inventory/ansible.py:345 | `str.split()` yields only non-empty words without whitespace |
| Text.WordsAfterWord | nornir_ansible/plugins/inventory/ansible.py:345 | `str.split()` cuts a word exactly at the whitespace run that follows it, however long: each token is a maximal run of non-whitespace |
| Text.WordsOfJoin | nornir_ansible/plugins/inventory/ansible.py:345 | splitting the words of a list joined by single spaces gives the list back, for any non-empty, whitespace-free words |
| Text.WordsKeepVisible | nornir_ansible/plugins/inventory/ansible.py:345 | the words of a host line, put back together, are exactly its non-whitespace characters: no option text is lost or invented |
| Text.ParseShowInt | nornir_ansible/plugins/inventory/ansible.py:326 | `int()` accepts the decimal text of every integer and returns that integer |
| Text.LeadingZerosValue | nornir_ansible/plugins/inventory/ansible.py:326 | leading zeros do not change the value of a run of digits |
| Text.ParseSignedPadded | nornir_ansible/plugins/inventory/ansible.py:326 | `int()` accepts an optional sign and leading zeros before the decimal text of a number, and the sign alone decides its sign |
| Text.JoinSplit | nornir_ansible/plugins/inventory/ansible.py:346 | `str.split(sep)` loses nothing: joining the parts with the separator gives the text back, and no part holds the separator |
| Text.SplitJoin | nornir_ansible/plugins/inventory/ansible.py:346 | splitting undoes joining for parts without the separator |
| Ini.PutLookup | nornir_ansible/plugins/inventory/ansible.py:392 | after a dict assignment the key reads the new value and every other key reads what it did before |
| Ini.PutKeys | nornir_ansible/plugins/inventory/ansible.py:392 | a dict assignment keeps an existing key in place and appends a new key at the end of the insertion order |
| Ini.NormalizeValue | nornir_ansible/plugins/inventory/ansible.py:317-329 | a valueless option (`None`, whose `int()` raises `TypeError`) stays `None`; text is converted to an integer exactly when it is an integer literal; text `int()` rejects comes back unchanged as a string |
| Ini.NormalizeValueOfInt | nornir_ansible/plugins/inventory/ansible.py:325-326 | the decimal text of any integer normalises to that integer |
| Ini.NormalizeValueOfPadded | nornir_ansible/plugins/inventory/ansible.py:325-326 | a leading `+` or `-` and leading zeros are accepted: `"007"` gives 7, `"+5"` gives 5, `"-0"` gives 0 |
| Ini.OptionParts | nornir_ansible/plugins/inventory/ansible.py:346 | a word the two-name unpacking accepts is key, one `=`, value, with no `=` in either part |
| Ini.OptionOfParts | nornir_ansible/plugins/inventory/ansible.py:346 | conversely, any key and value without `=` make an accepted word that splits back into them |
| Ini.NormalizeContent | nornir_ansible/plugins/inventory/ansible.py:332-348 | the loop over the words builds the vars dict `ContentVars` defines: `{}` for an empty or valueless line, else one entry per word or the first bad word's error |
| Ini.OptionsVarsFails | nornir_ansible/plugins/inventory/ansible.py:345-347 | a host line fails exactly when some word is not one `key=value`, and the error names the first such word |
| Ini.OptionsVarsKeys | nornir_ansible/plugins/inventory/ansible.py:345-347 | the keys of a host's vars are exactly the keys its words set; earlier entries no word sets are kept |
| Ini.OptionsVarsLastWins | nornir_ansible/plugins/inventory/ansible.py:347 | a key set more than once holds the normalised value of its last word |
| Ini.SectionVarsKeys | nornir_ansible/plugins/inventory/ansible.py:360-361 | a `:vars` section's dict has exactly the section's option names as keys |
| Ini.SectionVarsLast | nornir_ansible/plugins/inventory/ansible.py:361 | each `:vars` key holds the normalised value of its last occurrence |
| Ini.ChildListSpec | nornir_ansible/plugins/inventory/ansible.py:363-364 | a `:children` section maps each listed name to an empty group and nothing else |
| Ini.SectionHostsOk | nornir_ansible/plugins/inventory/ansible.py:394-396 | a host section normalises exactly when every one of its host lines does |
| Ini.SectionHostsKeys | nornir_ansible/plugins/inventory/ansible.py:394-396 | the hosts of a section are exactly its option names |
| Ini.SectionHostsLast | nornir_ansible/plugins/inventory/ansible.py:395 | a host's vars come from its last line in the section |
| Ini.ProcessMeta | nornir_ansible/plugins/inventory/ansible.py:351-366 | a section tag fails exactly when it is neither `vars` nor `children`, and then with `Unknown tag` |
| Ini.NormalizeSections | nornir_ansible/plugins/inventory/ansible.py:368-397 | the loop over ConfigParser's sections builds the `all` group `IniNormalize` defines |
| Ini.SkipsDefault | nornir_ansible/plugins/inventory/ansible.py:383-384 | an entry named `DEFAULT`, wherever it stands in the section list `normalize` iterates, changes nothing in the result |
| Ini.IniNormalizeOk | nornir_ansible/plugins/inventory/ansible.py:381-396 | `normalize` succeeds exactly when each section is acceptable on its own |
| Ini.IniNormalizeErrors | nornir_ansible/plugins/inventory/ansible.py:386-396 | every `normalize` failure is a `ValueError`, never a `configparser.Error` |
| Ini.AllVarsLast | nornir_ansible/plugins/inventory/ansible.py:386-390 | the root's vars (which become `defaults`) are those of the last `[all:vars]` section |
| Ini.NoAllVars | nornir_ansible/plugins/inventory/ansible.py:379 | without an `[all:vars]` section the root has no `vars` key |
| Ini.AllChildrenReplaces | nornir_ansible/plugins/inventory/ansible.py:389-390 | the last `[all:children]` section alone decides the top-level children; groups from the other sections are dropped |
| Ini.FoldKeeps | nornir_ansible/plugins/inventory/ansible.py:392-396 | sections writing other slots leave a group's `hosts`, `vars` or `children` slot as it was, and never remove a group |
| Ini.LastSectionWins | nornir_ansible/plugins/inventory/ansible.py:392-396 | without `[all:children]`, each group's `hosts`, `vars` and `children` come from the last section that wrote them |
| VarsFiles.FirstVarsFileSpec | nornir_ansible/plugins/inventory/ansible.py:263-268 | the first of the four extensions, in order, naming an existing file decides the side-car file; if none does there is none |
| VarsFiles.MergeVarsDirectory | nornir_ansible/plugins/inventory/ansible.py:89-97 | merging a vars directory gives `DirectoryVars` of its files when each loads, and the loader error otherwise |
| VarsFiles.DirectoryVarsKeys | nornir_ansible/plugins/inventory/ansible.py:96-97 | the merged keys are exactly those of the files that load as dicts; other files are skipped |
| VarsFiles.DirectoryFirstWins | nornir_ansible/plugins/inventory/ansible.py:97 | a key defined by several files keeps the value of the first file listed |
| VarsFiles.LoadSideCarVars | nornir_ansible/plugins/inventory/ansible.py:83-97 | the side-car lookup for a host or group gives the vars `SideCarVars` defines for each module: file first, then directory, else `{}`; a non-dict file fails |
| VarsFiles.LegacyEmptyVarsFile | nornir_ansible/inventory/ansible.py:84 | in the legacy module an empty group vars file counts as `{}`, but an empty host vars file fails |
| VarsFiles.NoSideCar | nornir_ansible/plugins/inventory/ansible.py:83-97 | with no vars file and no vars directory the side-car vars are `{}` |
| Normalize.MapNornirVars | nornir_ansible/plugins/inventory/ansible.py:278-295 | the rename loop gives `RenameAliases` of the dict |
| Normalize.RenameAliasesAt | nornir_ansible/plugins/inventory/ansible.py:293-295 | after renaming, no alias is left; a nornir name is present exactly when it was, or its alias was; it holds the alias's value if the alias was there, else its old value |
| Normalize.RenameAliasesSpec | nornir_ansible/plugins/inventory/ansible.py:287-295 | `ansible_host`, `ansible_port`, `ansible_user` and `ansible_password` move to `hostname`, `port`, `username` and `password` and win over values already there; other keys are kept |
| Normalize.RenameAliasFree | nornir_ansible/plugins/inventory/ansible.py:293-295 | a dict without aliases is left unchanged |
| Normalize.RenameAliasesIdempotent | nornir_ansible/plugins/inventory/ansible.py:293-295 | renaming twice is renaming once |
| Normalize.AbsorbedAt | nornir_ansible/plugins/inventory/ansible.py:206-216 | absorbing vars puts reserved keys at top level and the rest in `data`, the new value replacing the old |
| Normalize.Absorb | nornir_ansible/plugins/inventory/ansible.py:206-210 | the absorb loop gives `Absorbed` of the record and vars |
| Normalize.FilledAt | nornir_ansible/plugins/inventory/ansible.py:217-224 | filling leaves `data` alone, adds every missing reserved field with its default, and keeps present ones |
| Normalize.FillReserved | nornir_ansible/plugins/inventory/ansible.py:217-224 | the loop over the reserved fields adds each missing one with its default and keeps everything else |
| Normalize.FillDefaults | nornir_ansible/inventory/ansible.py:143-147 | the field-filling step of either module gives `Filled` |
| Normalize.NormalizeData | nornir_ansible/plugins/inventory/ansible.py:186-224 | `normalize_data` gives `Normalized`: inline vars, then side-car vars, then defaults |
| Normalize.NormalizedFields | nornir_ansible/plugins/inventory/ansible.py:205-224 | a normalised record's top-level fields: side-car value, else inline value, else old value, else default; every reserved field is present |
| Normalize.NormalizedData | nornir_ansible/plugins/inventory/ansible.py:205-216 | a normalised record's `data`: the non-reserved keys of the side-car vars, then inline vars, then the old data, in that precedence |
| Normalize.SideCarWins | nornir_ansible/plugins/inventory/ansible.py:211-216 | a variable set both inline and in a side-car file takes the side-car value |
| Normalize.LegacyConnectionOptions | nornir_ansible/inventory/ansible.py:131-147 | in the legacy module a `connection_options` variable lands in `data`, and the top-level field stays `{}` unless already set |
| Normalize.NormalizedComplete | nornir_ansible/plugins/inventory/ansible.py:217-224 | a normalised record has all six top-level fields and no reserved name or alias in `data` |
| Normalize.RecordHasNoAliases | nornir_ansible/plugins/inventory/ansible.py:100 | the second `map_nornir_vars` call, on the element dict, never changes it |
| Normalize.Add | nornir_ansible/plugins/inventory/ansible.py:298-308 | `add` makes the name a key, keeps every existing entry, and gives a new name an empty entry |
| Normalize.AddIdempotent | nornir_ansible/plugins/inventory/ansible.py:307-308 | adding a name twice is adding it once |
| Walker.GroupHeadValue | nornir_ansible/plugins/inventory/ansible.py:69-100 | the first part of `parse_group` fails exactly on a bad group, `vars` or side-car file; otherwise it adds the group, appends its parent and normalises its record |
| Walker.HostParentsVisited | nornir_ansible/plugins/inventory/ansible.py:102-105 | every parent recorded for a host is a group the walk visits |
| Walker.GroupParentsVisited | nornir_ansible/plugins/inventory/ansible.py:78-79 | every parent recorded for a group is a visited group, or the group the walk started below |
| Walker.WalkHostTracks | nornir_ansible/plugins/inventory/ansible.py:122-147 | one host step records exactly that host's visit and leaves groups and defaults alone |
| Walker.WalkHostsTracks | nornir_ansible/plugins/inventory/ansible.py:113-147 | `parse_hosts` records exactly one visit per listed host, in order, and leaves groups and defaults alone |
| Walker.GroupHeadTracks | nornir_ansible/plugins/inventory/ansible.py:69-100 | the head of `parse_group` records exactly the group's own visit |
| Walker.WalkGroupTracks | nornir_ansible/plugins/inventory/ansible.py:57-105 | `parse_group` records exactly the host and group visits of its subtree, in depth-first order |
| Walker.WalkHostWellFormed | nornir_ansible/plugins/inventory/ansible.py:146-147 | a host step keeps every host and group record well formed |
| Walker.GroupHeadWellFormed | nornir_ansible/plugins/inventory/ansible.py:99-100 | a group head step keeps every record well formed |
| Walker.WalkRootAt | nornir_ansible/plugins/inventory/ansible.py:107-110 | after the walk a name is a host iff visited as one, a group iff visited as one other than `defaults`; its `groups` are its parents in visit order; every record is complete |
| Walker.WalkRootSpec | nornir_ansible/plugins/inventory/ansible.py:107-110 | the same, for the whole tables at once |
| Walker.RootDefaults | nornir_ansible/plugins/inventory/ansible.py:70-72 | when no group below the root is itself named `defaults` (whose vars would merge into `defaults` too), `defaults` is the normalised `all` vars, side-car `group_vars/all` included |
| Walker.WalkHostsOk | nornir_ansible/plugins/inventory/ansible.py:122-147 | whether `parse_hosts` fails depends only on the hosts and the side-car files, not on what was parsed before |
| Walker.WalkGroupOk | nornir_ansible/plugins/inventory/ansible.py:57-105 | whether `parse_group` fails depends only on the subtree and the side-car files |
| Walker.ExampleOk | nornir_ansible/plugins/inventory/ansible.py:57-105 | the example inventory with a repeated host walks without error |
| Walker.ExampleHostVisits | nornir_ansible/plugins/inventory/ansible.py:122-126 | in that inventory host `h` is visited twice under group `a` |
| Walker.DuplicateParents | nornir_ansible/plugins/inventory/ansible.py:125-126 | a host listed twice under one group ends with that group twice in its `groups` |
| Walker.SortGroupsSpec | nornir_ansible/plugins/inventory/ansible.py:226-235 | `sort_groups` sorts every host's and group's `groups` list, keeping its names and multiplicities, and changes nothing else |
| Parser.ParseResultSpec | nornir_ansible/plugins/inventory/ansible.py:107-111 | after `parse`, hosts and groups are the visited names, each `groups` list is sorted and holds the element's parents, and every record is complete |
| Parser.ParseResultOk | nornir_ansible/plugins/inventory/ansible.py:107-111 | `parse` succeeds on no data, and otherwise exactly when the walk of `all` succeeds |
| Parser.AnsibleParser.constructor | nornir_ansible/plugins/inventory/ansible.py:49-54 | a new parser has empty `hosts` and `groups` and `defaults` `{"data": {}}` |
| Parser.AnsibleParser.NormalizeInto | nornir_ansible/plugins/inventory/ansible.py:99-100 | normalising into an element's dict gives `Normalized`, a complete record |
| Parser.AnsibleParser.ParseHost | nornir_ansible/plugins/inventory/ansible.py:123-147 | one iteration of `parse_hosts` updates the tables as `WalkHost` does, or fails with its error |
| Parser.AnsibleParser.ParseHosts | nornir_ansible/plugins/inventory/ansible.py:113-147 | `parse_hosts` updates the tables as `WalkHosts` does, or fails with its error |
| Parser.AnsibleParser.StoreGroup | nornir_ansible/plugins/inventory/ansible.py:73-100 | a group's entry is added if new, its parent appended and its record normalised; nothing else changes |
| Parser.AnsibleParser.ParseGroupHead | nornir_ansible/plugins/inventory/ansible.py:69-100 | the head of `parse_group` updates the tables as `GroupHead` does |
| Parser.AnsibleParser.ParseGroup | nornir_ansible/plugins/inventory/ansible.py:57-105 | `parse_group` updates the tables as `WalkGroup` does, or fails with its error |
| Parser.AnsibleParser.SortHostLists | nornir_ansible/plugins/inventory/ansible.py:228-229 | every host's `groups` list is sorted; groups and defaults are untouched |
| Parser.AnsibleParser.SortGroupLists | nornir_ansible/plugins/inventory/ansible.py:231-235 | every group's `groups` list but that of `defaults` is sorted; hosts and defaults are untouched |
| Parser.AnsibleParser.SortGroups | nornir_ansible/plugins/inventory/ansible.py:226-235 | `sort_groups` leaves the tables `SortGroups` describes |
| Parser.AnsibleParser.Parse | nornir_ansible/plugins/inventory/ansible.py:107-111 | `parse` leaves the tables `ParseFrom` describes, or fails with its error |
| Detect.ParseFile | nornir_ansible/plugins/inventory/ansible.py:413-432 | `parse(hostsfile)` returns the tables `ParseInventory` describes: INI if ConfigParser reads the file, else YAML |
| Detect.NoValidInventoryIff | nornir_ansible/plugins/inventory/ansible.py:421-430 | `NornirNoValidInventoryError` is raised exactly when ConfigParser rejects the file and the YAML loader cannot scan or compose it |
| Detect.NeverNoValidInventory | nornir_ansible/plugins/inventory/ansible.py:431 | parsing a loaded inventory never raises `NornirNoValidInventoryError` |
| Detect.IniFirst | nornir_ansible/plugins/inventory/ansible.py:421-425 | when ConfigParser reads the file, the YAML reading of it plays no part |
| Detect.IniInventoryOk | nornir_ansible/plugins/inventory/ansible.py:421-432 | an INI inventory parses exactly when every section is acceptable and the walk of the `all` group it builds succeeds |
| Assemble.OptionsRoundTrip | nornir_ansible/plugins/inventory/ansible.py:445-452 | a connection dict of the six option keys, none `None`, is given back by the `ConnectionOptions` read from it |
| Assemble.ConnectionOptionsOf | nornir_ansible/plugins/inventory/ansible.py:435-453 | connection options are read exactly when the field and each of its values are dicts: one record per connection name, each read with `.get` |
| Assemble.GetConnectionOptions | nornir_ansible/plugins/inventory/ansible.py:443-453 | the loop over the connections gives `ConnectionOptionsOf` |
| Assemble.GetAttributes | nornir_ansible/plugins/inventory/ansible.py:456-472 | the method form of the `.get` reads in `_get_defaults` and `_get_inventory_element`; it mirrors the function `AttributesOf`, whose connection options are stated by `Assemble.ConnectionOptionsOf` |
| Assemble.LegacyNoConnectionOptions | nornir_ansible/inventory/ansible.py:143-147 | in the legacy module an element without top-level connection options still has none after normalisation, whatever its vars say |
| Assemble.Element.constructor | nornir_ansible/plugins/inventory/ansible.py:485-496 | a new host or group object holds its name, attributes, the shared defaults and its parent names, with no parent objects yet |
| Assemble.ResolveNames | nornir_ansible/plugins/inventory/ansible.py:530 | parent names resolve exactly when each names a group, giving the group objects in the same order; otherwise a missing name is reported |
| Assemble.BuildElements | nornir_ansible/plugins/inventory/ansible.py:517-527 | one new, distinct object per dict with its attributes, failing exactly when some dict's connection options are unreadable |
| Assemble.ResolveAll | nornir_ansible/plugins/inventory/ansible.py:529-533 | resolution succeeds exactly when every parent name is a group, and then each object's `groups` are its parents' objects, in order |
| Assemble.Load | nornir_ansible/plugins/inventory/ansible.py:513-539 | `load` succeeds exactly when every dict is readable and every parent name is a group; the inventory's objects are built from the dicts with parents resolved; a readable inventory that fails fails with `KeyError` (MissingKey), naming a parent that is not a group |
| Assemble.ParsedInventoryResolves | nornir_ansible/plugins/inventory/ansible.py:529-533 | for tables `parse` produced, every parent name is a group, so `load` never raises `KeyError` |

## Left out

- The INI input of `Ini.IniNormalize` is ConfigParser's output, not the file text. Its
  `[DEFAULT]` inheritance has already been applied: every `DEFAULT` option appears among
  the items of every other section, so it adds a host, a var or a child there. Its
  lower-casing of option names has also been applied, so host `Router1` arrives as
  `router1`. The model does not perform either step.
- ConfigParser's and the YAML loader's own lexing are not modelled. An INI file is given as
  its sections with ordered options, and a YAML file as its loaded tree. A delimiter or
  duplicate-key error in ConfigParser is one `IniSyntaxError`.
- The filesystem is not modelled: paths, `Path.is_file`/`is_dir`, `_get_all_files`' `rglob`
  and suffix filter, and `_vars_file_exists`. These become a `VarsStore` of loaded files
  and of the ordered loaded files of each directory. The inventory directory computed in
  `__init__` is implicit in that store.
- Logging and the exception messages are left out. An error is its kind and the name it
  carries.
- Text.ParseInt: models `int()` on ASCII decimal text with an optional sign. Surrounding
  whitespace, `_` separators and non-ASCII digits, which Python also accepts, are not
  modelled.
- Text.Words: splits on ASCII whitespace only. Python's `str.split()` also splits on other
  Unicode whitespace.
- YAML keys are strings in the model. Non-string keys (integers, booleans) are not modelled.
- YAML scalars other than null, booleans, integers and strings (floats, timestamps) and
  YAML sets are not represented by `Types.Value`. The pipeline passes values through
  without inspecting them, so no computed result depends on them.
- Parser.AnsibleParser.ParseHost: in Python, `add` and the parent append happen before a
  side-car file is read. If that read fails, the half-updated host is left behind. The model
  reports the error without that state, because the exception ends `parse` and the state is
  never seen.
- The root call `parse_group("defaults", …)` has parent `None`. The model writes it as `""`.
  Both are falsy in the `parent and …` test.
- Python dicts keep insertion order, while the tables are Dafny maps. The `hosts` and
  `groups` tables therefore have no order. Which missing parent name `Assemble.Load` reports
  when several are missing is not fixed.
- Nornir's own `Host`, `Group`, `Defaults` and `ParentGroups` classes are reduced to the
  fields `load` sets.
- `AnsibleInventory.__init__` only calls `parse`. `AnsibleInventory.dict` only serialises,
  through nornir's `dict()`, and is not modelled.
- YAML anchors and aliases: the model's input is a finite tree of values. A cyclic document
  (an alias inside its own anchor, on which `parse_group` recurses until `RecursionError`) is
  not modelled, nor is `map_nornir_vars` renaming keys in place in a node that several
  places share through an alias (nornir_ansible/plugins/inventory/ansible.py:205, :211),
  where the second visit sees the already renamed keys.
- The YAML loader's result is typed as a dict by a `cast`. A loaded document whose top level
  is not a dict is `Parser.Original.NotADict`; an empty document is `Parser.Original.NoData`.

=== FILE: assemble.dfy ===
/**
 * `AnsibleInventory.load`: the parsed `hosts`, `groups` and `defaults` dicts turned into
 * inventory objects, each parent group name replaced by the group object of that name.
 */
module Assemble {
  import opened Wrappers
  import opened Types
  import opened Text
  import opened Normalize
  import opened Walker
  import opened Parser

  // ---------------------------------------------------------------------------------------
  // `_get_connection_options`, `_get_defaults`, `_get_inventory_element`
  // ---------------------------------------------------------------------------------------

  /** nornir's `ConnectionOptions`, as a plain record. */
  datatype ConnectionOptions = ConnectionOptions(
    hostname: Value, port: Value, username: Value, password: Value, platform: Value, extras: Value)

  /** The keys `_get_connection_options` reads from each connection's dict. */
  const OptionKeys: set<string> := {"hostname", "port", "username", "password", "platform", "extras"}

  /** `d.get(k)`. */
  function Get(d: map<string, Value>, k: string): Value
  {
    if k in d then d[k] else Null
  }

  /** The options of one connection, read with `.get`. */
  function OptionsOf(d: map<string, Value>): ConnectionOptions
  {
    ConnectionOptions(Get(d, "hostname"), Get(d, "port"), Get(d, "username"),
                      Get(d, "password"), Get(d, "platform"), Get(d, "extras"))
  }

  /** The non-`None` attributes of a `ConnectionOptions`, as a dict. */
  function OptionsDict(o: ConnectionOptions): map<string, Value>
  {
    var pairs := map[
      "hostname" := o.hostname, "port" := o.port, "username" := o.username,
      "password" := o.password, "platform" := o.platform, "extras" := o.extras];
    map k | k in pairs && pairs[k] != Null :: pairs[k]
  }

  /**
   * The copy loses nothing: a connection dict holding only the six keys, none of them
   * `None`, is given back by the record read from it.
   */
  lemma OptionsRoundTrip(d: map<string, Value>)
    requires d.Keys <= OptionKeys
    requires forall k :: k in d ==> d[k] != Null
    ensures OptionsDict(OptionsOf(d)) == d
  {
    var r := OptionsDict(OptionsOf(d));
    forall k
      ensures k in r <==> k in d
    {
    }
    assert r.Keys == d.Keys;
  }

  /**
   * `_get_connection_options(data)`: one record per connection name. `data` and each of its
   * values must be dicts (`.items()`, `.get`); otherwise the call raises.
   */
  function ConnectionOptionsOf(data: Value): (r: Result<map<string, ConnectionOptions>, Error>)
    ensures r.Err? ==> r.error == NotAMapping
    ensures r.Ok? <==> data.Dict? && forall k :: k in data.entries ==> data.entries[k].Dict?
    ensures r.Ok? ==> r.value.Keys == data.entries.Keys
    ensures r.Ok? ==> forall k :: k in r.value ==> r.value[k] == OptionsOf(data.entries[k].entries)
  {
    if !data.Dict? then Err(NotAMapping)
    else if exists k :: k in data.entries && !data.entries[k].Dict? then Err(NotAMapping)
    else Ok(map k | k in data.entries :: OptionsOf(data.entries[k].entries))
  }

  /** `_get_connection_options`, with its loop. */
  method GetConnectionOptions(data: Value) returns (r: Result<map<string, ConnectionOptions>, Error>)
    ensures r == ConnectionOptionsOf(data)
  {
    if !data.Dict? {
      return Err(NotAMapping);
    }
    var result: map<string, ConnectionOptions> := map[];
    var todo := data.entries.Keys;
    while todo != {}
      invariant todo <= data.entries.Keys
      invariant result.Keys == data.entries.Keys - todo
      invariant forall k :: k in result ==> data.entries[k].Dict? && result[k] == OptionsOf(data.entries[k].entries)
      decreases todo
    {
      var k :| k in todo;
      var connection := data.entries[k];
      if !connection.Dict? {
        assert k in data.entries && !data.entries[k].Dict?;
        return Err(NotAMapping);
      }
      result := result[k := OptionsOf(connection.entries)];
      todo := todo - {k};
    }
    assert result == map k | k in data.entries :: OptionsOf(data.entries[k].entries);
    r := Ok(result);
  }

  /** What `_get_defaults` and `_get_inventory_element` read from a dict. */
  datatype Attributes = Attributes(
    hostname: Value, port: Value, username: Value, password: Value, platform: Value,
    data: Value, connectionOptions: map<string, ConnectionOptions>)

  /** `data.get("connection_options", {})`. */
  function ConnectionOptionsField(rec: Record): Value
  {
    if "connection_options" in rec.fields then rec.fields["connection_options"] else Dict(map[])
  }

  /** The attributes of a host, group or defaults dict, or the failure reading them. */
  function AttributesOf(rec: Record): Result<Attributes, Error>
  {
    var options :- ConnectionOptionsOf(ConnectionOptionsField(rec));
    Ok(Attributes(Get(rec.fields, "hostname"), Get(rec.fields, "port"), Get(rec.fields, "username"),
                  Get(rec.fields, "password"), Get(rec.fields, "platform"), Dict(rec.data), options))
  }

  /** `_get_defaults` / the attribute part of `_get_inventory_element`. */
  method GetAttributes(rec: Record) returns (r: Result<Attributes, Error>)
    ensures r == AttributesOf(rec)
  {
    var options := GetConnectionOptions(ConnectionOptionsField(rec));
    if options.Err? {
      return Err(options.error);
    }
    r := Ok(Attributes(Get(rec.fields, "hostname"), Get(rec.fields, "port"), Get(rec.fields, "username"),
                       Get(rec.fields, "password"), Get(rec.fields, "platform"), Dict(rec.data), options.value));
  }

  /**
   * In `Legacy` a `connection_options` variable is free-form data, so the objects never
   * receive connection options from the inventory: a record whose `connection_options`
   * field is `{}` or missing still has none after `normalize_data`.
   */
  lemma LegacyNoConnectionOptions(rec: Record, inline: Vars, fileVars: Vars, hostname: Option<string>)
    requires ConnectionOptionsField(rec) == Dict(map[])
    ensures ConnectionOptionsField(Normalized(Legacy, rec, inline, fileVars, hostname)) == Dict(map[])
    ensures AttributesOf(Normalized(Legacy, rec, inline, fileVars, hostname)).Ok?
    ensures AttributesOf(Normalized(Legacy, rec, inline, fileVars, hostname)).value.connectionOptions == map[]
  {
    NormalizedFields(Legacy, rec, inline, fileVars, hostname, "connection_options");
  }

  // ---------------------------------------------------------------------------------------
  // Host and group objects
  // ---------------------------------------------------------------------------------------

  /**
   * A nornir `Host` or `Group`: its attributes, the shared defaults, and `groups`, which
   * `load` reassigns from the parent names to the parent group objects.
   */
  class Element {
    const name: string
    const attrs: Attributes
    const defaults: Attributes
    const parentNames: seq<string>
    var groups: seq<Element>

    constructor(name: string, attrs: Attributes, defaults: Attributes, parentNames: seq<string>)
      ensures this.name == name && this.attrs == attrs && this.defaults == defaults
      ensures this.parentNames == parentNames && groups == []
    {
      this.name := name;
      this.attrs := attrs;
      this.defaults := defaults;
      this.parentNames := parentNames;
      groups := [];
    }
  }

  /** nornir's `Inventory`. */
  datatype Inventory = Inventory(hosts: map<string, Element>, groups: map<string, Element>, defaults: Attributes)

  /**
   * `[serialized_groups[g] for g in names]`: the group objects named, in order, or a
   * `KeyError` for the first name that is not a group.
   */
  function ResolveNames(names: seq<string>, elems: map<string, Element>): (r: Result<seq<Element>, Error>)
    ensures r.Ok? <==> forall i :: 0 <= i < |names| ==> names[i] in elems
    ensures r.Ok? ==> |r.value| == |names| && forall i :: 0 <= i < |names| ==> r.value[i] == elems[names[i]]
    ensures r.Err? ==> r.error.MissingKey? && r.error.key in names && r.error.key !in elems
  {
    if names == [] then Ok([])
    else if names[0] !in elems then Err(MissingKey(names[0]))
    else
      var rest :- ResolveNames(names[1..], elems);
      assert forall i :: 1 <= i < |names| ==> names[i] == names[1..][i - 1];
      Ok([elems[names[0]]] + rest)
  }

  /** The fixed part of an object `_get_inventory_element` builds from `entry`. */
  predicate Made(e: Element, name: string, entry: Entry, defaults: Attributes)
  {
    && e.name == name && AttributesOf(entry.record) == Ok(e.attrs) && e.defaults == defaults
    && e.parentNames == entry.groups
  }

  /** An object as `_get_inventory_element` builds it, before its `groups` are resolved. */
  predicate Built(e: Element, name: string, entry: Entry, defaults: Attributes)
    reads e
  {
    Made(e, name, entry, defaults) && e.groups == []
  }

  /** Every object of `elems` is a different one. */
  predicate Distinct(elems: map<string, Element>)
  {
    forall x, y :: x in elems && y in elems && x != y ==> elems[x] != elems[y]
  }

  /** Each dict is one `_get_inventory_element` can read. */
  predicate Readable(table: map<string, Entry>)
  {
    forall x :: x in table ==> AttributesOf(table[x].record).Ok?
  }

  /** The first loop, or the second, of `load`: one new object per host, or per group. */
  method BuildElements(table: map<string, Entry>, defaults: Attributes)
    returns (r: Result<map<string, Element>, Error>)
    ensures r.Ok? <==> Readable(table)
    ensures r.Err? ==> r.error == NotAMapping
    ensures r.Ok? ==> r.value.Keys == table.Keys && Distinct(r.value)
    ensures r.Ok? ==> forall x :: x in table ==> fresh(r.value[x]) && Built(r.value[x], x, table[x], defaults)
  {
    var elems: map<string, Element> := map[];
    var todo := table.Keys;
    while todo != {}
      invariant todo <= table.Keys && elems.Keys == table.Keys - todo
      invariant Distinct(elems)
      invariant forall x :: x in elems ==> fresh(elems[x]) && Built(elems[x], x, table[x], defaults)
      decreases todo
    {
      var x :| x in todo;
      var attrs := GetAttributes(table[x].record);
      if attrs.Err? {
        return Err(attrs.error);
      }
      var e := new Element(x, attrs.value, defaults, table[x].groups);
      elems := elems[x := e];
      todo := todo - {x};
    }
    r := Ok(elems);
  }

  /** Every name in a `groups` list of `table` is one of `groupNames`. */
  predicate ParentsKnown(table: map<string, Entry>, groupNames: set<string>)
  {
    forall x, g :: x in table && g in table[x].groups ==> g in groupNames
  }

  /** The object `e` is built from `entry`, its `groups` resolved against `groupElems`. */
  predicate ResolvedOne(e: Element, name: string, entry: Entry, groupElems: map<string, Element>, defaults: Attributes)
    reads e
  {
    Made(e, name, entry, defaults) && ResolveNames(entry.groups, groupElems) == Ok(e.groups)
  }

  /** The objects of `elems` are built from `table` and their `groups` resolved against `groupElems`. */
  predicate Resolved(table: map<string, Entry>, elems: map<string, Element>, groupElems: map<string, Element>,
                     defaults: Attributes)
    reads elems.Values
  {
    && elems.Keys == table.Keys
    && forall x :: x in table ==> ResolvedOne(elems[x], x, table[x], groupElems, defaults)
  }

  /**
   * The resolution loop of `load` over hosts or groups: each object's parent names become
   * the group objects of those names, or a missing name raises `KeyError`.
   */
  method ResolveAll(elems: map<string, Element>, table: map<string, Entry>, groupElems: map<string, Element>,
                    defaults: Attributes)
    returns (r: Result<(), Error>)
    requires elems.Keys == table.Keys && Distinct(elems)
    requires forall x :: x in table ==> Made(elems[x], x, table[x], defaults)
    modifies elems.Values
    ensures r.Ok? <==> ParentsKnown(table, groupElems.Keys)
    ensures r.Err? ==> r.error.MissingKey? && r.error.key !in groupElems
    ensures r.Ok? ==> Resolved(table, elems, groupElems, defaults)
  {
    ParentsKnownResolve(table, groupElems);
    r := ResolveEach(elems, table, groupElems);
  }

  /** The loop itself: every list resolves and is stored, or the first failure is reported. */
  method ResolveEach(elems: map<string, Element>, table: map<string, Entry>, groupElems: map<string, Element>)
    returns (r: Result<(), Error>)
    requires elems.Keys == table.Keys && Distinct(elems)
    requires forall x :: x in table ==> elems[x].parentNames == table[x].groups
    modifies elems.Values
    ensures r.Err? ==> exists x :: x in table && ResolveNames(table[x].groups, groupElems) == Err(r.error)
    ensures r.Ok? ==> forall x :: x in table ==> ResolveNames(table[x].groups, groupElems) == Ok(elems[x].groups)
  {
    var todo := elems.Keys;
    while todo != {}
      invariant todo <= elems.Keys
      invariant forall y :: y in elems.Keys - todo ==> ResolveNames(table[y].groups, groupElems) == Ok(elems[y].groups)
      decreases todo
    {
      var x :| x in todo;
      var e := elems[x];
      var resolved := ResolveNames(e.parentNames, groupElems);
      if resolved.Err? {
        return Err(resolved.error);
      }
      label before:
      e.groups := resolved.value;
      forall y | y in elems.Keys - (todo - {x})
        ensures ResolveNames(table[y].groups, groupElems) == Ok(elems[y].groups)
      {
        if y != x {
          assert elems[y].groups == old@before(elems[y].groups);
        }
      }
      todo := todo - {x};
    }
    r := Ok(());
  }

  /** The parents of `table` are all known exactly when each list resolves. */
  lemma ParentsKnownResolve(table: map<string, Entry>, groupElems: map<string, Element>)
    ensures ParentsKnown(table, groupElems.Keys) <==>
      forall x :: x in table ==> ResolveNames(table[x].groups, groupElems).Ok?
  {
    if forall x :: x in table ==> ResolveNames(table[x].groups, groupElems).Ok? {
      forall x, g | x in table && g in table[x].groups
        ensures g in groupElems
      {
        var i :| 0 <= i < |table[x].groups| && table[x].groups[i] == g;
      }
    }
  }

  /** Every name in a `groups` list is a group. */
  predicate Resolvable(t: Tables)
  {
    ParentsKnown(t.hosts, t.groups.Keys) && ParentsKnown(t.groups, t.groups.Keys)
  }

  /** The objects of `inv` are those `load` makes of `t`, their parents resolved. */
  predicate Loaded(t: Tables, inv: Inventory)
    reads inv.hosts.Values, inv.groups.Values
  {
    && AttributesOf(t.defaults) == Ok(inv.defaults)
    && Resolved(t.hosts, inv.hosts, inv.groups, inv.defaults)
    && Resolved(t.groups, inv.groups, inv.groups, inv.defaults)
  }

  /**
   * `AnsibleInventory.load()`: the defaults, one object per host, one per group, then each
   * `groups` list of names replaced by the group objects, in order. A dict whose connection
   * options are not dicts raises first; then a parent name that is not a group.
   */
  method Load(t: Tables) returns (r: Result<Inventory, Error>)
    ensures r.Ok? <==> AttributesOf(t.defaults).Ok? && Readable(t.hosts) && Readable(t.groups) && Resolvable(t)
    ensures !(AttributesOf(t.defaults).Ok? && Readable(t.hosts) && Readable(t.groups)) ==> r == Err(NotAMapping)
    ensures AttributesOf(t.defaults).Ok? && Readable(t.hosts) && Readable(t.groups) && r.Err? ==> r.error.MissingKey?
    ensures r.Err? && r.error.MissingKey? ==> r.error.key !in t.groups
    ensures r.Ok? ==> Loaded(t, r.value)
  {
    var defaults :- GetAttributes(t.defaults);
    var hosts :- BuildElements(t.hosts, defaults);
    var groups :- BuildElements(t.groups, defaults);
    assert forall y :: y in groups ==> groups[y] !in hosts.Values;
    var resolvedHosts := ResolveAll(hosts, t.hosts, groups, defaults);
    if resolvedHosts.Err? {
      return Err(resolvedHosts.error);
    }
    label hostsDone:
    var resolvedGroups := ResolveAll(groups, t.groups, groups, defaults);
    if resolvedGroups.Err? {
      return Err(resolvedGroups.error);
    }
    forall x | x in t.hosts
      ensures ResolvedOne(hosts[x], x, t.hosts[x], groups, defaults)
    {
      assert hosts[x] !in groups.Values;
      assert hosts[x].groups == old@hostsDone(hosts[x].groups);
    }
    r := Ok(Inventory(hosts, groups, defaults));
  }

  // ---------------------------------------------------------------------------------------
  // A parsed inventory always resolves
  // ---------------------------------------------------------------------------------------

  /**
   * After `parse`, every name in a host's or a group's `groups` list is a group, so `load`
   * never raises `KeyError` on a parsed inventory.
   */
  lemma ParsedInventoryResolves(cfg: Config, node: GroupNode)
    requires ParseResult(cfg, TopLevel(Some(node))).Ok?
    ensures Resolvable(ParseResult(cfg, TopLevel(Some(node))).value)
  {
    var r := ParseResult(cfg, TopLevel(Some(node))).value;
    forall x, g | x in r.hosts && g in r.hosts[x].groups
      ensures g in r.groups
    {
      HostParentIsGroup(cfg, node, x, g);
    }
    forall x, g | x in r.groups && g in r.groups[x].groups
      ensures g in r.groups
    {
      GroupParentIsGroup(cfg, node, x, g);
    }
  }

  lemma HostParentIsGroup(cfg: Config, node: GroupNode, x: string, g: string)
    requires ParseResult(cfg, TopLevel(Some(node))).Ok?
    requires x in ParseResult(cfg, TopLevel(Some(node))).value.hosts
    requires g in ParseResult(cfg, TopLevel(Some(node))).value.hosts[x].groups
    ensures g in ParseResult(cfg, TopLevel(Some(node))).value.groups
  {
    var r := ParseResult(cfg, TopLevel(Some(node))).value;
    var hv := HostVisits("defaults", node);
    ParseResultSpec(cfg, node);
    HostParentsVisited("defaults", node, "");
    assert g in multiset(r.hosts[x].groups);
    assert g in Parents(hv, x);
    ParentsNamed(hv, x, g);
  }

  lemma GroupParentIsGroup(cfg: Config, node: GroupNode, x: string, g: string)
    requires ParseResult(cfg, TopLevel(Some(node))).Ok?
    requires x in ParseResult(cfg, TopLevel(Some(node))).value.groups
    requires g in ParseResult(cfg, TopLevel(Some(node))).value.groups[x].groups
    ensures g in ParseResult(cfg, TopLevel(Some(node))).value.groups
  {
    var r := ParseResult(cfg, TopLevel(Some(node))).value;
    var gv := GroupVisits("defaults", node, "");
    ParseResultSpec(cfg, node);
    GroupParentsVisited("defaults", node, "");
    assert g in multiset(r.groups[x].groups);
    assert g in Parents(gv, x);
    ParentsNamed(gv, x, g);
  }
}

=== FILE: detect.dfy ===
/**
 * `parse(hostsfile)`: read the inventory as INI, fall back to YAML when ConfigParser
 * rejects it, walk what was loaded and hand back the three dicts.
 */
module Detect {
  import opened Wrappers
  import opened Types
  import opened Walker
  import opened Ini
  import opened Parser

  /** What `INIParser(hostsfile)` finds: ConfigParser's sections, or a `configparser.Error`. */
  datatype IniSource = IniSections(sections: seq<Section>) | IniSyntaxError

  /**
   * What `YAMLParser(hostsfile)` finds: the loaded document, a `ScannerError` or
   * `ComposerError`, or any other loader error.
   */
  datatype YamlSource = YamlLoaded(doc: Original) | YamlScanError | YamlOtherError

  /**
   * `original_data` of the parser `parse` settles on: the INI inventory unless ConfigParser
   * fails, the YAML document otherwise. An error of `normalize` is not a ConfigParser error
   * and ends the parse; a YAML file that does not scan or compose means there is no valid
   * inventory.
   */
  function LoadInventory(hostsfile: string, ini: IniSource, yaml: YamlSource): Result<Original, Error>
  {
    match ini
    case IniSections(sections) =>
      var root :- IniNormalize(sections);
      Ok(TopLevel(Some(root)))
    case IniSyntaxError =>
      match yaml
      case YamlLoaded(doc) => Ok(doc)
      case YamlScanError => Err(NoValidInventory(hostsfile))
      case YamlOtherError => Err(YamlFailure)
  }

  /** `parse(hostsfile)`: the `hosts`, `groups` and `defaults` of the parser, once parsed. */
  function ParseInventory(cfg: Config, hostsfile: string, ini: IniSource, yaml: YamlSource): Result<Tables, Error>
  {
    var original :- LoadInventory(hostsfile, ini, yaml);
    ParseResult(cfg, original)
  }

  /** `parse(hostsfile)`, building the parser object and running its methods. */
  method ParseFile(cfg: Config, hostsfile: string, ini: IniSource, yaml: YamlSource)
    returns (r: Result<Tables, Error>)
    ensures r == ParseInventory(cfg, hostsfile, ini, yaml)
  {
    var original: Original;
    match ini {
      case IniSections(sections) =>
        var root := NormalizeSections(sections);
        if root.Err? {
          return Err(root.error);
        }
        original := TopLevel(Some(root.value));
      case IniSyntaxError =>
        match yaml {
          case YamlLoaded(doc) =>
            original := doc;
          case YamlScanError =>
            return Err(NoValidInventory(hostsfile));
          case YamlOtherError =>
            return Err(YamlFailure);
        }
    }
    var parser := new AnsibleParser(cfg, original);
    var parsed := parser.Parse();
    if parsed.Err? {
      return Err(parsed.error);
    }
    r := Ok(parser.State());
  }

  /**
   * `NornirNoValidInventoryError` is raised exactly when ConfigParser rejects the file and
   * the YAML loader cannot scan or compose it; no dicts are returned then.
   */
  lemma NoValidInventoryIff(cfg: Config, hostsfile: string, ini: IniSource, yaml: YamlSource)
    ensures ParseInventory(cfg, hostsfile, ini, yaml) == Err(NoValidInventory(hostsfile))
      <==> ini.IniSyntaxError? && yaml.YamlScanError?
  {
    if ini.IniSections? {
      IniNormalizeErrors(ini.sections);
      if IniNormalize(ini.sections).Ok? {
        NeverNoValidInventory(cfg, TopLevel(Some(IniNormalize(ini.sections).value)), hostsfile);
      }
    } else if yaml.YamlLoaded? {
      NeverNoValidInventory(cfg, yaml.doc, hostsfile);
    }
  }

  /** Walking a loaded inventory never reports a missing inventory. */
  lemma NeverNoValidInventory(cfg: Config, original: Original, hostsfile: string)
    ensures ParseResult(cfg, original) != Err(NoValidInventory(hostsfile))
  {
    if original.TopLevel? && original.all.Some? {
      WalkNeverNoValidInventory(cfg, Empty, "defaults", original.all.value, "", hostsfile);
    }
  }

  /** None of the errors a walk raises is `NornirNoValidInventoryError`. */
  lemma {:induction false} WalkNeverNoValidInventory(cfg: Config, st: Tables, group: string, node: GroupNode,
                                                     parent: string, hostsfile: string)
    ensures WalkGroup(cfg, st, group, node, parent) != Err(NoValidInventory(hostsfile))
    decreases node, 1
  {
    if GroupHead(cfg, st, group, node, parent).Ok? {
      var st2 := GroupHead(cfg, st, group, node, parent).value;
      WalkHostsNeverNoValidInventory(cfg, st2, HostsOf(node), group, hostsfile);
      if !node.hosts.NotMapping? && WalkHosts(cfg, st2, HostsOf(node), group).Ok? {
        var st3 := WalkHosts(cfg, st2, HostsOf(node), group).value;
        if !node.children.BadChildren? {
          WalkChildrenNeverNoValidInventory(cfg, st3, group, node, 0, hostsfile);
        }
      }
    }
  }

  lemma {:induction false} WalkChildrenNeverNoValidInventory(cfg: Config, st: Tables, group: string,
                                                             node: GroupNode, i: nat, hostsfile: string)
    requires i <= |ChildrenOf(node)|
    ensures WalkChildren(cfg, st, group, node, i) != Err(NoValidInventory(hostsfile))
    decreases node, 0, |ChildrenOf(node)| - i, 1
  {
    if i < |ChildrenOf(node)| {
      var child := node.children.nodes[i];
      assert child in node.children.nodes;
      WalkNeverNoValidInventory(cfg, st, child.0, child.1, group, hostsfile);
      WalkChildrenUnfold(cfg, st, group, node, i);
      if WalkGroup(cfg, st, child.0, child.1, group).Ok? {
        RestNeverNoValidInventory(cfg, st, group, node, i, hostsfile);
      }
    }
  }

  /** Child `i` walked, the rest of the loop raises no such error either. */
  lemma {:induction false} RestNeverNoValidInventory(cfg: Config, st: Tables, group: string,
                                                     node: GroupNode, i: nat, hostsfile: string)
    requires i < |ChildrenOf(node)|
    requires WalkGroup(cfg, st, node.children.nodes[i].0, node.children.nodes[i].1, group).Ok?
    ensures WalkChildren(cfg, st, group, node, i) != Err(NoValidInventory(hostsfile))
    decreases node, 0, |ChildrenOf(node)| - i, 0
  {
    var child := node.children.nodes[i];
    WalkChildrenUnfold(cfg, st, group, node, i);
    WalkChildrenNeverNoValidInventory(cfg, WalkGroup(cfg, st, child.0, child.1, group).value,
                                      group, node, i + 1, hostsfile);
  }

  lemma {:induction false} WalkHostsNeverNoValidInventory(cfg: Config, st: Tables, hosts: seq<(string, HostNode)>,
                                                          parent: string, hostsfile: string)
    ensures WalkHosts(cfg, st, hosts, parent) != Err(NoValidInventory(hostsfile))
    decreases |hosts|
  {
    if hosts != [] && WalkHost(cfg, st, hosts[0].0, hosts[0].1, parent).Ok? {
      WalkHostsNeverNoValidInventory(cfg, WalkHost(cfg, st, hosts[0].0, hosts[0].1, parent).value,
                                     hosts[1..], parent, hostsfile);
    }
  }

  /** ConfigParser is tried first: an INI file it reads is never looked at as YAML. */
  lemma IniFirst(cfg: Config, hostsfile: string, sections: seq<Section>, yaml1: YamlSource, yaml2: YamlSource)
    ensures ParseInventory(cfg, hostsfile, IniSections(sections), yaml1)
      == ParseInventory(cfg, hostsfile, IniSections(sections), yaml2)
  {
  }

  /**
   * An INI inventory parses exactly when every section is one `normalize` accepts and the
   * walk of the `all` node it builds raises nothing.
   */
  lemma IniInventoryOk(cfg: Config, hostsfile: string, sections: seq<Section>, yaml: YamlSource)
    ensures ParseInventory(cfg, hostsfile, IniSections(sections), yaml).Ok? <==>
      && (forall i :: 0 <= i < |sections| ==> SectionOk(sections[i]))
      && IniNormalize(sections).Ok?
      && GroupOk(cfg, "defaults", IniNormalize(sections).value, "")
  {
    IniNormalizeOk(sections);
    if IniNormalize(sections).Ok? {
      ParseResultOk(cfg, TopLevel(Some(IniNormalize(sections).value)));
    }
  }
}

=== FILE: ini.dfy ===
/**
 * `INIParser`: the sections ConfigParser read from an INI inventory turned into the same
 * raw group tree a YAML inventory loads as, which the walker then processes.
 */
module Ini {
  import opened Wrappers
  import opened Types
  import opened Text

  // ---------------------------------------------------------------------------------------
  // Insertion-ordered dicts as association lists.
  // ---------------------------------------------------------------------------------------

  /** `dict.get(k)` on an insertion-ordered dict. */
  function Lookup<X>(dict: seq<(string, X)>, k: string): Option<X>
  {
    if dict == [] then None
    else if dict[0].0 == k then Some(dict[0].1)
    else Lookup(dict[1..], k)
  }

  /** The keys of an insertion-ordered dict, in order. */
  function KeysInOrder<X>(dict: seq<(string, X)>): seq<string>
  {
    if dict == [] then [] else [dict[0].0] + KeysInOrder(dict[1..])
  }

  /** `dict[k] = v`: an existing key keeps its place and takes `v`; a new key goes last. */
  function Put<X>(dict: seq<(string, X)>, k: string, v: X): seq<(string, X)>
  {
    if dict == [] then [(k, v)]
    else if dict[0].0 == k then [(k, v)] + dict[1..]
    else [dict[0]] + Put(dict[1..], k, v)
  }

  /** After `dict[k] = v`, `k` maps to `v` and every other key to what it mapped to before. */
  lemma {:induction false} PutLookup<X>(dict: seq<(string, X)>, k: string, v: X, key: string)
    ensures Lookup(Put(dict, k, v), key) == if key == k then Some(v) else Lookup(dict, key)
  {
    if dict != [] && dict[0].0 != k {
      PutLookup(dict[1..], k, v, key);
    }
  }

  /** `dict[k] = v` keeps the key order, appending `k` when it is new. */
  lemma {:induction false} PutKeys<X>(dict: seq<(string, X)>, k: string, v: X)
    ensures KeysInOrder(Put(dict, k, v)) ==
      if k in KeysInOrder(dict) then KeysInOrder(dict) else KeysInOrder(dict) + [k]
  {
    if dict != [] && dict[0].0 != k {
      PutKeys(dict[1..], k, v);
      assert KeysInOrder(dict) == [dict[0].0] + KeysInOrder(dict[1..]);
    }
  }

  /** A key is found exactly when it is one of the dict's keys. */
  lemma {:induction false} LookupKeys<X>(dict: seq<(string, X)>, k: string)
    ensures Lookup(dict, k).Some? <==> k in KeysInOrder(dict)
  {
    if dict != [] {
      LookupKeys(dict[1..], k);
    }
  }

  // ---------------------------------------------------------------------------------------
  // `normalize_value` and `normalize_content`
  // ---------------------------------------------------------------------------------------

  /**
   * `normalize_value`: `int(value)` when the value is an integer literal, the string itself
   * otherwise; a bare INI key has no value (`None`), on which `int` fails and `None` is kept.
   */
  function NormalizeValue(value: Option<string>): (r: Value)
    ensures r.Null? <==> value.None?
    ensures r.Int? <==> value.Some? && IsIntLiteral(value.value)
    ensures value.Some? && !IsIntLiteral(value.value) ==> r == Str(value.value)
  {
    match value
    case None => Null
    case Some(s) => if IsIntLiteral(s) then Int(ParseInt(s)) else Str(s)
  }

  /** A number written out in decimal comes back as that number. */
  lemma NormalizeValueOfInt(i: int)
    ensures NormalizeValue(Some(ShowInt(i))) == Int(i)
  {
    ParseShowInt(i);
  }

  /** A sign and leading zeros are accepted too: `"007"`, `"+5"` and `"-0"` become numbers. */
  lemma NormalizeValueOfPadded(sign: string, zeros: string, n: nat)
    requires sign == "" || sign == "+" || sign == "-"
    requires AllZeros(zeros)
    ensures NormalizeValue(Some(sign + zeros + ShowNat(n))) == Int(if sign == "-" then -(n as int) else n as int)
  {
    ParseSignedPadded(sign, zeros, n);
  }

  /** `key, value = option.split("=")` succeeds: the token holds exactly one `=`. */
  predicate IsOption(token: string)
  {
    |Split(token, '=')| == 2
  }

  function OptionKey(token: string): string
    requires IsOption(token)
  {
    Split(token, '=')[0]
  }

  function OptionValue(token: string): string
    requires IsOption(token)
  {
    Split(token, '=')[1]
  }

  /** An option token is its key, `=`, and its value, neither of which holds `=`. */
  lemma OptionParts(token: string)
    requires IsOption(token)
    ensures token == OptionKey(token) + "=" + OptionValue(token)
    ensures '=' !in OptionKey(token) && '=' !in OptionValue(token)
  {
    JoinSplit(token, '=');
  }

  /** Conversely, `key=value` with no other `=` is an option with that key and value. */
  lemma OptionOfParts(key: string, value: string)
    requires '=' !in key && '=' !in value
    ensures IsOption(key + "=" + value)
    ensures OptionKey(key + "=" + value) == key && OptionValue(key + "=" + value) == value
  {
    SplitJoin([key, value], '=');
  }

  /** The loop of `normalize_content` over `tokens`, starting from `acc`. */
  function OptionsVars(tokens: seq<string>, acc: Vars): Result<Vars, Error>
    decreases |tokens|
  {
    if tokens == [] then Ok(acc)
    else if !IsOption(tokens[0]) then Err(BadOption(tokens[0]))
    else OptionsVars(tokens[1..], acc[OptionKey(tokens[0]) := NormalizeValue(Some(OptionValue(tokens[0])))])
  }

  /** `normalize_content`: the host vars written after a host name on an INI line. */
  function ContentVars(content: Option<string>): Result<Vars, Error>
  {
    if content.None? || content.value == "" then Ok(map[])
    else OptionsVars(Words(content.value), map[])
  }

  /** `normalize_content`, with its loop. */
  method NormalizeContent(content: Option<string>) returns (r: Result<Vars, Error>)
    ensures r == ContentVars(content)
  {
    if content.None? || content.value == "" {
      return Ok(map[]);
    }
    var tokens := Words(content.value);
    var result: Vars := map[];
    var i := 0;
    while i < |tokens|
      invariant 0 <= i <= |tokens|
      invariant OptionsVars(tokens, map[]) == OptionsVars(tokens[i..], result)
    {
      assert tokens[i..][1..] == tokens[i + 1..];
      var token := tokens[i];
      if !IsOption(token) {
        return Err(BadOption(token));
      }
      result := result[OptionKey(token) := NormalizeValue(Some(OptionValue(token)))];
      i := i + 1;
    }
    r := Ok(result);
  }

  /** The loop fails exactly when some token is not `key=value`, naming the first such token. */
  lemma {:induction false} OptionsVarsFails(tokens: seq<string>, acc: Vars)
    ensures OptionsVars(tokens, acc).Err? <==> exists i :: 0 <= i < |tokens| && !IsOption(tokens[i])
    ensures OptionsVars(tokens, acc).Err? ==>
      exists i :: 0 <= i < |tokens| && !IsOption(tokens[i])
        && OptionsVars(tokens, acc).error == BadOption(tokens[i])
        && forall j :: 0 <= j < i ==> IsOption(tokens[j])
    decreases |tokens|
  {
    if tokens != [] && IsOption(tokens[0]) {
      var acc' := acc[OptionKey(tokens[0]) := NormalizeValue(Some(OptionValue(tokens[0])))];
      OptionsVarsFails(tokens[1..], acc');
      if exists i :: 0 <= i < |tokens| && !IsOption(tokens[i]) {
        var i :| 0 <= i < |tokens| && !IsOption(tokens[i]);
        assert tokens[1..][i - 1] == tokens[i];
      }
      if OptionsVars(tokens, acc).Err? {
        var i :| 0 <= i < |tokens| - 1 && !IsOption(tokens[1..][i])
          && OptionsVars(tokens[1..], acc').error == BadOption(tokens[1..][i])
          && forall j :: 0 <= j < i ==> IsOption(tokens[1..][j]);
        forall j | 0 < j < i + 1
          ensures IsOption(tokens[j])
        {
          assert tokens[j] == tokens[1..][j - 1];
        }
      }
    }
  }

  /** Every token of the line is `key=value`. */
  predicate AllOptions(tokens: seq<string>)
  {
    forall i :: 0 <= i < |tokens| ==> IsOption(tokens[i])
  }

  /** Some token of the line sets `key`. */
  predicate SetsKey(tokens: seq<string>, key: string)
    requires AllOptions(tokens)
  {
    exists i :: 0 <= i < |tokens| && OptionKey(tokens[i]) == key
  }

  /**
   * When every token is `key=value`, the loop succeeds; a key is set exactly when `acc` or
   * some token has it, and a key no token sets keeps its value from `acc`.
   */
  lemma {:induction false} OptionsVarsKeys(tokens: seq<string>, acc: Vars, key: string)
    requires AllOptions(tokens)
    ensures OptionsVars(tokens, acc).Ok?
    ensures key in OptionsVars(tokens, acc).value <==> key in acc || SetsKey(tokens, key)
    ensures !SetsKey(tokens, key) && key in acc ==> OptionsVars(tokens, acc).value[key] == acc[key]
    decreases |tokens|
  {
    if tokens != [] {
      var rest := tokens[1..];
      var acc' := acc[OptionKey(tokens[0]) := NormalizeValue(Some(OptionValue(tokens[0])))];
      assert AllOptions(rest) by {
        forall j | 0 <= j < |rest|
          ensures IsOption(rest[j])
        {
          assert rest[j] == tokens[j + 1];
        }
      }
      OptionsVarsKeys(rest, acc', key);
      if SetsKey(rest, key) {
        var j :| 0 <= j < |rest| && OptionKey(rest[j]) == key;
        assert rest[j] == tokens[j + 1];
      }
      if SetsKey(tokens, key) && OptionKey(tokens[0]) != key {
        var j :| 0 <= j < |tokens| && OptionKey(tokens[j]) == key;
        assert rest[j - 1] == tokens[j];
      }
    }
  }

  /** The last token that sets a key decides its value: a later duplicate key wins. */
  lemma {:induction false} OptionsVarsLastWins(tokens: seq<string>, acc: Vars, i: nat)
    requires AllOptions(tokens) && i < |tokens|
    requires forall j :: i < j < |tokens| ==> OptionKey(tokens[j]) != OptionKey(tokens[i])
    ensures OptionsVars(tokens, acc).Ok?
    ensures OptionKey(tokens[i]) in OptionsVars(tokens, acc).value
    ensures OptionsVars(tokens, acc).value[OptionKey(tokens[i])] == NormalizeValue(Some(OptionValue(tokens[i])))
    decreases i
  {
    var key := OptionKey(tokens[i]);
    var rest := tokens[1..];
    var acc' := acc[OptionKey(tokens[0]) := NormalizeValue(Some(OptionValue(tokens[0])))];
    assert AllOptions(rest) by {
      forall j | 0 <= j < |rest|
        ensures IsOption(rest[j])
      {
        assert rest[j] == tokens[j + 1];
      }
    }
    if i == 0 {
      OptionsVarsKeys(rest, acc', key);
    } else {
      assert rest[i - 1] == tokens[i];
      forall j | i - 1 < j < |rest|
        ensures OptionKey(rest[j]) != key
      {
        assert rest[j] == tokens[j + 1];
      }
      OptionsVarsLastWins(rest, acc', i - 1);
    }
  }

  // ---------------------------------------------------------------------------------------
  // Sections and `process_meta`
  // ---------------------------------------------------------------------------------------

  /** A section's items as ConfigParser yields them: key, and value (`None` for a bare key). */
  type Options = seq<(string, Option<string>)>

  /** One section of the INI file, by name. */
  datatype Section = Section(name: string, options: Options)

  /** `{key: normalize_value(value) for key, value in section.items()}`. */
  function SectionVars(options: Options): Vars
    decreases |options|
  {
    if options == [] then map[]
    else
      var last := options[|options| - 1];
      SectionVars(options[..|options| - 1])[last.0 := NormalizeValue(last.1)]
  }

  /** `key` is a key of some line of the section. */
  predicate Occurs(options: Options, key: string)
  {
    exists i :: 0 <= i < |options| && options[i].0 == key
  }

  /** Line `i` is the last line of the section with key `key`. */
  predicate LastAt(options: Options, i: int, key: string)
  {
    && 0 <= i < |options| && options[i].0 == key
    && forall j :: i < j < |options| ==> options[j].0 != key
  }

  /** A key occurring in the section's lines without the last of them occurs in those before it. */
  lemma OccursInit(options: Options, key: string)
    requires options != [] && options[|options| - 1].0 != key
    ensures Occurs(options, key) <==> Occurs(options[..|options| - 1], key)
  {
    var init := options[..|options| - 1];
    if Occurs(options, key) {
      var i :| 0 <= i < |options| && options[i].0 == key;
      assert init[i].0 == key;
    }
    if Occurs(init, key) {
      var i :| 0 <= i < |init| && init[i].0 == key;
      assert options[i].0 == key;
    }
  }

  /** The last line with a key, when it is not the section's last line, is last among those before. */
  lemma LastAtInit(options: Options, i: int, key: string)
    requires LastAt(options, i, key) && i < |options| - 1
    ensures LastAt(options[..|options| - 1], i, key)
  {
  }

  /** The vars of a `:vars` section have exactly the section's keys. */
  lemma {:induction false} SectionVarsKeys(options: Options, key: string)
    ensures key in SectionVars(options) <==> Occurs(options, key)
    decreases |options|
  {
    if options != [] {
      var n := |options| - 1;
      SectionVarsKeys(options[..n], key);
      if options[n].0 != key {
        OccursInit(options, key);
      }
    }
  }

  /** The value of a key in a `:vars` section is that of its last line. */
  lemma {:induction false} SectionVarsLast(options: Options, i: int, key: string)
    requires LastAt(options, i, key)
    ensures key in SectionVars(options) && SectionVars(options)[key] == NormalizeValue(options[i].1)
    decreases |options|
  {
    var n := |options| - 1;
    if i < n {
      LastAtInit(options, i, key);
      SectionVarsLast(options[..n], i, key);
    }
  }

  /** `{group_name: {} for group_name in section}`: each key a child with nothing in it. */
  function ChildList(options: Options): seq<(string, GroupNode)>
    decreases |options|
  {
    if options == [] then []
    else Put(ChildList(options[..|options| - 1]), options[|options| - 1].0, EmptyGroup)
  }

  /** The children of a `:children` section: exactly its keys, each an empty group. */
  lemma {:induction false} ChildListSpec(options: Options, key: string)
    ensures Lookup(ChildList(options), key) == if Occurs(options, key) then Some(EmptyGroup) else None
    decreases |options|
  {
    if options != [] {
      var n := |options| - 1;
      ChildListSpec(options[..n], key);
      PutLookup(ChildList(options[..n]), options[n].0, EmptyGroup, key);
      if options[n].0 != key {
        OccursInit(options, key);
      }
    }
  }

  /**
   * `{host: normalize_content(host_vars) for host, host_vars in section.items()}`: the
   * first line whose vars do not parse raises.
   */
  function SectionHosts(options: Options): Result<seq<(string, HostNode)>, Error>
    decreases |options|
  {
    if options == [] then Ok([])
    else
      var hosts :- SectionHosts(options[..|options| - 1]);
      var last := options[|options| - 1];
      var vars :- ContentVars(last.1);
      Ok(Put(hosts, last.0, HostVars(vars)))
  }

  /** The hosts of a plain section parse exactly when every line's vars do. */
  lemma {:induction false} SectionHostsOk(options: Options)
    ensures SectionHosts(options).Ok? <==> forall i :: 0 <= i < |options| ==> ContentVars(options[i].1).Ok?
    decreases |options|
  {
    if options != [] {
      var n := |options| - 1;
      SectionHostsOk(options[..n]);
      assert forall i :: 0 <= i < n ==> options[..n][i] == options[i];
    }
  }

  /** The hosts of a plain section that parses are exactly the section's keys. */
  lemma {:induction false} SectionHostsKeys(options: Options, key: string)
    requires SectionHosts(options).Ok?
    ensures Lookup(SectionHosts(options).value, key).Some? <==> Occurs(options, key)
    decreases |options|
  {
    if options != [] {
      var n := |options| - 1;
      SectionHostsKeys(options[..n], key);
      PutLookup(SectionHosts(options[..n]).value, options[n].0, HostVars(ContentVars(options[n].1).value), key);
      if options[n].0 != key {
        OccursInit(options, key);
      }
    }
  }

  /** Each host of a plain section that parses has the vars of its last line. */
  lemma {:induction false} SectionHostsLast(options: Options, i: int, key: string)
    requires SectionHosts(options).Ok? && LastAt(options, i, key)
    ensures ContentVars(options[i].1).Ok?
    ensures Lookup(SectionHosts(options).value, key) == Some(HostVars(ContentVars(options[i].1).value))
    decreases |options|
  {
    SectionHostsOk(options);
    var n := |options| - 1;
    PutLookup(SectionHosts(options[..n]).value, options[n].0, HostVars(ContentVars(options[n].1).value), key);
    if i < n {
      LastAtInit(options, i, key);
      SectionHostsLast(options[..n], i, key);
    }
  }

  /** What `process_meta` returns: the vars of a `:vars` section or the children of a `:children` one. */
  datatype Meta = MetaVars(vars: Vars) | MetaChildren(children: seq<(string, GroupNode)>)

  /** `process_meta(meta, section)`: only `vars` and `children` are known tags. */
  function ProcessMeta(meta: string, options: Options): (r: Result<Meta, Error>)
    ensures r.Err? <==> meta != "vars" && meta != "children"
    ensures r.Err? ==> r.error == UnknownTag(meta)
  {
    if meta == "vars" then Ok(MetaVars(SectionVars(options)))
    else if meta == "children" then Ok(MetaChildren(ChildList(options)))
    else Err(UnknownTag(meta))
  }

  // ---------------------------------------------------------------------------------------
  // `normalize`
  // ---------------------------------------------------------------------------------------

  /** One value of the `groups` defaultdict: the `vars`, `hosts` and `children` keys set so far. */
  datatype GroupDict = GroupDict(
    vars: Option<Vars>,
    hosts: Option<seq<(string, HostNode)>>,
    children: Option<seq<(string, GroupNode)>>)

  /** The `dict()` a defaultdict entry starts as. */
  const NoKeys: GroupDict := GroupDict(None, None, None)

  /** `groups[name]` of the defaultdict: the entry, or a fresh empty dict. */
  function GroupOf(groups: seq<(string, GroupDict)>, name: string): GroupDict
  {
    match Lookup(groups, name)
    case Some(d) => d
    case None => NoKeys
  }

  /** `d[meta] = subsection`. */
  function SetMeta(d: GroupDict, m: Meta): GroupDict
  {
    match m
    case MetaVars(v) => d.(vars := Some(v))
    case MetaChildren(c) => d.(children := Some(c))
  }

  /** A group dict as the walker reads it, a key left unset being absent. */
  function AsNode(d: GroupDict): GroupNode
  {
    Group(
      if d.vars.Some? then Present(d.vars.value) else Absent,
      if d.hosts.Some? then Present(d.hosts.value) else Absent,
      if d.children.Some? then ChildNodes(d.children.value) else NoChildren)
  }

  function GroupNodes(groups: seq<(string, GroupDict)>): (r: seq<(string, GroupNode)>)
    ensures |r| == |groups|
  {
    if groups == [] then [] else [(groups[0].0, AsNode(groups[0].1))] + GroupNodes(groups[1..])
  }

  /** The locals of `normalize`: the `groups` defaultdict and what `result["all"]` holds besides it. */
  datatype IniState = IniState(
    groups: seq<(string, GroupDict)>,
    allVars: Option<Vars>,                           // result["all"]["vars"], once set
    allChildren: Option<seq<(string, GroupNode)>>)   // result["all"]["children"], once replaced

  const Start: IniState := IniState([], None, None)

  /**
   * The group a section writes into and the key it sets there: `hosts` for a plain
   * section, the tag for `<group>:<tag>`; `DEFAULT` and `all:<tag>` write no group.
   */
  function SectionSlot(sec: Section): Option<(string, string)>
  {
    var parts := Split(sec.name, ':');
    if sec.name == "DEFAULT" then None
    else if |parts| == 1 then Some((sec.name, "hosts"))
    else if |parts| == 2 && parts[0] != "all" then Some((parts[0], parts[1]))
    else None
  }

  /** One iteration of the loop of `normalize`. */
  function Step(st: IniState, sec: Section): Result<IniState, Error>
  {
    if sec.name == "DEFAULT" then Ok(st)
    else
      var parts := Split(sec.name, ':');
      if |parts| > 2 then Err(BadSectionName(sec.name))
      else if |parts| == 2 then
        var meta :- ProcessMeta(parts[1], sec.options);
        if parts[0] == "all" then
          if meta.MetaVars? then Ok(st.(allVars := Some(meta.vars)))
          else Ok(st.(allChildren := Some(meta.children)))
        else Ok(st.(groups := Put(st.groups, parts[0], SetMeta(GroupOf(st.groups, parts[0]), meta))))
      else
        var hosts :- SectionHosts(sec.options);
        Ok(st.(groups := Put(st.groups, sec.name, GroupOf(st.groups, sec.name).(hosts := Some(hosts)))))
  }

  /** The loop of `normalize` over `sections`, from `st`. */
  function Fold(st: IniState, sections: seq<Section>): Result<IniState, Error>
    decreases |sections|
  {
    if sections == [] then Ok(st)
    else
      var next :- Step(st, sections[0]);
      Fold(next, sections[1..])
  }

  /** `result["all"]`: its vars if set, and as children the groups or their replacement. */
  function RootNode(st: IniState): GroupNode
  {
    Group(
      if st.allVars.Some? then Present(st.allVars.value) else Absent,
      Absent,
      ChildNodes(if st.allChildren.Some? then st.allChildren.value else GroupNodes(st.groups)))
  }

  /** `normalize(data)`: the `all` node of the inventory an INI file describes. */
  function IniNormalize(sections: seq<Section>): Result<GroupNode, Error>
  {
    var st :- Fold(Start, sections);
    Ok(RootNode(st))
  }

  /** `normalize`, with its loop over the sections. */
  method NormalizeSections(sections: seq<Section>) returns (r: Result<GroupNode, Error>)
    ensures r == IniNormalize(sections)
  {
    var groups: seq<(string, GroupDict)> := [];
    var allVars: Option<Vars> := None;
    var allChildren: Option<seq<(string, GroupNode)>> := None;
    var i := 0;
    while i < |sections|
      invariant 0 <= i <= |sections|
      invariant Fold(Start, sections) == Fold(IniState(groups, allVars, allChildren), sections[i..])
    {
      assert sections[i..][1..] == sections[i + 1..];
      var sec := sections[i];
      if sec.name != "DEFAULT" {
        var parts := Split(sec.name, ':');
        if |parts| > 2 {
          return Err(BadSectionName(sec.name));
        } else if |parts| == 2 {
          var meta :- ProcessMeta(parts[1], sec.options);
          if parts[0] == "all" {
            if meta.MetaVars? {
              allVars := Some(meta.vars);
            } else {
              allChildren := Some(meta.children);
            }
          } else {
            groups := Put(groups, parts[0], SetMeta(GroupOf(groups, parts[0]), meta));
          }
        } else {
          var hosts :- SectionHosts(sec.options);
          groups := Put(groups, sec.name, GroupOf(groups, sec.name).(hosts := Some(hosts)));
        }
      }
      i := i + 1;
    }
    r := Ok(RootNode(IniState(groups, allVars, allChildren)));
  }

  // ---------------------------------------------------------------------------------------
  // Properties of `normalize`
  // ---------------------------------------------------------------------------------------

  /** The loop over `a + b` is the loop over `a`, then over `b`. */
  lemma {:induction false} FoldAppend(st: IniState, a: seq<Section>, b: seq<Section>)
    ensures Fold(st, a + b) == match Fold(st, a) case Ok(s) => Fold(s, b) case Err(e) => Err(e)
    decreases |a|
  {
    if a == [] {
      assert a + b == b;
    } else {
      assert (a + b)[0] == a[0] && (a + b)[1..] == a[1..] + b;
      match Step(st, a[0])
      case Ok(next) => FoldAppend(next, a[1..], b);
      case Err(_) =>
    }
  }

  /** The `DEFAULT` section changes nothing, wherever it stands. */
  lemma SkipsDefault(before: seq<Section>, options: Options, after: seq<Section>)
    ensures IniNormalize(before + [Section("DEFAULT", options)] + after) == IniNormalize(before + after)
  {
    FoldAppend(Start, before + [Section("DEFAULT", options)], after);
    FoldAppend(Start, before, [Section("DEFAULT", options)]);
    FoldAppend(Start, before, after);
  }

  /** A section `normalize` accepts, whatever came before it. */
  predicate SectionOk(sec: Section)
  {
    var parts := Split(sec.name, ':');
    || sec.name == "DEFAULT"
    || (|parts| == 1 && forall i :: 0 <= i < |sec.options| ==> ContentVars(sec.options[i].1).Ok?)
    || (|parts| == 2 && (parts[1] == "vars" || parts[1] == "children"))
  }

  lemma StepOk(st: IniState, sec: Section)
    ensures Step(st, sec).Ok? <==> SectionOk(sec)
  {
    if sec.name != "DEFAULT" && |Split(sec.name, ':')| == 1 {
      SectionHostsOk(sec.options);
    }
  }

  /**
   * `normalize` succeeds exactly when every section does: no name with two colons, no
   * meta tag but `vars` and `children`, and every host line of a plain section `key=value`.
   */
  lemma {:induction false} FoldOk(st: IniState, sections: seq<Section>)
    ensures Fold(st, sections).Ok? <==> forall i :: 0 <= i < |sections| ==> SectionOk(sections[i])
    decreases |sections|
  {
    if sections != [] {
      StepOk(st, sections[0]);
      if Step(st, sections[0]).Ok? {
        FoldOk(Step(st, sections[0]).value, sections[1..]);
        assert forall i :: 1 <= i < |sections| ==> sections[i] == sections[1..][i - 1];
      }
    }
  }

  lemma IniNormalizeOk(sections: seq<Section>)
    ensures IniNormalize(sections).Ok? <==> forall i :: 0 <= i < |sections| ==> SectionOk(sections[i])
  {
    FoldOk(Start, sections);
  }

  /** The `ValueError`s `normalize` raises: a bad section name, an unknown tag, a bad option. */
  predicate IsValueError(e: Error)
  {
    e.BadSectionName? || e.UnknownTag? || e.BadOption?
  }

  lemma {:induction false} SectionHostsErrors(options: Options)
    ensures SectionHosts(options).Err? ==> IsValueError(SectionHosts(options).error)
    decreases |options|
  {
    if options != [] {
      SectionHostsErrors(options[..|options| - 1]);
      var content := options[|options| - 1].1;
      if content.Some? && content.value != "" {
        OptionsVarsFails(Words(content.value), map[]);
      }
    }
  }

  lemma {:induction false} FoldErrors(st: IniState, sections: seq<Section>)
    ensures Fold(st, sections).Err? ==> IsValueError(Fold(st, sections).error)
    decreases |sections|
  {
    if sections != [] {
      SectionHostsErrors(sections[0].options);
      if Step(st, sections[0]).Ok? {
        FoldErrors(Step(st, sections[0]).value, sections[1..]);
      }
    }
  }

  /** `normalize` fails only with a `ValueError`, never with a ConfigParser error. */
  lemma IniNormalizeErrors(sections: seq<Section>)
    ensures IniNormalize(sections).Err? ==> IsValueError(IniNormalize(sections).error)
  {
    FoldErrors(Start, sections);
  }

  /** Sections other than `all:children` leave a replaced children list as it is. */
  lemma {:induction false} FoldKeepsAllChildren(st: IniState, sections: seq<Section>)
    requires Fold(st, sections).Ok?
    requires forall i :: 0 <= i < |sections| ==> sections[i].name != "all:children"
    ensures Fold(st, sections).value.allChildren == st.allChildren
    decreases |sections|
  {
    if sections != [] {
      JoinSplit(sections[0].name, ':');
      FoldKeepsAllChildren(Step(st, sections[0]).value, sections[1..]);
    }
  }

  /**
   * `result["all"]["children"] = subsection` replaces the `groups` defaultdict in the
   * result: after an `[all:children]` section the root's children are that section's keys,
   * and the groups every other section filled are not reachable from the root.
   */
  lemma AllChildrenReplaces(sections: seq<Section>, i: nat)
    requires IniNormalize(sections).Ok?
    requires i < |sections| && sections[i].name == "all:children"
    requires forall j :: i < j < |sections| ==> sections[j].name != "all:children"
    ensures ChildrenOf(IniNormalize(sections).value) == ChildList(sections[i].options)
  {
    var before, after := sections[..i], sections[i + 1..];
    assert sections == before + [sections[i]] + after;
    FoldAppend(Start, before + [sections[i]], after);
    FoldAppend(Start, before, [sections[i]]);
    var prev := Fold(Start, before);
    StepAllChildren(prev.value, sections[i]);
    var mid := Fold(Start, before + [sections[i]]).value;
    assert mid.allChildren == Some(ChildList(sections[i].options));
    FoldKeepsAllChildren(mid, after);
  }

  /** An `[all:children]` section sets the replacement children list. */
  lemma StepAllChildren(st: IniState, sec: Section)
    requires sec.name == "all:children"
    ensures Step(st, sec) == Ok(st.(allChildren := Some(ChildList(sec.options))))
  {
    AllChildrenName();
  }

  lemma AllChildrenName()
    ensures Split("all:children", ':') == ["all", "children"]
  {
    var parts := ["all", "children"];
    assert ':' !in parts[0] && ':' !in parts[1];
    assert Join(parts, ':') == "all:children" by {
      assert Join(parts[1..], ':') == "children";
    }
    SplitJoin(parts, ':');
  }

  /** Sections other than `all:vars` leave the root's vars as they are. */
  lemma {:induction false} FoldKeepsAllVars(st: IniState, sections: seq<Section>)
    requires Fold(st, sections).Ok?
    requires forall i :: 0 <= i < |sections| ==> sections[i].name != "all:vars"
    ensures Fold(st, sections).value.allVars == st.allVars
    decreases |sections|
  {
    if sections != [] {
      JoinSplit(sections[0].name, ':');
      FoldKeepsAllVars(Step(st, sections[0]).value, sections[1..]);
    }
  }

  /**
   * `result["all"]["vars"] = subsection`: the root's vars, which become `defaults`, are
   * those of the last `[all:vars]` section.
   */
  lemma AllVarsLast(sections: seq<Section>, i: nat)
    requires IniNormalize(sections).Ok?
    requires i < |sections| && sections[i].name == "all:vars"
    requires forall j :: i < j < |sections| ==> sections[j].name != "all:vars"
    ensures IniNormalize(sections).value.vars == Present(SectionVars(sections[i].options))
  {
    var before, after := sections[..i], sections[i + 1..];
    assert sections == before + [sections[i]] + after;
    FoldAppend(Start, before + [sections[i]], after);
    FoldAppend(Start, before, [sections[i]]);
    var prev := Fold(Start, before);
    StepAllVars(prev.value, sections[i]);
    var mid := Fold(Start, before + [sections[i]]).value;
    assert mid.allVars == Some(SectionVars(sections[i].options));
    FoldKeepsAllVars(mid, after);
  }

  /** Without an `[all:vars]` section the root has no `vars` key. */
  lemma NoAllVars(sections: seq<Section>)
    requires IniNormalize(sections).Ok?
    requires forall j :: 0 <= j < |sections| ==> sections[j].name != "all:vars"
    ensures IniNormalize(sections).value.vars == Absent
  {
    FoldKeepsAllVars(Start, sections);
  }

  /** An `[all:vars]` section sets the root's vars. */
  lemma StepAllVars(st: IniState, sec: Section)
    requires sec.name == "all:vars"
    ensures Step(st, sec) == Ok(st.(allVars := Some(SectionVars(sec.options))))
  {
    var parts := ["all", "vars"];
    assert ':' !in parts[0] && ':' !in parts[1];
    assert Join(parts, ':') == "all:vars" by {
      assert Join(parts[1..], ':') == "vars";
    }
    SplitJoin(parts, ':');
  }

  /** The keys of group `name` as the walker reads them: `vars`, `hosts` or `children`. */
  predicate SameKey(a: GroupDict, b: GroupDict, key: string)
  {
    && (key == "vars" ==> a.vars == b.vars)
    && (key == "hosts" ==> a.hosts == b.hosts)
    && (key == "children" ==> a.children == b.children)
  }

  /** A section that does not set `groups[name][key]` leaves it as it is, and keeps `name`. */
  lemma StepKeeps(st: IniState, sec: Section, name: string, key: string)
    requires Step(st, sec).Ok?
    requires SectionSlot(sec) != Some((name, key))
    ensures SameKey(GroupOf(Step(st, sec).value.groups, name), GroupOf(st.groups, name), key)
    ensures name in KeysInOrder(st.groups) ==> name in KeysInOrder(Step(st, sec).value.groups)
  {
    var parts := Split(sec.name, ':');
    if sec.name != "DEFAULT" {
      if |parts| == 2 && parts[0] != "all" {
        var meta := ProcessMeta(parts[1], sec.options).value;
        PutLookup(st.groups, parts[0], SetMeta(GroupOf(st.groups, parts[0]), meta), name);
        PutKeys(st.groups, parts[0], SetMeta(GroupOf(st.groups, parts[0]), meta));
      } else if |parts| == 1 {
        var hosts := SectionHosts(sec.options).value;
        PutLookup(st.groups, sec.name, GroupOf(st.groups, sec.name).(hosts := Some(hosts)), name);
        PutKeys(st.groups, sec.name, GroupOf(st.groups, sec.name).(hosts := Some(hosts)));
      }
    }
  }

  /** The loop form of `StepKeeps`. */
  lemma {:induction false} FoldKeeps(st: IniState, sections: seq<Section>, name: string, key: string)
    requires Fold(st, sections).Ok?
    requires forall i :: 0 <= i < |sections| ==> SectionSlot(sections[i]) != Some((name, key))
    ensures SameKey(GroupOf(Fold(st, sections).value.groups, name), GroupOf(st.groups, name), key)
    ensures name in KeysInOrder(st.groups) ==> name in KeysInOrder(Fold(st, sections).value.groups)
    decreases |sections|
  {
    if sections != [] {
      StepKeeps(st, sections[0], name, key);
      FoldKeeps(Step(st, sections[0]).value, sections[1..], name, key);
    }
  }

  /** The section's own write: `groups[name][key] = ...` for its group and key. */
  lemma StepWrites(st: IniState, sec: Section)
    requires Step(st, sec).Ok? && SectionSlot(sec).Some?
    ensures var (name, key) := SectionSlot(sec).value;
      var d := GroupOf(Step(st, sec).value.groups, name);
      && name in KeysInOrder(Step(st, sec).value.groups)
      && (key == "hosts" ==> SectionHosts(sec.options).Ok? && d.hosts == Some(SectionHosts(sec.options).value))
      && (key == "vars" ==> d.vars == Some(SectionVars(sec.options)))
      && (key == "children" ==> d.children == Some(ChildList(sec.options)))
  {
    var parts := Split(sec.name, ':');
    if |parts| == 2 {
      var meta := ProcessMeta(parts[1], sec.options).value;
      PutLookup(st.groups, parts[0], SetMeta(GroupOf(st.groups, parts[0]), meta), parts[0]);
      PutKeys(st.groups, parts[0], SetMeta(GroupOf(st.groups, parts[0]), meta));
    } else {
      var hosts := SectionHosts(sec.options).value;
      PutLookup(st.groups, sec.name, GroupOf(st.groups, sec.name).(hosts := Some(hosts)), sec.name);
      PutKeys(st.groups, sec.name, GroupOf(st.groups, sec.name).(hosts := Some(hosts)));
    }
  }

  /** The groups under the root, looked up by name, are the group dicts read as nodes. */
  lemma {:induction false} GroupNodesLookup(groups: seq<(string, GroupDict)>, name: string)
    ensures Lookup(GroupNodes(groups), name) ==
      match Lookup(groups, name) case Some(d) => Some(AsNode(d)) case None => None
  {
    if groups != [] {
      GroupNodesLookup(groups[1..], name);
    }
  }

  /**
   * Without `[all:children]`, every group a section writes sits under the root, and the
   * last section that sets one of its keys decides that key: a plain section `[g]` its
   * hosts, `[g:vars]` its vars and `[g:children]` its children.
   */
  lemma LastSectionWins(sections: seq<Section>, i: nat)
    requires IniNormalize(sections).Ok?
    requires forall j :: 0 <= j < |sections| ==> sections[j].name != "all:children"
    requires i < |sections| && SectionSlot(sections[i]).Some?
    requires forall j :: i < j < |sections| ==> SectionSlot(sections[j]) != SectionSlot(sections[i])
    ensures var (name, key) := SectionSlot(sections[i]).value;
      var options := sections[i].options;
      var child := Lookup(ChildrenOf(IniNormalize(sections).value), name);
      && child.Some? && child.value.Group?
      && (key == "hosts" ==> SectionHosts(options).Ok? && child.value.hosts == Present(SectionHosts(options).value))
      && (key == "vars" ==> child.value.vars == Present(SectionVars(options)))
      && (key == "children" ==> child.value.children == ChildNodes(ChildList(options)))
  {
    var (name, key) := SectionSlot(sections[i]).value;
    var before, after := sections[..i], sections[i + 1..];
    assert sections == before + [sections[i]] + after;
    FoldAppend(Start, before + [sections[i]], after);
    FoldAppend(Start, before, [sections[i]]);
    var prev := Fold(Start, before).value;
    var mid := Fold(Start, before + [sections[i]]).value;
    assert mid == Step(prev, sections[i]).value;
    StepWrites(prev, sections[i]);
    forall j | 0 <= j < |after|
      ensures SectionSlot(after[j]) != Some((name, key))
    {
      assert after[j] == sections[i + 1 + j];
    }
    FoldKeeps(mid, after, name, key);
    FoldKeepsAllChildren(Start, sections);
    var last := Fold(Start, sections).value;
    LookupKeys(last.groups, name);
    GroupNodesLookup(last.groups, name);
  }
}

=== FILE: normalize.dfy ===
/**
 * The variable merge engine of `AnsibleParser`: alias renaming (`map_nornir_vars`), the
 * reserved-field / free-form `data` split with side-car precedence and the defaults for
 * missing fields (`normalize_data`), and idempotent registration (`add`).
 */
module Normalize {
  import opened Wrappers
  import opened Types

  // ---------------------------------------------------------------------------------------
  // Field names
  // ---------------------------------------------------------------------------------------

  /** The six top-level fields a normalised record ends up with, in either variant. */
  const RecordFields: set<string> :=
    {"hostname", "port", "username", "password", "platform", "connection_options"}

  /** `RESERVED_FIELDS`, in its iteration order. Only `Current` reserves `connection_options`. */
  function ReservedOrder(v: Variant): seq<string>
  {
    match v
    case Current => ["hostname", "port", "username", "password", "platform", "connection_options"]
    case Legacy => ["hostname", "port", "username", "password", "platform"]
  }

  function Reserved(v: Variant): set<string>
  {
    match v
    case Current => RecordFields
    case Legacy => RecordFields - {"connection_options"}
  }

  // ---------------------------------------------------------------------------------------
  // map_nornir_vars
  // ---------------------------------------------------------------------------------------

  /** The `mappings` table of `map_nornir_vars`, in its iteration order. */
  const AliasPairs: seq<(string, string)> := [
    ("ansible_host", "hostname"),
    ("ansible_port", "port"),
    ("ansible_user", "username"),
    ("ansible_password", "password")
  ]

  predicate IsAlias(k: string)
  {
    k == "ansible_host" || k == "ansible_port" || k == "ansible_user" || k == "ansible_password"
  }

  /** The Ansible alias that is renamed onto a canonical field name, if any. */
  function AliasOf(canonical: string): Option<string>
  {
    match canonical
    case "hostname" => Some("ansible_host")
    case "port" => Some("ansible_port")
    case "username" => Some("ansible_user")
    case "password" => Some("ansible_password")
    case _ => None
  }

  /** `k` receives the value of its alias because that alias is present in `obj`. */
  predicate Overwritten(obj: Vars, k: string)
  {
    AliasOf(k).Some? && AliasOf(k).value in obj
  }

  /** `obj[canonical] = obj.pop(alias)` when `alias in obj`. */
  function RenameOne(obj: Vars, alias: string, canonical: string): Vars
  {
    if alias in obj then (obj - {alias})[canonical := obj[alias]] else obj
  }

  /** `obj` after the first `n` iterations of the loop in `map_nornir_vars`. */
  function RenameFirst(obj: Vars, n: nat): Vars
    requires n <= |AliasPairs|
  {
    if n == 0 then obj
    else RenameOne(RenameFirst(obj, n - 1), AliasPairs[n - 1].0, AliasPairs[n - 1].1)
  }

  /** `obj` after `map_nornir_vars(obj)`. */
  function RenameAliases(obj: Vars): Vars
  {
    RenameFirst(obj, |AliasPairs|)
  }

  /** `map_nornir_vars`: renames each Ansible alias present in `obj` to its nornir name. */
  method MapNornirVars(obj: Vars) returns (r: Vars)
    ensures r == RenameAliases(obj)
  {
    r := obj;
    var i := 0;
    while i < |AliasPairs|
      invariant 0 <= i <= |AliasPairs|
      invariant r == RenameFirst(obj, i)
    {
      var (alias, canonical) := AliasPairs[i];
      if alias in r {
        var value := r[alias];
        r := r - {alias};
        r := r[canonical := value];
      }
      i := i + 1;
    }
  }

  /** `map_nornir_vars`, key by key. */
  lemma RenameAliasesAt(obj: Vars, k: string)
    ensures var r := RenameAliases(obj);
      && (IsAlias(k) ==> k !in r)
      && (!IsAlias(k) ==> (k in r <==> k in obj || Overwritten(obj, k)))
      && (!IsAlias(k) && k in r ==>
            r[k] == if Overwritten(obj, k) then obj[AliasOf(k).value] else obj[k])
  {
    var r1 := RenameOne(obj, "ansible_host", "hostname");
    var r2 := RenameOne(r1, "ansible_port", "port");
    var r3 := RenameOne(r2, "ansible_user", "username");
    var r4 := RenameOne(r3, "ansible_password", "password");
    assert RenameFirst(obj, 1) == r1;
    assert RenameFirst(obj, 2) == r2;
    assert RenameFirst(obj, 3) == r3;
    assert RenameAliases(obj) == r4;
    RenameOneAt(obj, "ansible_host", "hostname", k);
    RenameOneAt(r1, "ansible_port", "port", k);
    RenameOneAt(r2, "ansible_user", "username", k);
    RenameOneAt(r3, "ansible_password", "password", k);
  }

  /** One renaming, seen from the key `k`. */
  lemma RenameOneAt(obj: Vars, alias: string, canonical: string, k: string)
    requires alias != canonical
    ensures var r := RenameOne(obj, alias, canonical);
      && (k in r <==> (k in obj && k != alias) || (k == canonical && alias in obj))
      && (k in r ==> r[k] == if k == canonical && alias in obj then obj[alias] else obj[k])
  {
  }

  /**
   * After `map_nornir_vars` no alias remains; each canonical name whose alias was present
   * holds the alias's value (overwriting its own); every other key is kept unchanged and
   * nothing else is added.
   */
  lemma RenameAliasesSpec(obj: Vars)
    ensures forall k :: IsAlias(k) ==> k !in RenameAliases(obj)
    ensures "ansible_host" in obj ==>
      "hostname" in RenameAliases(obj) && RenameAliases(obj)["hostname"] == obj["ansible_host"]
    ensures "ansible_port" in obj ==>
      "port" in RenameAliases(obj) && RenameAliases(obj)["port"] == obj["ansible_port"]
    ensures "ansible_user" in obj ==>
      "username" in RenameAliases(obj) && RenameAliases(obj)["username"] == obj["ansible_user"]
    ensures "ansible_password" in obj ==>
      "password" in RenameAliases(obj) && RenameAliases(obj)["password"] == obj["ansible_password"]
    ensures forall k :: !IsAlias(k) ==> (k in RenameAliases(obj) <==> k in obj || Overwritten(obj, k))
    ensures forall k :: k in obj && !IsAlias(k) && !Overwritten(obj, k) ==>
      k in RenameAliases(obj) && RenameAliases(obj)[k] == obj[k]
  {
    forall k ensures
      && (IsAlias(k) ==> k !in RenameAliases(obj))
      && (!IsAlias(k) ==> (k in RenameAliases(obj) <==> k in obj || Overwritten(obj, k)))
      && (k in obj && !IsAlias(k) && !Overwritten(obj, k) ==>
            k in RenameAliases(obj) && RenameAliases(obj)[k] == obj[k])
    {
      RenameAliasesAt(obj, k);
    }
    RenameAliasesAt(obj, "hostname");
    RenameAliasesAt(obj, "port");
    RenameAliasesAt(obj, "username");
    RenameAliasesAt(obj, "password");
  }

  /** A mapping without alias keys is left as it is. */
  lemma RenameAliasFree(obj: Vars)
    requires forall k :: k in obj ==> !IsAlias(k)
    ensures RenameAliases(obj) == obj
  {
    var r := RenameAliases(obj);
    forall k
      ensures k in r <==> k in obj
    {
      RenameAliasesAt(obj, k);
    }
    forall k | k in obj
      ensures r[k] == obj[k]
    {
      RenameAliasesAt(obj, k);
    }
  }

  /** Applying `map_nornir_vars` twice is the same as once. */
  lemma RenameAliasesIdempotent(obj: Vars)
    ensures RenameAliases(RenameAliases(obj)) == RenameAliases(obj)
  {
    RenameAliasesSpec(obj);
    RenameAliasFree(RenameAliases(obj));
  }

  // ---------------------------------------------------------------------------------------
  // normalize_data
  // ---------------------------------------------------------------------------------------

  /**
   * The value a missing field gets: `{}` for `connection_options`; in `Current`, a given
   * `hostname` argument for `hostname`; `None` otherwise.
   */
  function FieldDefault(v: Variant, field: string, hostname: Option<string>): Value
  {
    if field == "connection_options" then Dict(map[])
    else if field == "hostname" && v == Current && hostname.Some? then Str(hostname.value)
    else Null
  }

  /** The entries of `vars` whose key is reserved (`inside`) or is not (`!inside`). */
  function Pick(vars: Vars, reserved: set<string>, inside: bool): Vars
  {
    map k | k in vars && (k in reserved <==> inside) :: vars[k]
  }

  /** `rec` after one `for k, v in vars.items()` loop: reserved keys on top, others in `data`. */
  function Absorbed(reserved: set<string>, rec: Record, vars: Vars): Record
  {
    Record(rec.data + Pick(vars, reserved, false), rec.fields + Pick(vars, reserved, true))
  }

  /** `rec` after the loop that fills in the missing fields. */
  function Filled(v: Variant, rec: Record, hostname: Option<string>): Record
  {
    rec.(fields := (map f | f in RecordFields && f !in rec.fields :: FieldDefault(v, f, hostname))
                   + rec.fields)
  }

  /** `host_or_group` after `normalize_data(host_or_group, data, vars_data, hostname)`. */
  function Normalized(v: Variant, rec: Record, inline: Vars, fileVars: Vars,
                      hostname: Option<string>): Record
  {
    Filled(v, Absorbed(Reserved(v), Absorbed(Reserved(v), rec, RenameAliases(inline)), RenameAliases(fileVars)),
           hostname)
  }

  /** `Absorbed`, key by key. */
  lemma AbsorbedAt(reserved: set<string>, rec: Record, vars: Vars, k: string)
    ensures var r := Absorbed(reserved, rec, vars);
      && (k in r.data <==> k in rec.data || (k in vars && k !in reserved))
      && (k in r.data ==> r.data[k] == if k in vars && k !in reserved then vars[k] else rec.data[k])
      && (k in r.fields <==> k in rec.fields || (k in vars && k in reserved))
      && (k in r.fields ==> r.fields[k] == if k in vars && k in reserved then vars[k] else rec.fields[k])
  {
  }

  /** One more entry of `vars` joins the side it belongs to. */
  lemma PickStep(vars: Vars, reserved: set<string>, inside: bool, k: string, value: Value)
    requires k !in vars
    ensures Pick(vars[k := value], reserved, inside) ==
      if (k in reserved <==> inside) then Pick(vars, reserved, inside)[k := value] else Pick(vars, reserved, inside)
  {
    var p := Pick(vars, reserved, inside);
    var q := Pick(vars[k := value], reserved, inside);
    if k in reserved <==> inside {
      assert q.Keys == p.Keys + {k};
      assert q == p[k := value];
    } else {
      assert q.Keys == p.Keys;
      assert q == p;
    }
  }

  /** A map union updated at one key is the union with its right side updated there. */
  lemma UnionUpdate(m: Vars, p: Vars, k: string, value: Value)
    ensures m + p[k := value] == (m + p)[k := value]
  {
  }

  /** One `for k, v in vars.items()` loop of `normalize_data`. */
  method Absorb(v: Variant, rec: Record, vars: Vars) returns (r: Record)
    ensures r == Absorbed(Reserved(v), rec, vars)
  {
    var reserved := Reserved(v);
    r := rec;
    assert Absorbed(reserved, rec, map[]) == rec;
    var done: Vars := map[];
    var todo := vars.Keys;
    while todo != {}
      invariant todo <= vars.Keys
      invariant done.Keys == vars.Keys - todo
      invariant forall k :: k in done ==> done[k] == vars[k]
      invariant r == Absorbed(reserved, rec, done)
      decreases todo
    {
      var k :| k in todo;
      PickStep(done, reserved, true, k, vars[k]);
      PickStep(done, reserved, false, k, vars[k]);
      if k in reserved {
        UnionUpdate(rec.fields, Pick(done, reserved, true), k, vars[k]);
        r := r.(fields := r.fields[k := vars[k]]);
      } else {
        UnionUpdate(rec.data, Pick(done, reserved, false), k, vars[k]);
        r := r.(data := r.data[k := vars[k]]);
      }
      done := done[k := vars[k]];
      todo := todo - {k};
    }
    assert done == vars;
  }

  /** `Filled`, field by field. */
  lemma FilledAt(v: Variant, rec: Record, hostname: Option<string>, f: string)
    ensures var r := Filled(v, rec, hostname);
      && r.data == rec.data
      && (f in r.fields <==> f in rec.fields || f in RecordFields)
      && (f in r.fields ==>
            r.fields[f] == if f in rec.fields then rec.fields[f] else FieldDefault(v, f, hostname))
  {
  }

  /** The `for field in RESERVED_FIELDS` loop (and, in `Legacy`, the `connection_options` line). */
  method FillDefaults(v: Variant, rec: Record, hostname: Option<string>) returns (r: Record)
    ensures r == Filled(v, rec, hostname)
  {
    r := FillReserved(v, rec, hostname);
    if v == Legacy && "connection_options" !in r.fields {
      r := r.(fields := r.fields["connection_options" := Dict(map[])]);
    }
    FilledEqual(v, rec, hostname, r);
  }

  /** The loop itself: each field of `RESERVED_FIELDS` the record lacks gets its default. */
  method FillReserved(v: Variant, rec: Record, hostname: Option<string>) returns (r: Record)
    ensures r.data == rec.data
    ensures forall f :: f in r.fields <==> f in rec.fields || f in ReservedOrder(v)
    ensures forall f :: f in r.fields ==>
      r.fields[f] == if f in rec.fields then rec.fields[f] else FieldDefault(v, f, hostname)
  {
    var order := ReservedOrder(v);
    r := rec;
    var i := 0;
    while i < |order|
      invariant 0 <= i <= |order|
      invariant r.data == rec.data
      invariant forall f :: f in r.fields <==> f in rec.fields || f in order[..i]
      invariant forall f :: f in r.fields ==>
        r.fields[f] == if f in rec.fields then rec.fields[f] else FieldDefault(v, f, hostname)
    {
      var field := order[i];
      if field !in r.fields {
        r := r.(fields := r.fields[field := FieldDefault(v, field, hostname)]);
      }
      assert order[..i + 1] == order[..i] + [field];
      i := i + 1;
    }
    assert order[..|order|] == order;
  }

  /** A record that agrees with `Filled` field by field is `Filled`. */
  lemma FilledEqual(v: Variant, rec: Record, hostname: Option<string>, r: Record)
    requires r.data == rec.data
    requires forall f :: f in r.fields <==> f in rec.fields || f in RecordFields
    requires forall f :: f in r.fields ==>
      r.fields[f] == if f in rec.fields then rec.fields[f] else FieldDefault(v, f, hostname)
    ensures r == Filled(v, rec, hostname)
  {
    var spec := Filled(v, rec, hostname);
    forall f ensures (f in r.fields <==> f in spec.fields)
      && (f in r.fields ==> r.fields[f] == spec.fields[f])
    {
      FilledAt(v, rec, hostname, f);
    }
    assert r.fields == spec.fields;
  }

  /** `normalize_data`: both vars dicts are alias-renamed, then layered over the record. */
  method NormalizeData(v: Variant, rec: Record, inline: Vars, fileVars: Vars,
                       hostname: Option<string>) returns (r: Record)
    ensures r == Normalized(v, rec, inline, fileVars, hostname)
  {
    var data := MapNornirVars(inline);
    r := Absorb(v, rec, data);
    var varsData := MapNornirVars(fileVars);
    r := Absorb(v, r, varsData);
    r := FillDefaults(v, r, hostname);
  }

  /**
   * Where `normalize_data` puts each top-level field: the side-car value if the renamed
   * side-car vars reserve it, else the inline value, else the record's own value, else the
   * field's default. All six fields are present afterwards.
   */
  lemma NormalizedFields(v: Variant, rec: Record, inline: Vars, fileVars: Vars,
                         hostname: Option<string>, k: string)
    ensures var r := Normalized(v, rec, inline, fileVars, hostname);
      var d, f := RenameAliases(inline), RenameAliases(fileVars);
      && (k in r.fields <==> k in RecordFields || k in rec.fields)
      && (k in r.fields ==>
            r.fields[k] ==
              if k in Reserved(v) && k in f then f[k]
              else if k in Reserved(v) && k in d then d[k]
              else if k in rec.fields then rec.fields[k]
              else FieldDefault(v, k, hostname))
  {
  }

  /**
   * Where `normalize_data` puts each free-form key: non-reserved keys go to `data`, the
   * side-car value overriding the inline one, which overrides the record's old value;
   * reserved keys never enter `data`.
   */
  lemma NormalizedData(v: Variant, rec: Record, inline: Vars, fileVars: Vars,
                       hostname: Option<string>, k: string)
    ensures var r := Normalized(v, rec, inline, fileVars, hostname);
      var d, f := RenameAliases(inline), RenameAliases(fileVars);
      && (k in r.data <==> k in rec.data || (k !in Reserved(v) && (k in d || k in f)))
      && (k in r.data ==>
            r.data[k] ==
              if k !in Reserved(v) && k in f then f[k]
              else if k !in Reserved(v) && k in d then d[k]
              else rec.data[k])
  {
  }

  /** A side-car variable wins over an inline variable of the same name. */
  lemma SideCarWins(v: Variant, rec: Record, inline: Vars, fileVars: Vars,
                    hostname: Option<string>, k: string)
    requires k in inline && k in fileVars && !IsAlias(k) && !Overwritten(fileVars, k)
    ensures var r := Normalized(v, rec, inline, fileVars, hostname);
      if k in Reserved(v) then k in r.fields && r.fields[k] == fileVars[k]
      else k in r.data && r.data[k] == fileVars[k]
  {
    RenameAliasesAt(fileVars, k);
    NormalizedFields(v, rec, inline, fileVars, hostname, k);
    NormalizedData(v, rec, inline, fileVars, hostname, k);
  }

  /**
   * In `Legacy`, `connection_options` is not reserved: a variable of that name is free-form
   * data, and the top-level field keeps its old value or becomes `{}`.
   */
  lemma LegacyConnectionOptions(rec: Record, inline: Vars, fileVars: Vars,
                                hostname: Option<string>)
    requires "connection_options" in inline || "connection_options" in fileVars
    ensures var r := Normalized(Legacy, rec, inline, fileVars, hostname);
      var k := "connection_options";
      && k in r.data
      && r.data[k] == (if k in fileVars then fileVars[k] else inline[k])
      && k in r.fields
      && r.fields[k] == (if k in rec.fields then rec.fields[k] else Dict(map[]))
  {
    var k := "connection_options";
    RenameAliasesAt(inline, k);
    RenameAliasesAt(fileVars, k);
    NormalizedFields(Legacy, rec, inline, fileVars, hostname, k);
    NormalizedData(Legacy, rec, inline, fileVars, hostname, k);
  }

  /**
   * The record shape `normalize_data` maintains: top-level fields are among the six,
   * `data` holds no reserved key and no Ansible alias.
   */
  predicate WellFormed(v: Variant, rec: Record)
  {
    && rec.fields.Keys <= RecordFields
    && (forall k :: k in rec.data ==> k !in Reserved(v) && !IsAlias(k))
  }

  /** A record `normalize_data` has processed: well formed, with all six fields present. */
  predicate Complete(v: Variant, rec: Record)
  {
    WellFormed(v, rec) && rec.fields.Keys == RecordFields
  }

  lemma NormalizedComplete(v: Variant, rec: Record, inline: Vars, fileVars: Vars,
                           hostname: Option<string>)
    requires WellFormed(v, rec)
    ensures Complete(v, Normalized(v, rec, inline, fileVars, hostname))
  {
    RenameAliasesSpec(inline);
    RenameAliasesSpec(fileVars);
  }

  /** `map_nornir_vars(host_or_group)` after `normalize_data` changes nothing. */
  lemma RecordHasNoAliases(v: Variant, rec: Record)
    requires WellFormed(v, rec)
    ensures RenameAliases(rec.fields) == rec.fields
  {
    RenameAliasFree(rec.fields);
  }

  // ---------------------------------------------------------------------------------------
  // add
  // ---------------------------------------------------------------------------------------

  /** The dict `add` inserts: `{"groups": [], "data": {}}`. */
  const NewEntry: Entry := Entry([], Record(map[], map[]))

  /** `add(element, element_dict)`: registers `name` unless it is already there. */
  function Add(name: string, table: map<string, Entry>): (r: map<string, Entry>)
    ensures r.Keys == table.Keys + {name}
    ensures forall k :: k in table ==> r[k] == table[k]
    ensures name !in table ==> r[name] == NewEntry
  {
    if name in table then table else table[name := NewEntry]
  }

  lemma AddIdempotent(name: string, table: map<string, Entry>)
    ensures Add(name, Add(name, table)) == Add(name, table)
  {
  }
}

=== FILE: parser.dfy ===
/**
 * `AnsibleParser`: the object that holds the `hosts`, `groups` and `defaults` dicts and
 * fills them by walking the loaded inventory, each method proved to do what the matching
 * walk function of `Walker` describes.
 */
module Parser {
  import opened Wrappers
  import opened Types
  import opened Text
  import opened Normalize
  import opened VarsFiles
  import opened Walker

  /**
   * `original_data` once `load_hosts_file` has run: nothing (an empty YAML document), a
   * mapping with or without an `all` key, or some other document.
   */
  datatype Original = NoData | TopLevel(all: Option<GroupNode>) | NotADict

  /** `parse()` from the parser state `st`: walk `original_data["all"]`, then `sort_groups`. */
  function ParseFrom(cfg: Config, st: Tables, original: Original): Result<Tables, Error>
  {
    match original
    case NoData => Ok(SortGroups(st))
    case NotADict => Err(NotAMapping)
    case TopLevel(None) => Err(MissingKey("all"))
    case TopLevel(Some(node)) =>
      var walked :- WalkGroup(cfg, st, "defaults", node, "");
      Ok(SortGroups(walked))
  }

  /** What a parser built on `original` holds after `parse()`. */
  function ParseResult(cfg: Config, original: Original): Result<Tables, Error>
  {
    ParseFrom(cfg, Empty, original)
  }

  /**
   * A parsed inventory: every host and group the walk visited, each with its visit
   * parents sorted (repetitions kept) and all six fields; `defaults` is not a group.
   */
  lemma ParseResultSpec(cfg: Config, node: GroupNode)
    requires ParseResult(cfg, TopLevel(Some(node))).Ok?
    ensures var r := ParseResult(cfg, TopLevel(Some(node))).value;
      var hv := HostVisits("defaults", node);
      var gv := GroupVisits("defaults", node, "");
      && r.hosts.Keys == Names(hv)
      && r.groups.Keys == Names(gv) - {"defaults"}
      && (forall x :: x in r.hosts ==>
            && Sorted(r.hosts[x].groups)
            && multiset(r.hosts[x].groups) == multiset(Parents(hv, x))
            && Complete(cfg.variant, r.hosts[x].record))
      && (forall x :: x in r.groups ==>
            && Sorted(r.groups[x].groups)
            && multiset(r.groups[x].groups) == multiset(Parents(gv, x))
            && Complete(cfg.variant, r.groups[x].record))
      && Complete(cfg.variant, r.defaults)
  {
    WalkRootSpec(cfg, node);
    SortGroupsSpec(WalkRoot(cfg, node).value);
  }

  /** An inventory parses exactly when its `all` node walks without raising. */
  lemma ParseResultOk(cfg: Config, original: Original)
    ensures ParseResult(cfg, original).Ok? <==>
      original.NoData? || (original.TopLevel? && original.all.Some? && GroupOk(cfg, "defaults", original.all.value, ""))
  {
    if original.TopLevel? && original.all.Some? {
      WalkGroupOk(cfg, Empty, "defaults", original.all.value, "");
    }
  }

  /** The parser object: `hosts`, `groups` and `defaults` are updated in place. */
  class AnsibleParser {
    const config: Config
    const originalData: Original
    var hosts: map<string, Entry>
    var groups: map<string, Entry>
    var defaults: Record

    function State(): Tables
      reads this
    {
      Tables(hosts, groups, defaults)
    }

    /** Every record well formed and `defaults` not a group: what each method keeps. */
    predicate Valid()
      reads this
    {
      TablesWellFormed(config.variant, State())
    }

    /** `__init__`: empty dicts, `defaults == {"data": {}}`, and the loaded inventory. */
    constructor(config: Config, originalData: Original)
      ensures this.config == config && this.originalData == originalData
      ensures State() == Empty && Valid()
    {
      this.config := config;
      this.originalData := originalData;
      hosts := map[];
      groups := map[];
      defaults := Record(map[], map[]);
    }

    /** `normalize_data` followed by `map_nornir_vars` on the record, which changes nothing. */
    method NormalizeInto(dest: Record, inline: Vars, fileVars: Vars, hostname: Option<string>)
      returns (rec: Record)
      requires WellFormed(config.variant, dest)
      ensures rec == Normalized(config.variant, dest, inline, fileVars, hostname)
      ensures Complete(config.variant, rec)
    {
      rec := NormalizeData(config.variant, dest, inline, fileVars, hostname);
      NormalizedComplete(config.variant, dest, inline, fileVars, hostname);
      RecordHasNoAliases(config.variant, rec);
      var fields := MapNornirVars(rec.fields);
      rec := rec.(fields := fields);
    }

    /**
     * One iteration of the `parse_hosts` loop: `add`, append the parent, read the side-car
     * vars, `normalize_data` and `map_nornir_vars`. The entry is built locally and stored
     * once; a failure leaves the dicts as they were, where Python would already have added
     * the host, which no caller observes since the exception ends the parse.
     */
    method ParseHost(host: string, node: HostNode, parent: string) returns (r: Result<(), Error>)
      requires Valid()
      modifies this
      ensures r.Err? ==> WalkHost(config, old(State()), host, node, parent) == Err(r.error)
      ensures r.Ok? ==> WalkHost(config, old(State()), host, node, parent) == Ok(State()) && Valid()
    {
      var entry := if host in hosts then hosts[host] else NewEntry;
      assert entry == Add(host, hosts)[host];
      if Appends(parent) {
        entry := entry.(groups := entry.groups + [parent]);
      }
      var fileVars := LoadSideCarVars(config.variant, config.store, true, host);
      if fileVars.Err? {
        return Err(fileVars.error);
      }
      if node.MalformedHost? {
        return Err(NotAMapping);
      }
      var rec := NormalizeInto(entry.record, node.vars, fileVars.value, HostnameArg(config.variant, host));
      hosts := hosts[host := entry.(record := rec)];
      WalkHostWellFormed(config, old(State()), host, node, parent);
      r := Ok(());
    }

    /** `parse_hosts(hosts, parent)`. */
    method ParseHosts(hostList: seq<(string, HostNode)>, parent: string) returns (r: Result<(), Error>)
      requires Valid()
      modifies this
      ensures r.Err? ==> WalkHosts(config, old(State()), hostList, parent) == Err(r.error)
      ensures r.Ok? ==> WalkHosts(config, old(State()), hostList, parent) == Ok(State()) && Valid()
    {
      var i := 0;
      while i < |hostList|
        invariant 0 <= i <= |hostList| && Valid()
        invariant WalkHosts(config, old(State()), hostList, parent)
          == WalkHosts(config, State(), hostList[i..], parent)
      {
        assert hostList[i..][1..] == hostList[i + 1..];
        ghost var before := State();
        r := ParseHost(hostList[i].0, hostList[i].1, parent);
        if r.Err? {
          WalkHostsStep(config, before, hostList[i..], parent, Err(r.error));
          return;
        }
        WalkHostsStep(config, before, hostList[i..], parent, Ok(State()));
        i := i + 1;
      }
      r := Ok(());
    }

    /**
     * `add` the group and append the parent, then `normalize_data` and `map_nornir_vars`
     * into its entry. The entry is built locally and stored once.
     */
    method StoreGroup(group: string, parent: string, inline: Vars, fileVars: Vars)
      requires Valid() && group != "defaults"
      modifies this
      ensures var entry := Add(group, old(groups))[group];
        var rec := Normalized(config.variant, entry.record, inline, fileVars, None);
        State() == old(State()).(groups := old(groups)[group := Entry(Appended(entry.groups, parent), rec)])
    {
      var entry := if group in groups then groups[group] else NewEntry;
      assert entry == Add(group, groups)[group];
      var rec := NormalizeInto(entry.record, inline, fileVars, None);
      groups := groups[group := Entry(Appended(entry.groups, parent), rec)];
    }

    /**
     * The part of `parse_group` before its hosts: the checks that can fail (the parent
     * append on `self.defaults`, a non-mapping node, a side-car lookup, non-mapping `vars`),
     * then `StoreGroup`.
     */
    method ParseGroupHead(group: string, node: GroupNode, parent: string) returns (r: Result<(), Error>)
      requires Valid()
      modifies this
      ensures r.Err? ==> GroupHead(config, old(State()), group, node, parent) == Err(r.error)
      ensures r.Ok? ==> GroupHead(config, old(State()), group, node, parent) == Ok(State()) && Valid()
    {
      if group == "defaults" && Appends(parent) {
        return Err(MissingKey("groups"));
      }
      if node.Malformed? {
        return Err(NotAMapping);
      }
      var fileVars := LoadSideCarVars(config.variant, config.store, false, GroupFile(group));
      if fileVars.Err? {
        return Err(fileVars.error);
      }
      if node.vars.NotMapping? {
        return Err(NotAMapping);
      }
      GroupHeadValue(config, old(State()), group, node, parent);
      if group == "defaults" {
        defaults := NormalizeInto(defaults, InlineVars(node), fileVars.value, None);
      } else {
        StoreGroup(group, parent, InlineVars(node), fileVars.value);
      }
      GroupHeadWellFormed(config, old(State()), group, node, parent);
      r := Ok(());
    }

    /** `parse_group(group, node, parent)`: the head, the hosts, then each child in turn. */
    method ParseGroup(group: string, node: GroupNode, parent: string) returns (r: Result<(), Error>)
      requires Valid()
      modifies this
      ensures r.Err? ==> WalkGroup(config, old(State()), group, node, parent) == Err(r.error)
      ensures r.Ok? ==> WalkGroup(config, old(State()), group, node, parent) == Ok(State()) && Valid()
      decreases node
    {
      r := ParseGroupHead(group, node, parent);
      if r.Err? {
        return;
      }
      if node.hosts.NotMapping? {
        return Err(NotAMapping);
      }
      r := ParseHosts(HostsOf(node), group);
      if r.Err? {
        return;
      }
      if node.children.BadChildren? {
        return Err(NotAMapping);
      }
      ghost var walked := State();
      var i := 0;
      while i < |ChildrenOf(node)|
        invariant 0 <= i <= |ChildrenOf(node)| && Valid()
        invariant WalkGroup(config, old(State()), group, node, parent)
          == WalkChildren(config, State(), group, node, i)
      {
        var child := node.children.nodes[i];
        assert child in node.children.nodes;
        WalkChildrenUnfold(config, State(), group, node, i);
        r := ParseGroup(child.0, child.1, group);
        if r.Err? {
          return;
        }
        i := i + 1;
      }
      r := Ok(());
    }

    /** The first loop of `sort_groups`: every host's list of groups, sorted. */
    method SortHostLists()
      modifies this
      ensures hosts == SortEntries(old(hosts), {})
      ensures groups == old(groups) && defaults == old(defaults)
    {
      var todo := hosts.Keys;
      while todo != {}
        invariant hosts.Keys == old(hosts).Keys && todo <= hosts.Keys
        invariant groups == old(groups) && defaults == old(defaults)
        invariant forall h :: h in hosts ==>
          hosts[h] == if h in todo then old(hosts)[h] else SortedEntry(old(hosts)[h])
        decreases todo
      {
        var h :| h in todo;
        hosts := hosts[h := hosts[h].(groups := Sort(hosts[h].groups))];
        todo := todo - {h};
      }
      assert forall h :: h in hosts ==> hosts[h] == SortEntries(old(hosts), {})[h];
    }

    /** The second loop of `sort_groups`: every group's list but one named `defaults`. */
    method SortGroupLists()
      modifies this
      ensures groups == SortEntries(old(groups), {"defaults"})
      ensures hosts == old(hosts) && defaults == old(defaults)
    {
      var todo := groups.Keys;
      while todo != {}
        invariant groups.Keys == old(groups).Keys && todo <= groups.Keys
        invariant hosts == old(hosts) && defaults == old(defaults)
        invariant forall g :: g in groups ==>
          groups[g] == if g in todo || g == "defaults" then old(groups)[g] else SortedEntry(old(groups)[g])
        decreases todo
      {
        var g :| g in todo;
        if g != "defaults" {
          groups := groups[g := groups[g].(groups := Sort(groups[g].groups))];
        }
        todo := todo - {g};
      }
      assert forall g :: g in groups ==> groups[g] == SortEntries(old(groups), {"defaults"})[g];
    }

    /** `sort_groups`: sort each host's list, then each group's list but one named `defaults`. */
    method SortGroups()
      modifies this
      ensures State() == Walker.SortGroups(old(State()))
    {
      SortHostLists();
      SortGroupLists();
    }

    /** `parse()`: walk `original_data["all"]` as `defaults` when there is data, then sort. */
    method Parse() returns (r: Result<(), Error>)
      requires Valid()
      modifies this
      ensures r.Err? ==> ParseFrom(config, old(State()), originalData) == Err(r.error)
      ensures r.Ok? ==> ParseFrom(config, old(State()), originalData) == Ok(State())
    {
      match originalData {
        case NoData =>
        case NotADict =>
          return Err(NotAMapping);
        case TopLevel(all) =>
          if all.None? {
            return Err(MissingKey("all"));
          }
          r := ParseGroup("defaults", all.value, "");
          if r.Err? {
            return;
          }
      }
      SortGroups();
      r := Ok(());
    }
  }
}

=== FILE: text.dfy ===
/**
 * String facilities the pipeline borrows from Python: the ordering `list.sort()` uses on
 * `str`, whitespace splitting (`str.split()`), splitting on one character (`str.split(c)`)
 * and decimal integer literals (`int(str)`).
 */
module Text {

  // ---------------------------------------------------------------------------------------
  // Python's `str` ordering: lexicographic on code points.
  // ---------------------------------------------------------------------------------------

  /** `a <= b` on Python strings. */
  predicate Below(a: string, b: string)
  {
    |a| == 0 || (|b| > 0 && (a[0] < b[0] || (a[0] == b[0] && Below(a[1..], b[1..]))))
  }

  lemma {:induction false} BelowTotal(a: string, b: string)
    ensures Below(a, b) || Below(b, a)
  {
    if |a| > 0 && |b| > 0 && a[0] == b[0] {
      BelowTotal(a[1..], b[1..]);
    }
  }

  lemma {:induction false} BelowAntisymmetric(a: string, b: string)
    requires Below(a, b) && Below(b, a)
    ensures a == b
  {
    if |a| > 0 {
      BelowAntisymmetric(a[1..], b[1..]);
      assert a == [a[0]] + a[1..] && b == [b[0]] + b[1..];
    }
  }

  lemma {:induction false} BelowTransitive(a: string, b: string, c: string)
    requires Below(a, b) && Below(b, c)
    ensures Below(a, c)
  {
    if |a| > 0 && a[0] == b[0] && b[0] == c[0] {
      BelowTransitive(a[1..], b[1..], c[1..]);
    }
  }

  predicate Sorted(s: seq<string>)
  {
    forall i, j :: 0 <= i < j < |s| ==> Below(s[i], s[j])
  }

  // ---------------------------------------------------------------------------------------
  // `list.sort()` on a list of strings.
  // ---------------------------------------------------------------------------------------

  lemma SortedCons(x: string, s: seq<string>)
    requires Sorted(s)
    requires s == [] || Below(x, s[0])
    ensures Sorted([x] + s)
  {
    forall j | 0 < j < |s| ensures Below(x, s[j]) {
      BelowTransitive(x, s[0], s[j]);
    }
  }

  /** The head of a sorted list is below each of its elements. */
  lemma SortedHead(s: seq<string>, y: string)
    requires Sorted(s) && y in multiset(s)
    ensures Below(s[0], y)
  {
    var k :| 0 <= k < |s| && s[k] == y;
    if k == 0 {
      BelowTotal(y, y);
    }
  }

  function Insert(x: string, s: seq<string>): (r: seq<string>)
    requires Sorted(s)
    ensures Sorted(r)
    ensures multiset(r) == multiset(s) + multiset{x}
  {
    if s == [] then [x]
    else if Below(x, s[0]) then
      SortedCons(x, s);
      [x] + s
    else
      var t := Insert(x, s[1..]);
      assert s == [s[0]] + s[1..];
      assert Below(s[0], t[0]) by {
        assert t[0] in multiset(s[1..]) + multiset{x};
        if t[0] == x {
          BelowTotal(x, s[0]);
        } else {
          assert t[0] in s[1..];
        }
      }
      SortedCons(s[0], t);
      [s[0]] + t
  }

  /**
   * The sorted copy of `s`. Any sort of a list of strings gives this same list
   * (`SortIsUnique`), so this stands for Python's `list.sort()`.
   */
  function Sort(s: seq<string>): (r: seq<string>)
    ensures Sorted(r)
    ensures multiset(r) == multiset(s)
  {
    if s == [] then []
    else
      assert s == [s[0]] + s[1..];
      Insert(s[0], Sort(s[1..]))
  }

  lemma SortedTail(s: seq<string>)
    requires Sorted(s) && s != []
    ensures Sorted(s[1..])
  {
  }

  lemma MultisetTail(s: seq<string>)
    requires s != []
    ensures multiset(s[1..]) == multiset(s) - multiset{s[0]}
    ensures s[0] in multiset(s)
  {
    assert s == [s[0]] + s[1..];
  }

  /** Two sorted lists with the same elements start with the same element. */
  lemma SortedHeadsEqual(a: seq<string>, b: seq<string>)
    requires Sorted(a) && Sorted(b) && multiset(a) == multiset(b) && a != []
    ensures b != [] && a[0] == b[0] && multiset(a[1..]) == multiset(b[1..])
  {
    assert |b| == |multiset(b)| == |multiset(a)| == |a|;
    MultisetTail(a);
    MultisetTail(b);
    SortedHead(a, b[0]);
    SortedHead(b, a[0]);
    BelowAntisymmetric(a[0], b[0]);
  }

  /** Two sorted lists with the same elements (counted with multiplicity) are equal. */
  lemma {:induction false} SortedPermutationsEqual(a: seq<string>, b: seq<string>)
    requires Sorted(a) && Sorted(b) && multiset(a) == multiset(b)
    ensures a == b
  {
    if a == [] {
      assert |b| == |multiset(b)| == 0;
    } else {
      SortedHeadsEqual(a, b);
      SortedTail(a);
      SortedTail(b);
      SortedPermutationsEqual(a[1..], b[1..]);
      assert a == [a[0]] + a[1..] && b == [b[0]] + b[1..];
    }
  }

  lemma SortIsUnique(s: seq<string>, t: seq<string>)
    requires Sorted(t) && multiset(t) == multiset(s)
    ensures t == Sort(s)
  {
    SortedPermutationsEqual(t, Sort(s));
  }

  // ---------------------------------------------------------------------------------------
  // `str.split()` with no argument: maximal runs of non-whitespace.
  // ---------------------------------------------------------------------------------------

  /** The ASCII characters Python's `str.isspace()` accepts. */
  predicate IsSpace(c: char)
  {
    c == ' ' || c == '\t' || c == '\n' || c == '\r' || c == '\U{0B}' || c == '\U{0C}'
    || c == '\U{1C}' || c == '\U{1D}' || c == '\U{1E}' || c == '\U{1F}'
  }

  predicate NoSpace(s: string)
  {
    forall i :: 0 <= i < |s| ==> !IsSpace(s[i])
  }

  /** The length of the leading run of non-whitespace characters. */
  function WordLength(s: string): (n: nat)
    ensures n <= |s|
    ensures NoSpace(s[..n])
    ensures n < |s| ==> IsSpace(s[n])
  {
    if s == [] || IsSpace(s[0]) then 0
    else
      var n := WordLength(s[1..]);
      assert s[..n + 1] == [s[0]] + s[1..][..n];
      n + 1
  }

  /** The non-whitespace characters of `s`, in order. */
  function Visible(s: string): string
  {
    if s == [] then [] else (if IsSpace(s[0]) then [] else [s[0]]) + Visible(s[1..])
  }

  function Concat(words: seq<string>): string
  {
    if words == [] then [] else words[0] + Concat(words[1..])
  }

  /** `s.split()`: the whitespace-separated tokens of `s`, none empty, none holding a space. */
  function Words(s: string): (r: seq<string>)
    ensures forall i :: 0 <= i < |r| ==> r[i] != [] && NoSpace(r[i])
    decreases |s|
  {
    if s == [] then []
    else if IsSpace(s[0]) then Words(s[1..])
    else
      var n := WordLength(s);
      [s[..n]] + Words(s[n..])
  }

  lemma {:induction false} VisibleAppend(a: string, b: string)
    ensures Visible(a + b) == Visible(a) + Visible(b)
  {
    if a != [] {
      assert (a + b)[0] == a[0] && (a + b)[1..] == a[1..] + b;
      VisibleAppend(a[1..], b);
      var h := if IsSpace(a[0]) then [] else [a[0]];
      assert Visible(a + b) == h + Visible(a[1..] + b);
      assert Visible(a) == h + Visible(a[1..]);
    } else {
      assert a + b == b;
    }
  }

  lemma {:induction false} VisibleOfWord(s: string)
    requires NoSpace(s)
    ensures Visible(s) == s
  {
    if s != [] {
      VisibleOfWord(s[1..]);
    }
  }

  /** Splitting loses exactly the whitespace: the tokens joined give the visible characters. */
  lemma {:induction false} WordsKeepVisible(s: string)
    ensures Concat(Words(s)) == Visible(s)
    decreases |s|
  {
    if s == [] {
    } else if IsSpace(s[0]) {
      WordsKeepVisible(s[1..]);
    } else {
      var n := WordLength(s);
      WordsKeepVisible(s[n..]);
      assert s == s[..n] + s[n..];
      VisibleAppend(s[..n], s[n..]);
      VisibleOfWord(s[..n]);
      assert Words(s) == [s[..n]] + Words(s[n..]);
    }
  }

  /** A run of whitespace characters. */
  predicate AllSpace(s: string)
  {
    forall i :: 0 <= i < |s| ==> IsSpace(s[i])
  }

  /** A word followed by whitespace, or by nothing, is the whole leading run. */
  lemma {:induction false} WordLengthOfWord(w: string, rest: string)
    requires NoSpace(w) && (rest == [] || IsSpace(rest[0]))
    ensures WordLength(w + rest) == |w|
    decreases |w|
  {
    if w == [] {
      assert w + rest == rest;
    } else {
      assert (w + rest)[0] == w[0] && (w + rest)[1..] == w[1..] + rest;
      WordLengthOfWord(w[1..], rest);
    }
  }

  /** Leading whitespace yields no token. */
  lemma {:induction false} WordsSkipSpace(sp: string, t: string)
    requires AllSpace(sp)
    ensures Words(sp + t) == Words(t)
    decreases |sp|
  {
    if sp == [] {
      assert sp + t == t;
    } else {
      assert (sp + t)[0] == sp[0] && (sp + t)[1..] == sp[1..] + t;
      WordsSkipSpace(sp[1..], t);
    }
  }

  /** `split()` cuts a word at the whitespace run that follows it, however long. */
  lemma WordsAfterWord(w: string, sp: string, t: string)
    requires w != [] && NoSpace(w) && sp != [] && AllSpace(sp)
    ensures Words(w + sp + t) == [w] + Words(t)
  {
    var s := w + sp + t;
    assert s == w + (sp + t);
    assert s[0] == w[0];
    WordLengthOfWord(w, sp + t);
    assert s[..|w|] == w && s[|w|..] == sp + t;
    WordsSkipSpace(sp, t);
  }

  /** `" ".join(ws).split()` gives back any list of non-empty, whitespace-free words. */
  lemma {:induction false} WordsOfJoin(ws: seq<string>)
    requires |ws| > 0
    requires forall i :: 0 <= i < |ws| ==> ws[i] != [] && NoSpace(ws[i])
    ensures Words(Join(ws, ' ')) == ws
    decreases |ws|
  {
    var w := ws[0];
    if |ws| == 1 {
      WordLengthOfWord(w, []);
      assert w + [] == w;
      assert w[..|w|] == w && w[|w|..] == [];
    } else {
      WordsOfJoin(ws[1..]);
      WordsAfterWord(w, [' '], Join(ws[1..], ' '));
      assert ws == [w] + ws[1..];
    }
  }

  // ---------------------------------------------------------------------------------------
  // `int(str)` restricted to an optional sign and ASCII digits, and its inverse `str(int)`.
  // ---------------------------------------------------------------------------------------

  predicate IsDigit(c: char)
  {
    '0' <= c <= '9'
  }

  predicate AllDigits(s: string)
  {
    forall i :: 0 <= i < |s| ==> IsDigit(s[i])
  }

  predicate HasSign(s: string)
  {
    |s| > 0 && (s[0] == '+' || s[0] == '-')
  }

  /** The part of a literal after its optional sign. */
  function Magnitude(s: string): string
  {
    if HasSign(s) then s[1..] else s
  }

  /** The strings `int()` turns into a number: an optional sign and at least one digit. */
  predicate IsIntLiteral(s: string)
  {
    |Magnitude(s)| > 0 && AllDigits(Magnitude(s))
  }

  function DigitsValue(d: string): nat
    requires AllDigits(d)
  {
    if d == [] then 0 else DigitsValue(d[..|d| - 1]) * 10 + (d[|d| - 1] as int - '0' as int)
  }

  function ParseInt(s: string): int
    requires IsIntLiteral(s)
  {
    if |s| > 0 && s[0] == '-' then -(DigitsValue(s[1..]) as int) else DigitsValue(Magnitude(s))
  }

  function ShowNat(n: nat): (r: string)
    ensures |r| > 0 && AllDigits(r)
  {
    var last := [(n % 10 + '0' as int) as char];
    if n < 10 then last else ShowNat(n / 10) + last
  }

  /** `str(i)`. */
  function ShowInt(i: int): string
  {
    if i < 0 then "-" + ShowNat(-i) else ShowNat(i)
  }

  lemma {:induction false} DigitsOfShowNat(n: nat)
    ensures DigitsValue(ShowNat(n)) == n
  {
    var s := ShowNat(n);
    if n >= 10 {
      DigitsOfShowNat(n / 10);
      assert s[..|s| - 1] == ShowNat(n / 10);
    }
  }

  /** Every integer printed in decimal is read back as itself. */
  lemma ParseShowInt(i: int)
    ensures IsIntLiteral(ShowInt(i))
    ensures ParseInt(ShowInt(i)) == i
  {
    if i < 0 {
      DigitsOfShowNat(-i);
      assert ShowInt(i)[1..] == ShowNat(-i);
    } else {
      DigitsOfShowNat(i);
    }
  }

  predicate AllZeros(z: string)
  {
    forall i :: 0 <= i < |z| ==> z[i] == '0'
  }

  lemma {:induction false} ZerosValue(z: string)
    requires AllZeros(z)
    ensures AllDigits(z) && DigitsValue(z) == 0
    decreases |z|
  {
    if z != [] {
      ZerosValue(z[..|z| - 1]);
    }
  }

  /** Leading zeros do not change the value of a digit string. */
  lemma {:induction false} LeadingZerosValue(z: string, d: string)
    requires AllZeros(z) && AllDigits(d)
    ensures AllDigits(z + d) && DigitsValue(z + d) == DigitsValue(d)
    decreases |d|
  {
    ZerosValue(z);
    if d == [] {
      assert z + d == z;
    } else {
      var s := z + d;
      assert s[..|s| - 1] == z + d[..|d| - 1];
      assert s[|s| - 1] == d[|d| - 1];
      LeadingZerosValue(z, d[..|d| - 1]);
    }
  }

  /** `int()` accepts an optional sign and leading zeros: `int(sign + zeros + str(n))`. */
  lemma ParseSignedPadded(sign: string, z: string, n: nat)
    requires sign == "" || sign == "+" || sign == "-"
    requires AllZeros(z)
    ensures IsIntLiteral(sign + z + ShowNat(n))
    ensures ParseInt(sign + z + ShowNat(n)) == if sign == "-" then -(n as int) else n as int
  {
    var d := z + ShowNat(n);
    LeadingZerosValue(z, ShowNat(n));
    DigitsOfShowNat(n);
    assert sign + z + ShowNat(n) == sign + d;
    assert d[|z|] == ShowNat(n)[0];
    if sign == "" {
      assert sign + d == d;
      assert IsDigit(d[0]);
    } else {
      assert (sign + d)[0] == sign[0] && (sign + d)[1..] == d;
    }
  }

  // ---------------------------------------------------------------------------------------
  // `str.split(c)` on a one-character separator, and its inverse `c.join(parts)`.
  // ---------------------------------------------------------------------------------------

  /** `s.split(c)`: the pieces between occurrences of `c`, empty pieces included. */
  function Split(s: string, c: char): (r: seq<string>)
    ensures |r| > 0
  {
    if s == [] then [[]]
    else
      var rest := Split(s[1..], c);
      if s[0] == c then [[]] + rest else [[s[0]] + rest[0]] + rest[1..]
  }

  /** `c.join(parts)`. */
  function Join(parts: seq<string>, c: char): string
    requires |parts| > 0
  {
    if |parts| == 1 then parts[0] else parts[0] + [c] + Join(parts[1..], c)
  }

  /** Joining the pieces gives the string back, and no piece holds the separator. */
  lemma {:induction false} JoinSplit(s: string, c: char)
    ensures Join(Split(s, c), c) == s
    ensures forall i :: 0 <= i < |Split(s, c)| ==> c !in Split(s, c)[i]
  {
    if s != [] {
      var rest := Split(s[1..], c);
      JoinSplit(s[1..], c);
      if s[0] == c {
        assert ([[]] + rest)[1..] == rest;
      } else if |rest| > 1 {
        assert ([[s[0]] + rest[0]] + rest[1..])[1..] == rest[1..];
        assert s == [s[0]] + s[1..];
      } else {
        assert s == [s[0]] + s[1..];
      }
    }
  }

  /** Splitting a word that does not hold the separator, followed by the separator. */
  lemma {:induction false} SplitAfterWord(w: string, c: char, t: string)
    requires c !in w
    ensures Split(w + [c] + t, c) == [w] + Split(t, c)
  {
    if w != [] {
      SplitAfterWord(w[1..], c, t);
      assert (w + [c] + t)[1..] == w[1..] + [c] + t;
      assert w == [w[0]] + w[1..];
    } else {
      assert [c] + t == [] + [c] + t;
      assert ([c] + t)[1..] == t;
    }
  }

  /** A word without the separator is a single piece. */
  lemma {:induction false} SplitWord(w: string, c: char)
    requires c !in w
    ensures Split(w, c) == [w]
  {
    if w != [] {
      SplitWord(w[1..], c);
      assert w == [w[0]] + w[1..];
    }
  }

  /** Splitting a join of separator-free pieces gives the pieces back. */
  lemma {:induction false} SplitJoin(parts: seq<string>, c: char)
    requires |parts| > 0
    requires forall i :: 0 <= i < |parts| ==> c !in parts[i]
    ensures Split(Join(parts, c), c) == parts
  {
    if |parts| == 1 {
      SplitWord(parts[0], c);
    } else {
      SplitJoin(parts[1..], c);
      SplitAfterWord(parts[0], c, Join(parts[1..], c));
      assert parts == [parts[0]] + parts[1..];
    }
  }
}

=== FILE: types.dfy ===
/**
 * The data the inventory pipeline works on: loosely typed YAML/INI values, the raw group
 * tree a YAML or INI loader hands over, and the dict-shaped host, group and defaults
 * records the walker produces.
 */
module Types {
  import opened Wrappers

  /** A value as a YAML or INI loader produces it (Python `Any`). */
  datatype Value =
    | Null
    | Bool(b: bool)
    | Int(i: int)
    | Str(s: string)
    | List(items: seq<Value>)
    | Dict(entries: map<string, Value>)

  /** A variables mapping (`VarsDict`). Key order never affects a result, so a `map`. */
  type Vars = map<string, Value>

  /** Which of the two inventory modules is modelled. */
  datatype Variant =
    | Current   // nornir_ansible/plugins/inventory/ansible.py
    | Legacy    // nornir_ansible/inventory/ansible.py

  /** The exceptions that abort a parse or a load. */
  datatype Error =
    | NoValidInventory(tried: string) // NornirNoValidInventoryError: neither INI nor YAML
    | YamlFailure                     // any other YAML loader error, re-raised unchanged
    | UnknownTag(tag: string)         // ValueError: INI meta section other than vars/children
    | BadSectionName(name: string)    // ValueError: section name with more than one ':'
    | BadOption(token: string)        // ValueError: host-line token that is not key=value
    | MissingKey(key: string)         // KeyError
    | NotAMapping                     // TypeError/AttributeError: a mapping was expected

  /**
   * One key of a group node: absent (the walker then uses `{}`), present with a mapping,
   * or present with something else (`null`, a list, a scalar), on which the walker fails.
   */
  datatype Field<+T> = Absent | Present(value: T) | NotMapping

  /**
   * A node of the raw group tree. A `null` or otherwise falsy node is the empty
   * `Group(Absent, Absent, NoChildren)` (`data or {}`); `Malformed` is any other non-mapping.
   * `hosts` and `children` keep the document's key order, which decides the walk order.
   */
  datatype GroupNode =
    | Group(vars: Field<Vars>, hosts: Field<seq<(string, HostNode)>>, children: Children)
    | Malformed

  /**
   * The `children` key of a group node, like a `Field` but spelled out so that a child is
   * structurally smaller than its parent.
   */
  datatype Children = NoChildren | ChildNodes(nodes: seq<(string, GroupNode)>) | BadChildren

  /** A group without vars, hosts or children: what `{}` and `null` stand for. */
  const EmptyGroup: GroupNode := Group(Absent, Absent, NoChildren)

  /** The value under a host name: its inline vars (`null` gives `{}`), or a non-mapping. */
  datatype HostNode = HostVars(vars: Vars) | MalformedHost

  /** The ordered children of a node, or none when the node has no usable `children`. */
  function ChildrenOf(node: GroupNode): seq<(string, GroupNode)>
  {
    if node.Group? && node.children.ChildNodes? then node.children.nodes else []
  }

  /** The ordered hosts of a node, or none when the node has no usable `hosts`. */
  function HostsOf(node: GroupNode): seq<(string, HostNode)>
  {
    if node.Group? && node.hosts.Present? then node.hosts.value else []
  }

  /**
   * What `normalize_data` writes into a host, group or defaults dict: the top-level
   * reserved `fields` and the free-form `data` dict.
   */
  datatype Record = Record(data: Vars, fields: map<string, Value>)

  /** A host or group dict: `{"groups": [...], "data": {...}, <fields>}`. */
  datatype Entry = Entry(groups: seq<string>, record: Record)

  /** The parser's three result dicts: `hosts`, `groups` and `defaults` (which has no `groups`). */
  datatype Tables = Tables(hosts: map<string, Entry>, groups: map<string, Entry>, defaults: Record)

  /**
   * A side-car YAML file as the loader returns it: a mapping, a non-mapping that Python
   * treats as false (`null`, which an empty file loads as, `[]`, `""`, `0`) or as true,
   * or a file the loader rejects with an error.
   */
  datatype Document = Mapping(vars: Vars) | FalsyNonMapping | TruthyNonMapping | Unreadable
}

=== FILE: vars_files.dfy ===
/**
 * Side-car variables: the `host_vars/<name>` and `group_vars/<name>` files (and, in the
 * current module, directories) next to the inventory file, and the mapping each yields.
 */
module VarsFiles {
  import opened Wrappers
  import opened Types

  /** `VARS_FILENAME_EXTENSIONS`, in lookup order. */
  const Extensions: seq<string> := ["", ".ini", ".yml", ".yaml"]

  /** A path under `host_vars/` (`isHost`) or `group_vars/`. */
  datatype VarsPath = VarsPath(isHost: bool, name: string)

  /**
   * The side-car sources as the filesystem and the YAML loader present them: every regular
   * file under `host_vars/` or `group_vars/` with its loaded content, and every directory
   * there with the loaded contents of the files `_get_all_files` lists for it, in its order.
   * A missing `host_vars/` or `group_vars/` directory is a store without paths under it.
   */
  datatype VarsStore = VarsStore(files: map<VarsPath, Document>, dirs: map<VarsPath, seq<Document>>)

  /** The path of `name` with the `i`-th extension. */
  function VarsFileAt(isHost: bool, name: string, i: nat): VarsPath
    requires i < |Extensions|
  {
    VarsPath(isHost, name + Extensions[i])
  }

  /** The first file among `name` + `Extensions[i..]` that exists, loaded. */
  function FindVarsFile(store: VarsStore, isHost: bool, name: string, i: nat): Option<Document>
    requires i <= |Extensions|
    decreases |Extensions| - i
  {
    if i == |Extensions| then None
    else if VarsFileAt(isHost, name, i) in store.files then Some(store.files[VarsFileAt(isHost, name, i)])
    else FindVarsFile(store, isHost, name, i + 1)
  }

  /** The extension loop of `read_vars_file` (and the test of `_vars_file_exists`). */
  function FirstVarsFile(store: VarsStore, isHost: bool, name: string): Option<Document>
  {
    FindVarsFile(store, isHost, name, 0)
  }

  /** The file with the first extension that exists is the one loaded. */
  lemma {:induction false} FindVarsFileFirst(store: VarsStore, isHost: bool, name: string, from: nat, i: nat)
    requires from <= i < |Extensions|
    requires VarsFileAt(isHost, name, i) in store.files
    requires forall j :: from <= j < i ==> VarsFileAt(isHost, name, j) !in store.files
    ensures FindVarsFile(store, isHost, name, from) == Some(store.files[VarsFileAt(isHost, name, i)])
    decreases i - from
  {
    if from < i {
      FindVarsFileFirst(store, isHost, name, from + 1, i);
    }
  }

  lemma {:induction false} FindVarsFileNone(store: VarsStore, isHost: bool, name: string, from: nat)
    requires from <= |Extensions|
    requires forall j :: from <= j < |Extensions| ==> VarsFileAt(isHost, name, j) !in store.files
    ensures FindVarsFile(store, isHost, name, from) == None
    decreases |Extensions| - from
  {
    if from < |Extensions| {
      FindVarsFileNone(store, isHost, name, from + 1);
    }
  }

  /**
   * `read_vars_file` tries `""`, `.ini`, `.yml`, `.yaml` in that order and loads the first
   * that exists; without any, there is no file.
   */
  lemma FirstVarsFileSpec(store: VarsStore, isHost: bool, name: string, i: nat)
    requires i < |Extensions|
    ensures (forall j :: 0 <= j < |Extensions| ==> VarsFileAt(isHost, name, j) !in store.files)
      ==> FirstVarsFile(store, isHost, name) == None
    ensures VarsFileAt(isHost, name, i) in store.files
      && (forall j :: 0 <= j < i ==> VarsFileAt(isHost, name, j) !in store.files)
      ==> FirstVarsFile(store, isHost, name) == Some(store.files[VarsFileAt(isHost, name, i)])
  {
    if forall j :: 0 <= j < |Extensions| ==> VarsFileAt(isHost, name, j) !in store.files {
      FindVarsFileNone(store, isHost, name, 0);
    }
    if VarsFileAt(isHost, name, i) in store.files
      && (forall j :: 0 <= j < i ==> VarsFileAt(isHost, name, j) !in store.files)
    {
      FindVarsFileFirst(store, isHost, name, 0, i);
    }
  }

  /** The older `read_vars_file`: the first file found, loaded, or `{}` when there is none. */
  function ReadVarsFile(store: VarsStore, isHost: bool, name: string): Document
  {
    match FirstVarsFile(store, isHost, name)
    case Some(doc) => doc
    case None => Mapping(map[])
  }

  // ---------------------------------------------------------------------------------------
  // Directories of variable files (current module only)
  // ---------------------------------------------------------------------------------------

  /**
   * The merge of a directory's files in listing order, where the first file that defines a
   * key keeps it and a file that does not load as a mapping is skipped.
   */
  function DirectoryVars(docs: seq<Document>): Vars
  {
    if docs == [] then map[]
    else if docs[0].Mapping? then DirectoryVars(docs[1..]) + docs[0].vars
    else DirectoryVars(docs[1..])
  }

  lemma {:induction false} DirectoryVarsSnoc(docs: seq<Document>, d: Document)
    ensures DirectoryVars(docs + [d]) ==
      if d.Mapping? then d.vars + DirectoryVars(docs) else DirectoryVars(docs)
  {
    if docs != [] {
      assert (docs + [d])[1..] == docs[1..] + [d];
      DirectoryVarsSnoc(docs[1..], d);
    } else {
      assert [] + [d] == [d];
    }
  }

  /** Every file of a directory loads. */
  predicate Readable(docs: seq<Document>)
  {
    forall i :: 0 <= i < |docs| ==> !docs[i].Unreadable?
  }

  /**
   * The loop over `_get_all_files(...)`: `vars_file_data = {**t_vars_file_data, **vars_file_data}`
   * for each file that loads as a dict; a file the loader rejects aborts the loop.
   */
  method MergeVarsDirectory(docs: seq<Document>) returns (r: Result<Vars, Error>)
    ensures r == if Readable(docs) then Ok(DirectoryVars(docs)) else Err(YamlFailure)
  {
    var vars := map[];
    var i := 0;
    while i < |docs|
      invariant 0 <= i <= |docs|
      invariant Readable(docs[..i])
      invariant vars == DirectoryVars(docs[..i])
    {
      if docs[i].Unreadable? {
        return Err(YamlFailure);
      }
      DirectoryVarsSnoc(docs[..i], docs[i]);
      assert docs[..i + 1] == docs[..i] + [docs[i]];
      if docs[i].Mapping? {
        vars := docs[i].vars + vars;
      }
      i := i + 1;
    }
    assert docs[..i] == docs;
    r := Ok(vars);
  }

  /** A key is merged from a directory exactly when some file that is a mapping defines it. */
  lemma {:induction false} DirectoryVarsKeys(docs: seq<Document>, k: string)
    ensures k in DirectoryVars(docs) <==>
      exists i :: 0 <= i < |docs| && docs[i].Mapping? && k in docs[i].vars
  {
    if docs != [] {
      DirectoryVarsKeys(docs[1..], k);
      if exists i :: 1 <= i < |docs| && docs[i].Mapping? && k in docs[i].vars {
        var i :| 1 <= i < |docs| && docs[i].Mapping? && k in docs[i].vars;
        assert docs[1..][i - 1] == docs[i];
      }
    }
  }

  /** On a collision, the first file loaded (in listing order) wins. */
  lemma {:induction false} DirectoryFirstWins(docs: seq<Document>, i: nat, k: string)
    requires i < |docs| && docs[i].Mapping? && k in docs[i].vars
    requires forall j :: 0 <= j < i && docs[j].Mapping? ==> k !in docs[j].vars
    ensures k in DirectoryVars(docs) && DirectoryVars(docs)[k] == docs[i].vars[k]
  {
    if i > 0 {
      DirectoryFirstWins(docs[1..], i - 1, k);
    }
  }

  // ---------------------------------------------------------------------------------------
  // The side-car mapping handed to normalize_data
  // ---------------------------------------------------------------------------------------

  /**
   * The `vars_data` argument `parse_group` (`isHost` false) or `parse_hosts` passes to
   * `normalize_data` for `name`, or the failure `normalize_data` then meets:
   * - `Current`: a file found by `_vars_file_exists` must load as a mapping; otherwise a
   *   directory `name` is merged; otherwise `{}`.
   * A loader error in any file read is re-raised.
   * - `Legacy`: the older `read_vars_file`; groups turn a falsy document into `{}`
   *   (`or {}`), hosts have no such guard.
   */
  function SideCarVars(v: Variant, store: VarsStore, isHost: bool, name: string): Result<Vars, Error>
  {
    match v
    case Current =>
      (match FirstVarsFile(store, isHost, name)
       case Some(doc) =>
         if doc.Mapping? then Ok(doc.vars)
         else if doc.Unreadable? then Err(YamlFailure)
         else Err(NotAMapping)
       case None =>
         if VarsPath(isHost, name) !in store.dirs then Ok(map[])
         else if Readable(store.dirs[VarsPath(isHost, name)])
         then Ok(DirectoryVars(store.dirs[VarsPath(isHost, name)]))
         else Err(YamlFailure))
    case Legacy =>
      var doc := ReadVarsFile(store, isHost, name);
      if doc.Mapping? then Ok(doc.vars)
      else if doc.Unreadable? then Err(YamlFailure)
      else if !isHost && doc.FalsyNonMapping? then Ok(map[])
      else Err(NotAMapping)
  }

  /** The side-car lookup as `parse_group` and `parse_hosts` run it, with the directory loop. */
  method LoadSideCarVars(v: Variant, store: VarsStore, isHost: bool, name: string)
    returns (r: Result<Vars, Error>)
    ensures r == SideCarVars(v, store, isHost, name)
  {
    if v == Current {
      var found := FirstVarsFile(store, isHost, name);
      if found.Some? {
        var doc := found.value;
        r := if doc.Mapping? then Ok(doc.vars)
          else if doc.Unreadable? then Err(YamlFailure)
          else Err(NotAMapping);
      } else if VarsPath(isHost, name) in store.dirs {
        r := MergeVarsDirectory(store.dirs[VarsPath(isHost, name)]);
      } else {
        r := Ok(map[]);
      }
    } else {
      var doc := ReadVarsFile(store, isHost, name);
      if doc.Mapping? {
        r := Ok(doc.vars);
      } else if doc.Unreadable? {
        r := Err(YamlFailure);
      } else if !isHost && doc.FalsyNonMapping? {
        r := Ok(map[]);
      } else {
        r := Err(NotAMapping);
      }
    }
  }

  /** In `Legacy`, an empty group vars file counts as `{}`, while an empty host vars file fails. */
  lemma LegacyEmptyVarsFile(store: VarsStore, name: string)
    requires VarsFileAt(false, name, 0) in store.files
    requires store.files[VarsFileAt(false, name, 0)] == FalsyNonMapping
    requires VarsFileAt(true, name, 0) in store.files
    requires store.files[VarsFileAt(true, name, 0)] == FalsyNonMapping
    ensures SideCarVars(Legacy, store, false, name) == Ok(map[])
    ensures SideCarVars(Legacy, store, true, name) == Err(NotAMapping)
  {
    FirstVarsFileSpec(store, false, name, 0);
    FirstVarsFileSpec(store, true, name, 0);
  }

  /** Without any side-car file or directory, every lookup yields `{}`. */
  lemma NoSideCar(v: Variant, store: VarsStore, isHost: bool, name: string)
    requires forall j :: 0 <= j < |Extensions| ==> VarsFileAt(isHost, name, j) !in store.files
    requires VarsPath(isHost, name) !in store.dirs
    ensures SideCarVars(v, store, isHost, name) == Ok(map[])
  {
    FirstVarsFileSpec(store, isHost, name, 0);
  }
}

=== FILE: walker.dfy ===
/**
 * The walk of `AnsibleParser.parse_group` / `parse_hosts` over the raw group tree, as
 * functions from the parser's three dicts before a call to the dicts after it (or to the
 * exception the call raises), and the `sort_groups` pass that ends `parse`.
 */
module Walker {
  import opened Wrappers
  import opened Types
  import opened Text
  import opened Normalize
  import opened VarsFiles

  /** What the walk depends on besides the tree: the module variant and the side-car files. */
  datatype Config = Config(variant: Variant, store: VarsStore)

  /**
   * `parent and parent != "defaults"`: whether the parent is appended to `groups`.
   * The root call has no parent (`None`); it is written `""`, which the test treats alike.
   */
  predicate Appends(parent: string)
  {
    parent != "" && parent != "defaults"
  }

  function Appended(groups: seq<string>, parent: string): seq<string>
  {
    if Appends(parent) then groups + [parent] else groups
  }

  /** The `hostname` argument `parse_hosts` passes to `normalize_data`. */
  function HostnameArg(v: Variant, host: string): Option<string>
  {
    if v == Current then Some(host) else None
  }

  /** The group vars file `parse_group` reads: `defaults` stands for `all`. */
  function GroupFile(group: string): string
  {
    if group == "defaults" then "all" else group
  }

  /** The empty parser state of `AnsibleParser.__init__`. */
  const Empty: Tables := Tables(map[], map[], Record(map[], map[]))

  // ---------------------------------------------------------------------------------------
  // parse_hosts
  // ---------------------------------------------------------------------------------------

  /** One iteration of the `parse_hosts` loop: add, append the parent, read the side-car, normalize. */
  function WalkHost(cfg: Config, st: Tables, host: string, node: HostNode, parent: string)
    : Result<Tables, Error>
  {
    var e := Add(host, st.hosts)[host];
    var fileVars :- SideCarVars(cfg.variant, cfg.store, true, host);
    if node.MalformedHost? then Err(NotAMapping)
    else
      var rec := Normalized(cfg.variant, e.record, node.vars, fileVars, HostnameArg(cfg.variant, host));
      Ok(st.(hosts := st.hosts[host := Entry(Appended(e.groups, parent), rec)]))
  }

  /** `parse_hosts(hosts, parent)`: the hosts in document order; the first failure aborts. */
  function WalkHosts(cfg: Config, st: Tables, hosts: seq<(string, HostNode)>, parent: string)
    : Result<Tables, Error>
    decreases |hosts|
  {
    if hosts == [] then Ok(st)
    else
      var st1 :- WalkHost(cfg, st, hosts[0].0, hosts[0].1, parent);
      WalkHosts(cfg, st1, hosts[1..], parent)
  }

  /** One iteration of the loop over the hosts: the first host, then the rest from its state. */
  lemma WalkHostsStep(cfg: Config, st: Tables, hosts: seq<(string, HostNode)>, parent: string,
                      first: Result<Tables, Error>)
    requires hosts != [] && WalkHost(cfg, st, hosts[0].0, hosts[0].1, parent) == first
    ensures first.Err? ==> WalkHosts(cfg, st, hosts, parent) == Err(first.error)
    ensures first.Ok? ==> WalkHosts(cfg, st, hosts, parent) == WalkHosts(cfg, first.value, hosts[1..], parent)
  {
  }

  // ---------------------------------------------------------------------------------------
  // parse_group
  // ---------------------------------------------------------------------------------------

  /**
   * The start of `parse_group`: `add` the group (not `defaults`, which is `self.defaults`)
   * and append the parent; `self.defaults` has no `groups` key, hence the KeyError.
   */
  function EnterGroup(st: Tables, group: string, parent: string): Result<Tables, Error>
  {
    if group == "defaults" then
      if Appends(parent) then Err(MissingKey("groups")) else Ok(st)
    else
      var e := Add(group, st.groups)[group];
      Ok(st.(groups := st.groups[group := e.(groups := Appended(e.groups, parent))]))
  }

  /** `dest_group`: the record `parse_group` normalizes into. */
  function DestRecord(st: Tables, group: string): Record
    requires group == "defaults" || group in st.groups
  {
    if group == "defaults" then st.defaults else st.groups[group].record
  }

  function WithRecord(st: Tables, group: string, rec: Record): Tables
    requires group == "defaults" || group in st.groups
  {
    if group == "defaults" then st.(defaults := rec)
    else st.(groups := st.groups[group := st.groups[group].(record := rec)])
  }

  /** `data.get("vars", {})`. */
  function InlineVars(node: GroupNode): Vars
  {
    if node.Group? && node.vars.Present? then node.vars.value else map[]
  }

  /**
   * The part of `parse_group` before its hosts: enter the group, then normalize the inline
   * and side-car vars into `dest_group`.
   */
  function GroupHead(cfg: Config, st: Tables, group: string, node: GroupNode, parent: string)
    : Result<Tables, Error>
  {
    var st1 :- EnterGroup(st, group, parent);
    if node.Malformed? then Err(NotAMapping)
    else
      var fileVars :- SideCarVars(cfg.variant, cfg.store, false, GroupFile(group));
      if node.vars.NotMapping? then Err(NotAMapping)
      else
        assert group == "defaults" || group in st1.groups;
        Ok(WithRecord(st1, group, Normalized(cfg.variant, DestRecord(st1, group), InlineVars(node), fileVars, None)))
  }

  /**
   * `GroupHead` succeeds exactly when none of its checks fails, and then the group's entry
   * (or `self.defaults`) holds the appended parent and the normalized record.
   */
  lemma GroupHeadValue(cfg: Config, st: Tables, group: string, node: GroupNode, parent: string)
    ensures GroupHead(cfg, st, group, node, parent).Ok? <==>
      && !(group == "defaults" && Appends(parent)) && node.Group?
      && SideCarVars(cfg.variant, cfg.store, false, GroupFile(group)).Ok? && !node.vars.NotMapping?
    ensures GroupHead(cfg, st, group, node, parent).Ok? ==>
      var fileVars := SideCarVars(cfg.variant, cfg.store, false, GroupFile(group)).value;
      var e := Add(group, st.groups)[group];
      GroupHead(cfg, st, group, node, parent).value ==
        if group == "defaults"
        then st.(defaults := Normalized(cfg.variant, st.defaults, InlineVars(node), fileVars, None))
        else st.(groups := st.groups[group := Entry(Appended(e.groups, parent),
                                                    Normalized(cfg.variant, e.record, InlineVars(node), fileVars, None))])
  {
    if group != "defaults" {
      var e := Add(group, st.groups)[group];
      var st1 := st.(groups := st.groups[group := e.(groups := Appended(e.groups, parent))]);
      assert EnterGroup(st, group, parent) == Ok(st1);
      assert DestRecord(st1, group) == e.record;
      forall rec: Record
        ensures WithRecord(st1, group, rec) == st.(groups := st.groups[group := Entry(Appended(e.groups, parent), rec)])
      {
        assert st1.groups[group := st1.groups[group].(record := rec)]
          == st.groups[group := Entry(Appended(e.groups, parent), rec)];
      }
    }
  }

  /** `parse_group(group, node, parent)`: the group, then its hosts, then its children. */
  function WalkGroup(cfg: Config, st: Tables, group: string, node: GroupNode, parent: string)
    : Result<Tables, Error>
    decreases node, 1
  {
    var st2 :- GroupHead(cfg, st, group, node, parent);
    if node.hosts.NotMapping? then Err(NotAMapping)
    else
      var st3 :- WalkHosts(cfg, st2, HostsOf(node), group);
      if node.children.BadChildren? then Err(NotAMapping)
      else WalkChildren(cfg, st3, group, node, 0)
  }

  /** The loop over `data.get("children", {})` from the `i`-th child on. */
  function WalkChildren(cfg: Config, st: Tables, group: string, node: GroupNode, i: nat)
    : Result<Tables, Error>
    requires i <= |ChildrenOf(node)|
    decreases node, 0, |ChildrenOf(node)| - i
  {
    if i == |ChildrenOf(node)| then Ok(st)
    else
      var child := node.children.nodes[i];
      assert child in node.children.nodes;
      var st1 :- WalkGroup(cfg, st, child.0, child.1, group);
      WalkChildren(cfg, st1, group, node, i + 1)
  }

  /** One iteration of the loop over the children: child `i`, then the rest from its state. */
  lemma WalkChildrenUnfold(cfg: Config, st: Tables, group: string, node: GroupNode, i: nat)
    requires i < |ChildrenOf(node)|
    ensures var child := node.children.nodes[i];
      WalkChildren(cfg, st, group, node, i) ==
        if WalkGroup(cfg, st, child.0, child.1, group).Err? then WalkGroup(cfg, st, child.0, child.1, group)
        else WalkChildren(cfg, WalkGroup(cfg, st, child.0, child.1, group).value, group, node, i + 1)
  {
  }

  // ---------------------------------------------------------------------------------------
  // What a walk visits
  // ---------------------------------------------------------------------------------------

  /** A visit: the host or group name and the parent it is parsed under. */
  type Visit = (string, string)

  /** The hosts of one `hosts` mapping, all parsed under `parent`. */
  function HostPairs(hosts: seq<(string, HostNode)>, parent: string): seq<Visit>
  {
    if hosts == [] then [] else [(hosts[0].0, parent)] + HostPairs(hosts[1..], parent)
  }

  /** Every host the walk of `group` parses, with its parent, in walk order. */
  function HostVisits(group: string, node: GroupNode): seq<Visit>
    decreases node, 1
  {
    HostPairs(HostsOf(node), group) + ChildHostVisits(group, node, 0)
  }

  function ChildHostVisits(group: string, node: GroupNode, i: nat): seq<Visit>
    requires i <= |ChildrenOf(node)|
    decreases node, 0, |ChildrenOf(node)| - i
  {
    if i == |ChildrenOf(node)| then []
    else
      var child := node.children.nodes[i];
      assert child in node.children.nodes;
      HostVisits(child.0, child.1) + ChildHostVisits(group, node, i + 1)
  }

  /** Every group the walk of `group` parses (itself first), with its parent, in walk order. */
  function GroupVisits(group: string, node: GroupNode, parent: string): seq<Visit>
    decreases node, 1
  {
    [(group, parent)] + ChildGroupVisits(group, node, 0)
  }

  function ChildGroupVisits(group: string, node: GroupNode, i: nat): seq<Visit>
    requires i <= |ChildrenOf(node)|
    decreases node, 0, |ChildrenOf(node)| - i
  {
    if i == |ChildrenOf(node)| then []
    else
      var child := node.children.nodes[i];
      assert child in node.children.nodes;
      GroupVisits(child.0, child.1, group) + ChildGroupVisits(group, node, i + 1)
  }

  function Names(visits: seq<Visit>): set<string>
  {
    if visits == [] then {} else {visits[0].0} + Names(visits[1..])
  }

  /** The parents the visits of `x` append to its `groups` list, in order. */
  function Parents(visits: seq<Visit>, x: string): seq<string>
  {
    if visits == [] then []
    else (if visits[0].0 == x && Appends(visits[0].1) then [visits[0].1] else []) + Parents(visits[1..], x)
  }

  lemma {:induction false} NamesAppend(v1: seq<Visit>, v2: seq<Visit>)
    ensures Names(v1 + v2) == Names(v1) + Names(v2)
  {
    if v1 != [] {
      assert (v1 + v2)[1..] == v1[1..] + v2;
      NamesAppend(v1[1..], v2);
    } else {
      assert v1 + v2 == v2;
    }
  }

  lemma {:induction false} ParentsAppend(v1: seq<Visit>, v2: seq<Visit>, x: string)
    ensures Parents(v1 + v2, x) == Parents(v1, x) + Parents(v2, x)
  {
    if v1 != [] {
      assert (v1 + v2)[1..] == v1[1..] + v2;
      ParentsAppend(v1[1..], v2, x);
    } else {
      assert v1 + v2 == v2;
    }
  }

  lemma {:induction false} ParentsOfUnvisited(visits: seq<Visit>, x: string)
    requires x !in Names(visits)
    ensures Parents(visits, x) == []
  {
    if visits != [] {
      ParentsOfUnvisited(visits[1..], x);
    }
  }

  /** The parents the visits name. */
  function ParentNames(visits: seq<Visit>): set<string>
  {
    if visits == [] then {} else {visits[0].1} + ParentNames(visits[1..])
  }

  lemma {:induction false} ParentNamesAppend(v1: seq<Visit>, v2: seq<Visit>)
    ensures ParentNames(v1 + v2) == ParentNames(v1) + ParentNames(v2)
  {
    if v1 != [] {
      assert (v1 + v2)[1..] == v1[1..] + v2;
      ParentNamesAppend(v1[1..], v2);
    } else {
      assert v1 + v2 == v2;
    }
  }

  /** A name appended to `x`'s list is the parent of a visit and is not `defaults`. */
  lemma {:induction false} ParentsNamed(visits: seq<Visit>, x: string, g: string)
    requires g in Parents(visits, x)
    ensures g in ParentNames(visits) && Appends(g)
  {
    if visits != [] && !(visits[0].0 == x && Appends(visits[0].1) && visits[0].1 == g) {
      ParentsNamed(visits[1..], x, g);
    }
  }

  lemma {:induction false} HostPairsParents(hosts: seq<(string, HostNode)>, parent: string)
    ensures ParentNames(HostPairs(hosts, parent)) <= {parent}
  {
    if hosts != [] {
      HostPairsParents(hosts[1..], parent);
    }
  }

  /** Every host is visited under a group the same walk visits. */
  lemma {:induction false} HostParentsVisited(group: string, node: GroupNode, parent: string)
    ensures ParentNames(HostVisits(group, node)) <= Names(GroupVisits(group, node, parent))
    decreases node, 1
  {
    HostPairsParents(HostsOf(node), group);
    ParentNamesAppend(HostPairs(HostsOf(node), group), ChildHostVisits(group, node, 0));
    ChildHostParentsVisited(group, node, 0);
    NamesAppend([(group, parent)], ChildGroupVisits(group, node, 0));
  }

  lemma {:induction false} ChildHostParentsVisited(group: string, node: GroupNode, i: nat)
    requires i <= |ChildrenOf(node)|
    ensures ParentNames(ChildHostVisits(group, node, i)) <= Names(ChildGroupVisits(group, node, i))
    decreases node, 0, |ChildrenOf(node)| - i
  {
    if i < |ChildrenOf(node)| {
      var child := node.children.nodes[i];
      assert child in node.children.nodes;
      HostParentsVisited(child.0, child.1, group);
      ChildHostParentsVisited(group, node, i + 1);
      ParentNamesAppend(HostVisits(child.0, child.1), ChildHostVisits(group, node, i + 1));
      NamesAppend(GroupVisits(child.0, child.1, group), ChildGroupVisits(group, node, i + 1));
    }
  }

  /** Every group is visited under the walk's own parent or under a group it visits. */
  lemma {:induction false} GroupParentsVisited(group: string, node: GroupNode, parent: string)
    ensures ParentNames(GroupVisits(group, node, parent)) <= Names(GroupVisits(group, node, parent)) + {parent}
    decreases node, 1
  {
    ChildGroupParentsVisited(group, node, 0);
    ParentNamesAppend([(group, parent)], ChildGroupVisits(group, node, 0));
    NamesAppend([(group, parent)], ChildGroupVisits(group, node, 0));
  }

  lemma {:induction false} ChildGroupParentsVisited(group: string, node: GroupNode, i: nat)
    requires i <= |ChildrenOf(node)|
    ensures ParentNames(ChildGroupVisits(group, node, i)) <= Names(ChildGroupVisits(group, node, i)) + {group}
    decreases node, 0, |ChildrenOf(node)| - i
  {
    if i < |ChildrenOf(node)| {
      var child := node.children.nodes[i];
      assert child in node.children.nodes;
      GroupParentsVisited(child.0, child.1, group);
      ChildGroupParentsVisited(group, node, i + 1);
      ParentNamesAppend(GroupVisits(child.0, child.1, group), ChildGroupVisits(group, node, i + 1));
      NamesAppend(GroupVisits(child.0, child.1, group), ChildGroupVisits(group, node, i + 1));
    }
  }

  // ---------------------------------------------------------------------------------------
  // What a walk does to the `hosts` and `groups` dicts, one name at a time
  // ---------------------------------------------------------------------------------------

  /** The `groups` list of `x` in `table`, or `[]` before `add` registers it. */
  function GroupsOf(table: map<string, Entry>, x: string): seq<string>
  {
    if x in table then table[x].groups else []
  }

  /**
   * What the visits do to `x` in a dict: it is present afterwards exactly when it was before
   * or was visited; its `groups` list grew by the parents of its visits, in order (so a
   * repeated parent is repeated); a visited entry has all six fields; an unvisited one keeps
   * its record; and every entry stays well formed.
   */
  predicate Tracks(v: Variant, before: map<string, Entry>, after: map<string, Entry>,
                   visits: seq<Visit>, x: string)
  {
    && (x in after <==> x in before || x in Names(visits))
    && (x in after ==> after[x].groups == GroupsOf(before, x) + Parents(visits, x))
    && (x in before && x !in Names(visits) ==> x in after && after[x].record == before[x].record)
    && (x in Names(visits) ==> x in after && Complete(v, after[x].record))
    && (x in after ==> WellFormed(v, after[x].record))
  }

  /** Well-formed before, as every lemma about a walk assumes of `x`. */
  predicate WellFormedAt(v: Variant, table: map<string, Entry>, x: string)
  {
    x in table ==> WellFormed(v, table[x].record)
  }

  lemma TracksNothing(v: Variant, table: map<string, Entry>, x: string)
    requires WellFormedAt(v, table, x)
    ensures Tracks(v, table, table, [], x)
  {
  }

  lemma TracksCompose(v: Variant, a: map<string, Entry>, b: map<string, Entry>, c: map<string, Entry>,
                      v1: seq<Visit>, v2: seq<Visit>, x: string)
    requires Tracks(v, a, b, v1, x) && Tracks(v, b, c, v2, x)
    ensures Tracks(v, a, c, v1 + v2, x)
  {
    NamesAppend(v1, v2);
    ParentsAppend(v1, v2, x);
    if x !in Names(v1) {
      ParentsOfUnvisited(v1, x);
    }
  }

  /** One `add`, append and normalize of `name` under `parent`. */
  lemma TracksVisit(v: Variant, a: map<string, Entry>, b: map<string, Entry>,
                    name: string, parent: string, x: string)
    requires name in b && b[name].groups == Appended(Add(name, a)[name].groups, parent)
    requires x == name ==> Complete(v, b[name].record)
    requires x != name ==> (x in b <==> x in a) && (x in a ==> b[x] == a[x])
    requires WellFormedAt(v, a, x)
    ensures Tracks(v, a, b, [(name, parent)], x)
  {
    assert Names([(name, parent)]) == {name};
    assert Parents([(name, parent)], x) == if x == name && Appends(parent) then [parent] else [];
  }

  /** `parse_hosts` for one host touches the `hosts` dict only, and there only `host`. */
  lemma WalkHostTracks(cfg: Config, st: Tables, host: string, node: HostNode, parent: string, x: string)
    requires WalkHost(cfg, st, host, node, parent).Ok?
    requires WellFormedAt(cfg.variant, st.hosts, x)
    ensures var r := WalkHost(cfg, st, host, node, parent).value;
      && Tracks(cfg.variant, st.hosts, r.hosts, [(host, parent)], x)
      && r.groups == st.groups && r.defaults == st.defaults
  {
    var r := WalkHost(cfg, st, host, node, parent).value;
    var e := Add(host, st.hosts)[host];
    if x == host {
      var fileVars := SideCarVars(cfg.variant, cfg.store, true, host).value;
      NormalizedComplete(cfg.variant, e.record, node.vars, fileVars, HostnameArg(cfg.variant, host));
    }
    TracksVisit(cfg.variant, st.hosts, r.hosts, host, parent, x);
  }

  lemma {:induction false} WalkHostsTracks(cfg: Config, st: Tables, hosts: seq<(string, HostNode)>,
                                           parent: string, x: string)
    requires WalkHosts(cfg, st, hosts, parent).Ok?
    requires WellFormedAt(cfg.variant, st.hosts, x)
    ensures var r := WalkHosts(cfg, st, hosts, parent).value;
      && Tracks(cfg.variant, st.hosts, r.hosts, HostPairs(hosts, parent), x)
      && r.groups == st.groups && r.defaults == st.defaults
    decreases |hosts|
  {
    if hosts == [] {
      TracksNothing(cfg.variant, st.hosts, x);
    } else {
      var st1 := WalkHost(cfg, st, hosts[0].0, hosts[0].1, parent).value;
      var r := WalkHosts(cfg, st1, hosts[1..], parent).value;
      WalkHostTracks(cfg, st, hosts[0].0, hosts[0].1, parent, x);
      WalkHostsTracks(cfg, st1, hosts[1..], parent, x);
      TracksCompose(cfg.variant, st.hosts, st1.hosts, r.hosts,
                    [(hosts[0].0, parent)], HostPairs(hosts[1..], parent), x);
    }
  }

  /** The state a walk starts from and keeps: well-formed at `x`, `defaults` not a group. */
  predicate ReadyAt(v: Variant, st: Tables, x: string)
  {
    && WellFormedAt(v, st.hosts, x) && WellFormedAt(v, st.groups, x)
    && WellFormed(v, st.defaults) && "defaults" !in st.groups
  }

  /**
   * What a successful walk of `group` does, seen from the name `x`: `Tracks` on the hosts
   * dict with the host visits, and on the groups dict with the group visits (`defaults` is
   * never entered there); `self.defaults` changes only when a group named `defaults` is
   * visited, and stays well formed (complete once a `defaults` visit normalized it).
   */
  predicate WalkedAt(v: Variant, st: Tables, r: Tables, hostVisits: seq<Visit>, groupVisits: seq<Visit>, x: string)
  {
    && Tracks(v, st.hosts, r.hosts, hostVisits, x)
    && (x != "defaults" ==> Tracks(v, st.groups, r.groups, groupVisits, x))
    && "defaults" !in r.groups
    && WellFormed(v, r.defaults)
    && ("defaults" !in Names(groupVisits) ==> r.defaults == st.defaults)
    && ("defaults" in Names(groupVisits) || Complete(v, st.defaults) ==> Complete(v, r.defaults))
  }

  lemma WalkedCompose(v: Variant, a: Tables, b: Tables, c: Tables,
                      h1: seq<Visit>, g1: seq<Visit>, h2: seq<Visit>, g2: seq<Visit>, x: string)
    requires WalkedAt(v, a, b, h1, g1, x) && WalkedAt(v, b, c, h2, g2, x)
    ensures WalkedAt(v, a, c, h1 + h2, g1 + g2, x)
  {
    TracksCompose(v, a.hosts, b.hosts, c.hosts, h1, h2, x);
    if x != "defaults" {
      TracksCompose(v, a.groups, b.groups, c.groups, g1, g2, x);
    }
    NamesAppend(g1, g2);
  }

  lemma GroupHeadTracks(cfg: Config, st: Tables, group: string, node: GroupNode, parent: string, x: string)
    requires GroupHead(cfg, st, group, node, parent).Ok?
    requires ReadyAt(cfg.variant, st, x)
    ensures WalkedAt(cfg.variant, st, GroupHead(cfg, st, group, node, parent).value, [], [(group, parent)], x)
    ensures ReadyAt(cfg.variant, GroupHead(cfg, st, group, node, parent).value, x)
  {
    GroupHeadValue(cfg, st, group, node, parent);
    var fileVars := SideCarVars(cfg.variant, cfg.store, false, GroupFile(group)).value;
    if group == "defaults" {
      DefaultsHeadTracks(cfg.variant, st, InlineVars(node), fileVars, parent, x);
    } else {
      GroupEntryTracks(cfg.variant, st, group, parent, InlineVars(node), fileVars, x);
    }
  }

  /** The head of a group named `defaults`: only `self.defaults` changes, and is normalized. */
  lemma DefaultsHeadTracks(v: Variant, st: Tables, inline: Vars, fileVars: Vars, parent: string, x: string)
    requires ReadyAt(v, st, x)
    ensures var r := st.(defaults := Normalized(v, st.defaults, inline, fileVars, None));
      WalkedAt(v, st, r, [], [("defaults", parent)], x) && ReadyAt(v, r, x)
  {
    TracksNothing(v, st.hosts, x);
    NormalizedComplete(v, st.defaults, inline, fileVars, None);
    assert Names([("defaults", parent)]) == {"defaults"};
  }

  /** The head of any other group: its entry is added, gets the parent and is normalized. */
  lemma GroupEntryTracks(v: Variant, st: Tables, group: string, parent: string, inline: Vars, fileVars: Vars,
                         x: string)
    requires group != "defaults" && ReadyAt(v, st, x)
    ensures var e := Add(group, st.groups)[group];
      var r := st.(groups := st.groups[group := Entry(Appended(e.groups, parent),
                                                      Normalized(v, e.record, inline, fileVars, None))]);
      WalkedAt(v, st, r, [], [(group, parent)], x) && ReadyAt(v, r, x)
  {
    var e := Add(group, st.groups)[group];
    var groups := st.groups[group := Entry(Appended(e.groups, parent), Normalized(v, e.record, inline, fileVars, None))];
    TracksNothing(v, st.hosts, x);
    assert Names([(group, parent)]) == {group};
    if x == group {
      NormalizedComplete(v, e.record, inline, fileVars, None);
    }
    TracksVisit(v, st.groups, groups, group, parent, x);
  }

  /** Every record of the three dicts well formed, and `defaults` not a group. */
  predicate TablesWellFormed(v: Variant, st: Tables)
  {
    && "defaults" !in st.groups
    && WellFormed(v, st.defaults)
    && (forall x :: x in st.hosts ==> WellFormed(v, st.hosts[x].record))
    && (forall x :: x in st.groups ==> WellFormed(v, st.groups[x].record))
  }

  lemma WalkHostWellFormed(cfg: Config, st: Tables, host: string, node: HostNode, parent: string)
    requires TablesWellFormed(cfg.variant, st)
    requires WalkHost(cfg, st, host, node, parent).Ok?
    ensures TablesWellFormed(cfg.variant, WalkHost(cfg, st, host, node, parent).value)
  {
    var r := WalkHost(cfg, st, host, node, parent).value;
    forall x | x in r.hosts
      ensures WellFormed(cfg.variant, r.hosts[x].record)
    {
      WalkHostTracks(cfg, st, host, node, parent, x);
    }
  }

  lemma GroupHeadWellFormed(cfg: Config, st: Tables, group: string, node: GroupNode, parent: string)
    requires GroupHead(cfg, st, group, node, parent).Ok?
    requires TablesWellFormed(cfg.variant, st)
    ensures TablesWellFormed(cfg.variant, GroupHead(cfg, st, group, node, parent).value)
  {
    var r := GroupHead(cfg, st, group, node, parent).value;
    GroupHeadTracks(cfg, st, group, node, parent, "");
    forall x | x in r.groups
      ensures WellFormed(cfg.variant, r.groups[x].record)
    {
      GroupHeadTracks(cfg, st, group, node, parent, x);
    }
    forall x | x in r.hosts
      ensures WellFormed(cfg.variant, r.hosts[x].record)
    {
      GroupHeadTracks(cfg, st, group, node, parent, x);
    }
  }

  lemma {:induction false} WalkGroupTracks(cfg: Config, st: Tables, group: string, node: GroupNode,
                                           parent: string, x: string)
    requires WalkGroup(cfg, st, group, node, parent).Ok?
    requires ReadyAt(cfg.variant, st, x)
    ensures WalkedAt(cfg.variant, st, WalkGroup(cfg, st, group, node, parent).value,
                     HostVisits(group, node), GroupVisits(group, node, parent), x)
    decreases node, 1
  {
    var v := cfg.variant;
    WalkGroupNext(cfg, st, group, node, parent);
    GroupHeadTracks(cfg, st, group, node, parent, x);
    var st2 := GroupHead(cfg, st, group, node, parent).value;
    var st3 := WalkHosts(cfg, st2, HostsOf(node), group).value;
    WalkHostsTracks(cfg, st2, HostsOf(node), group, x);
    TracksNothing(v, st2.groups, x);
    assert WalkedAt(v, st2, st3, HostPairs(HostsOf(node), group), [], x);
    WalkChildrenTracks(cfg, st3, group, node, 0, x);
    GroupWalked(v, st, st2, st3, WalkGroup(cfg, st, group, node, parent).value, group, node, parent, x);
  }

  /** A walk of a group that succeeds: its head, its hosts, then its children, each succeeding. */
  lemma WalkGroupNext(cfg: Config, st: Tables, group: string, node: GroupNode, parent: string)
    requires WalkGroup(cfg, st, group, node, parent).Ok?
    ensures GroupHead(cfg, st, group, node, parent).Ok? && !node.hosts.NotMapping?
    ensures WalkHosts(cfg, GroupHead(cfg, st, group, node, parent).value, HostsOf(node), group).Ok?
    ensures !node.children.BadChildren?
    ensures var st3 := WalkHosts(cfg, GroupHead(cfg, st, group, node, parent).value, HostsOf(node), group).value;
      WalkGroup(cfg, st, group, node, parent) == WalkChildren(cfg, st3, group, node, 0)
  {
  }

  /** The head, then the hosts, then the children: what the walk of the group does. */
  lemma GroupWalked(v: Variant, st: Tables, st2: Tables, st3: Tables, r: Tables, group: string, node: GroupNode,
                    parent: string, x: string)
    requires WalkedAt(v, st, st2, [], [(group, parent)], x)
    requires WalkedAt(v, st2, st3, HostPairs(HostsOf(node), group), [], x)
    requires WalkedAt(v, st3, r, ChildHostVisits(group, node, 0), ChildGroupVisits(group, node, 0), x)
    ensures WalkedAt(v, st, r, HostVisits(group, node), GroupVisits(group, node, parent), x)
  {
    WalkedCompose(v, st, st2, st3, [], [(group, parent)], HostPairs(HostsOf(node), group), [], x);
    WalkedCompose(v, st, st3, r, [] + HostPairs(HostsOf(node), group), [(group, parent)] + [],
                  ChildHostVisits(group, node, 0), ChildGroupVisits(group, node, 0), x);
    assert [] + HostPairs(HostsOf(node), group) == HostPairs(HostsOf(node), group);
    assert [(group, parent)] + [] == [(group, parent)];
  }

  lemma {:induction false} WalkChildrenTracks(cfg: Config, st: Tables, group: string, node: GroupNode,
                                              i: nat, x: string)
    requires i <= |ChildrenOf(node)|
    requires WalkChildren(cfg, st, group, node, i).Ok?
    requires ReadyAt(cfg.variant, st, x)
    ensures WalkedAt(cfg.variant, st, WalkChildren(cfg, st, group, node, i).value,
                     ChildHostVisits(group, node, i), ChildGroupVisits(group, node, i), x)
    decreases node, 0, |ChildrenOf(node)| - i, 1
  {
    if i == |ChildrenOf(node)| {
      TracksNothing(cfg.variant, st.hosts, x);
      TracksNothing(cfg.variant, st.groups, x);
    } else {
      WalkChildrenNext(cfg, st, group, node, i);
      var child := node.children.nodes[i];
      var st1 := WalkGroup(cfg, st, child.0, child.1, group).value;
      WalkChildTracks(cfg, st, st1, WalkChildren(cfg, st1, group, node, i + 1).value, group, node, i, x);
    }
  }

  /** One iteration of the loop over the children, from `st` to `st1`, then the rest of it, to `r`. */
  lemma {:induction false} WalkChildTracks(cfg: Config, st: Tables, st1: Tables, r: Tables, group: string,
                                           node: GroupNode, i: nat, x: string)
    requires i < |ChildrenOf(node)|
    requires WalkGroup(cfg, st, node.children.nodes[i].0, node.children.nodes[i].1, group) == Ok(st1)
    requires WalkChildren(cfg, st1, group, node, i + 1) == Ok(r)
    requires ReadyAt(cfg.variant, st, x)
    ensures WalkedAt(cfg.variant, st, r, ChildHostVisits(group, node, i), ChildGroupVisits(group, node, i), x)
    decreases node, 0, |ChildrenOf(node)| - i, 0
  {
    var child := node.children.nodes[i];
    assert child in node.children.nodes;
    WalkGroupTracks(cfg, st, child.0, child.1, group, x);
    WalkedReady(cfg.variant, st, st1, HostVisits(child.0, child.1), GroupVisits(child.0, child.1, group), x);
    WalkChildrenTracks(cfg, st1, group, node, i + 1, x);
    ChildWalked(cfg.variant, st, st1, r, group, node, i, x);
  }

  /** What child `i` does, then what the rest of the loop does, is what the loop from `i` does. */
  lemma ChildWalked(v: Variant, st: Tables, st1: Tables, r: Tables, group: string, node: GroupNode, i: nat, x: string)
    requires i < |ChildrenOf(node)|
    requires var child := node.children.nodes[i];
      WalkedAt(v, st, st1, HostVisits(child.0, child.1), GroupVisits(child.0, child.1, group), x)
    requires WalkedAt(v, st1, r, ChildHostVisits(group, node, i + 1), ChildGroupVisits(group, node, i + 1), x)
    ensures WalkedAt(v, st, r, ChildHostVisits(group, node, i), ChildGroupVisits(group, node, i), x)
  {
    var child := node.children.nodes[i];
    ChildVisitsNext(group, node, i);
    WalkedCompose(v, st, st1, r, HostVisits(child.0, child.1), GroupVisits(child.0, child.1, group),
                  ChildHostVisits(group, node, i + 1), ChildGroupVisits(group, node, i + 1), x);
  }

  /** A loop over the children that succeeds walks child `i`, then goes on from the state it leaves. */
  lemma WalkChildrenNext(cfg: Config, st: Tables, group: string, node: GroupNode, i: nat)
    requires i < |ChildrenOf(node)|
    requires WalkChildren(cfg, st, group, node, i).Ok?
    ensures var child := node.children.nodes[i];
      var first := WalkGroup(cfg, st, child.0, child.1, group);
      && first.Ok?
      && WalkChildren(cfg, first.value, group, node, i + 1).Ok?
      && WalkChildren(cfg, st, group, node, i).value == WalkChildren(cfg, first.value, group, node, i + 1).value
  {
  }

  /** The visits of the loop over the children: child `i`'s, then the rest. */
  lemma ChildVisitsNext(group: string, node: GroupNode, i: nat)
    requires i < |ChildrenOf(node)|
    ensures var child := node.children.nodes[i];
      && ChildHostVisits(group, node, i) == HostVisits(child.0, child.1) + ChildHostVisits(group, node, i + 1)
      && ChildGroupVisits(group, node, i) == GroupVisits(child.0, child.1, group) + ChildGroupVisits(group, node, i + 1)
  {
  }

  /** A walk leaves a state ready for the next one. */
  lemma WalkedReady(v: Variant, st: Tables, r: Tables, hv: seq<Visit>, gv: seq<Visit>, x: string)
    requires ReadyAt(v, st, x) && WalkedAt(v, st, r, hv, gv, x)
    ensures ReadyAt(v, r, x)
  {
  }

  // ---------------------------------------------------------------------------------------
  // The walk from the root
  // ---------------------------------------------------------------------------------------

  /** `parse_group("defaults", original_data["all"])` on a fresh parser. */
  function WalkRoot(cfg: Config, node: GroupNode): Result<Tables, Error>
  {
    WalkGroup(cfg, Empty, "defaults", node, "")
  }

  /**
   * After the walk from the root, seen from the name `x`: `x` is a host exactly when the
   * walk visited a host `x`, and its `groups` list holds the parent of each visit, in visit
   * order and with repetitions; likewise for groups, where `defaults` never appears; every
   * host, group and the defaults have all six fields.
   */
  lemma WalkRootAt(cfg: Config, node: GroupNode, x: string)
    requires WalkRoot(cfg, node).Ok?
    ensures var r := WalkRoot(cfg, node).value;
      var hv := HostVisits("defaults", node);
      var gv := GroupVisits("defaults", node, "");
      && (x in r.hosts <==> x in Names(hv))
      && (x in r.hosts ==> r.hosts[x].groups == Parents(hv, x) && Complete(cfg.variant, r.hosts[x].record))
      && (x in r.groups <==> x in Names(gv) && x != "defaults")
      && (x in r.groups ==> r.groups[x].groups == Parents(gv, x) && Complete(cfg.variant, r.groups[x].record))
      && Complete(cfg.variant, r.defaults)
  {
    WalkGroupTracks(cfg, Empty, "defaults", node, "", x);
    assert GroupVisits("defaults", node, "")[0].0 == "defaults";
  }

  /** The same for all names at once. */
  lemma WalkRootSpec(cfg: Config, node: GroupNode)
    requires WalkRoot(cfg, node).Ok?
    ensures var r := WalkRoot(cfg, node).value;
      var hv := HostVisits("defaults", node);
      var gv := GroupVisits("defaults", node, "");
      && r.hosts.Keys == Names(hv)
      && r.groups.Keys == Names(gv) - {"defaults"}
      && (forall x :: x in r.hosts ==> r.hosts[x].groups == Parents(hv, x))
      && (forall x :: x in r.groups ==> r.groups[x].groups == Parents(gv, x))
      && (forall x :: x in r.hosts ==> Complete(cfg.variant, r.hosts[x].record))
      && (forall x :: x in r.groups ==> Complete(cfg.variant, r.groups[x].record))
      && Complete(cfg.variant, r.defaults)
  {
    forall x {
      WalkRootAt(cfg, node, x);
    }
    WalkRootAt(cfg, node, "defaults");
  }

  /**
   * When no group below the root is named `defaults`, `self.defaults` holds exactly the
   * normalized `all` vars together with `group_vars/all`.
   */
  lemma RootDefaults(cfg: Config, node: GroupNode)
    requires WalkRoot(cfg, node).Ok?
    requires "defaults" !in Names(ChildGroupVisits("defaults", node, 0))
    ensures SideCarVars(cfg.variant, cfg.store, false, "all").Ok?
    ensures WalkRoot(cfg, node).value.defaults ==
      Normalized(cfg.variant, Record(map[], map[]), InlineVars(node),
                 SideCarVars(cfg.variant, cfg.store, false, "all").value, None)
  {
    var v := cfg.variant;
    GroupHeadTracks(cfg, Empty, "defaults", node, "", "");
    var st2 := GroupHead(cfg, Empty, "defaults", node, "").value;
    var st3 := WalkHosts(cfg, st2, HostsOf(node), "defaults").value;
    WalkHostsTracks(cfg, st2, HostsOf(node), "defaults", "");
    WalkChildrenTracks(cfg, st3, "defaults", node, 0, "");
  }

  // ---------------------------------------------------------------------------------------
  // When the walk fails
  // ---------------------------------------------------------------------------------------

  /** Every host of a `hosts` mapping is a mapping and its side-car lookup succeeds. */
  predicate HostsOk(cfg: Config, hosts: seq<(string, HostNode)>)
  {
    forall i :: 0 <= i < |hosts| ==>
      !hosts[i].1.MalformedHost? && SideCarVars(cfg.variant, cfg.store, true, hosts[i].0).Ok?
  }

  /**
   * The subtree of `group` raises nothing: no `defaults` group under a parent other than the
   * root, every node and its `vars`, `hosts` and `children` are mappings, and every
   * side-car lookup succeeds.
   */
  predicate GroupOk(cfg: Config, group: string, node: GroupNode, parent: string)
    decreases node, 1
  {
    && !(group == "defaults" && Appends(parent))
    && node.Group?
    && SideCarVars(cfg.variant, cfg.store, false, GroupFile(group)).Ok?
    && !node.vars.NotMapping? && !node.hosts.NotMapping? && !node.children.BadChildren?
    && HostsOk(cfg, HostsOf(node))
    && ChildrenOk(cfg, group, node, 0)
  }

  predicate ChildrenOk(cfg: Config, group: string, node: GroupNode, i: nat)
    requires i <= |ChildrenOf(node)|
    decreases node, 0, |ChildrenOf(node)| - i
  {
    i == |ChildrenOf(node)| ||
    (var child := node.children.nodes[i];
     assert child in node.children.nodes;
     GroupOk(cfg, child.0, child.1, group) && ChildrenOk(cfg, group, node, i + 1))
  }

  lemma {:induction false} WalkHostsOk(cfg: Config, st: Tables, hosts: seq<(string, HostNode)>, parent: string)
    ensures WalkHosts(cfg, st, hosts, parent).Ok? <==> HostsOk(cfg, hosts)
    decreases |hosts|
  {
    if hosts != [] {
      var first := WalkHost(cfg, st, hosts[0].0, hosts[0].1, parent);
      assert HostsOk(cfg, hosts) <==> first.Ok? && HostsOk(cfg, hosts[1..]) by {
        if HostsOk(cfg, hosts[1..]) && first.Ok? {
          forall i | 0 <= i < |hosts|
            ensures !hosts[i].1.MalformedHost? && SideCarVars(cfg.variant, cfg.store, true, hosts[i].0).Ok?
          {
            if i > 0 {
              assert hosts[i] == hosts[1..][i - 1];
            }
          }
        }
      }
      if first.Ok? {
        WalkHostsOk(cfg, first.value, hosts[1..], parent);
      }
    }
  }

  /** Whether a walk raises depends on the tree and the side-car files, not on the state. */
  lemma {:induction false} WalkGroupOk(cfg: Config, st: Tables, group: string, node: GroupNode, parent: string)
    ensures WalkGroup(cfg, st, group, node, parent).Ok? <==> GroupOk(cfg, group, node, parent)
    decreases node, 1
  {
    var head := GroupHead(cfg, st, group, node, parent);
    if head.Ok? && !node.hosts.NotMapping? {
      WalkHostsOk(cfg, head.value, HostsOf(node), group);
      var hosts := WalkHosts(cfg, head.value, HostsOf(node), group);
      if hosts.Ok? && !node.children.BadChildren? {
        WalkChildrenOk(cfg, hosts.value, group, node, 0);
      }
    }
  }

  lemma {:induction false} WalkChildrenOk(cfg: Config, st: Tables, group: string, node: GroupNode, i: nat)
    requires i <= |ChildrenOf(node)|
    ensures WalkChildren(cfg, st, group, node, i).Ok? <==> ChildrenOk(cfg, group, node, i)
    decreases node, 0, |ChildrenOf(node)| - i, 1
  {
    if i < |ChildrenOf(node)| {
      var child := node.children.nodes[i];
      assert child in node.children.nodes;
      WalkGroupOk(cfg, st, child.0, child.1, group);
      var first := WalkGroup(cfg, st, child.0, child.1, group);
      if first.Ok? {
        WalkChildrenOkRest(cfg, st, group, node, i);
      } else {
        ChildrenOkStep(cfg, group, node, i);
        WalkChildrenStep(cfg, st, group, node, i);
      }
    }
  }

  lemma {:induction false} WalkChildrenOkRest(cfg: Config, st: Tables, group: string, node: GroupNode, i: nat)
    requires i < |ChildrenOf(node)|
    requires WalkGroup(cfg, st, node.children.nodes[i].0, node.children.nodes[i].1, group).Ok?
    ensures WalkChildren(cfg, st, group, node, i).Ok? <==> ChildrenOk(cfg, group, node, i)
    decreases node, 0, |ChildrenOf(node)| - i, 0
  {
    var child := node.children.nodes[i];
    var first := WalkGroup(cfg, st, child.0, child.1, group);
    assert child in node.children.nodes;
    WalkGroupOk(cfg, st, child.0, child.1, group);
    ChildrenOkStep(cfg, group, node, i);
    WalkChildrenStep(cfg, st, group, node, i);
    WalkChildrenOk(cfg, first.value, group, node, i + 1);
  }

  lemma ChildrenOkStep(cfg: Config, group: string, node: GroupNode, i: nat)
    requires i < |ChildrenOf(node)|
    ensures ChildrenOk(cfg, group, node, i) <==>
      GroupOk(cfg, node.children.nodes[i].0, node.children.nodes[i].1, group) && ChildrenOk(cfg, group, node, i + 1)
  {
  }

  /** One iteration of the loop over the children succeeds when child `i` and then the rest do. */
  lemma WalkChildrenStep(cfg: Config, st: Tables, group: string, node: GroupNode, i: nat)
    requires i < |ChildrenOf(node)|
    ensures var child := node.children.nodes[i];
      var first := WalkGroup(cfg, st, child.0, child.1, group);
      WalkChildren(cfg, st, group, node, i).Ok? <==>
        first.Ok? && WalkChildren(cfg, first.value, group, node, i + 1).Ok?
  {
  }

  /** Group `a`, holding host `h`. */
  const ExampleA: GroupNode := Group(Absent, Present([("h", HostVars(map[]))]), NoChildren)
  /** Group `b`, holding group `a` again. */
  const ExampleB: GroupNode := Group(Absent, Absent, ChildNodes([("a", ExampleA)]))
  /** `all` with children `a` and `b`. */
  const ExampleRoot: GroupNode := Group(Absent, Absent, ChildNodes([("a", ExampleA), ("b", ExampleB)]))

  lemma ExampleOk(cfg: Config)
    requires cfg.store == VarsStore(map[], map[])
    ensures GroupOk(cfg, "defaults", ExampleRoot, "")
  {
    var v := cfg.variant;
    NoSideCar(v, cfg.store, true, "h");
    NoSideCar(v, cfg.store, false, "a");
    NoSideCar(v, cfg.store, false, "b");
    NoSideCar(v, cfg.store, false, "all");
    assert HostsOk(cfg, HostsOf(ExampleA));
    assert GroupOk(cfg, "a", ExampleA, "defaults");
    assert GroupOk(cfg, "a", ExampleA, "b");
    assert ChildrenOk(cfg, "b", ExampleB, 1);
    assert GroupOk(cfg, "b", ExampleB, "defaults");
    assert ChildrenOk(cfg, "defaults", ExampleRoot, 2);
    assert ChildrenOk(cfg, "defaults", ExampleRoot, 1);
  }

  lemma ExampleHostVisits()
    ensures HostVisits("defaults", ExampleRoot) == [("h", "a"), ("h", "a")]
  {
    assert HostVisits("a", ExampleA) == [("h", "a")];
    assert ChildHostVisits("b", ExampleB, 1) == [];
    assert HostVisits("b", ExampleB) == [("h", "a")];
    assert ChildHostVisits("defaults", ExampleRoot, 2) == [];
    assert ChildHostVisits("defaults", ExampleRoot, 1) == [("h", "a")];
  }

  /**
   * Nothing stops a host from being listed under the same group twice: `h` sits under group
   * `a`, which appears both at the top and under `b`, and ends with `groups == ["a", "a"]`.
   */
  lemma DuplicateParents(cfg: Config)
    requires cfg.store == VarsStore(map[], map[])
    ensures WalkRoot(cfg, ExampleRoot).Ok?
    ensures "h" in WalkRoot(cfg, ExampleRoot).value.hosts
    ensures WalkRoot(cfg, ExampleRoot).value.hosts["h"].groups == ["a", "a"]
  {
    ExampleOk(cfg);
    WalkGroupOk(cfg, Empty, "defaults", ExampleRoot, "");
    WalkRootAt(cfg, ExampleRoot, "h");
    ExampleHostVisits();
    assert Names([("h", "a"), ("h", "a")]) == {"h"};
    assert Parents([("h", "a"), ("h", "a")], "h") == ["a", "a"];
  }

  // ---------------------------------------------------------------------------------------
  // sort_groups
  // ---------------------------------------------------------------------------------------

  function SortedEntry(e: Entry): Entry
  {
    e.(groups := Sort(e.groups))
  }

  /** Sorts the `groups` list of every entry whose name is not in `skip`. */
  function SortEntries(table: map<string, Entry>, skip: set<string>): map<string, Entry>
  {
    map x | x in table :: if x in skip then table[x] else SortedEntry(table[x])
  }

  /** `sort_groups`: every host's list, and every group's list except one named `defaults`. */
  function SortGroups(st: Tables): Tables
  {
    Tables(SortEntries(st.hosts, {}), SortEntries(st.groups, {"defaults"}), st.defaults)
  }

  /**
   * After `sort_groups` every list is sorted and holds the same parents as before, with the
   * same multiplicities; nothing else changes. The `defaults` exemption never applies, as
   * the walk keeps `defaults` out of the groups dict.
   */
  lemma SortGroupsSpec(st: Tables)
    requires "defaults" !in st.groups
    ensures var r := SortGroups(st);
      && r.hosts.Keys == st.hosts.Keys && r.groups.Keys == st.groups.Keys && r.defaults == st.defaults
      && (forall x :: x in r.hosts ==>
            Sorted(r.hosts[x].groups) && multiset(r.hosts[x].groups) == multiset(st.hosts[x].groups)
            && r.hosts[x].record == st.hosts[x].record)
      && (forall x :: x in r.groups ==>
            Sorted(r.groups[x].groups) && multiset(r.groups[x].groups) == multiset(st.groups[x].groups)
            && r.groups[x].record == st.groups[x].record)
  {
  }
}

=== FILE: wrappers.dfy ===
/** Option and Result, the failure-carrying wrappers used throughout the model. */
module Wrappers {

  datatype Option<+T> = None | Some(value: T)

  /** A computation that either produced `value` or raised `error`; usable with `:-`. */
  datatype Result<+T, +E> = Ok(value: T) | Err(error: E)
  {
    predicate IsFailure()
    {
      Err?
    }

    function PropagateFailure<U>(): Result<U, E>
      requires Err?
    {
      Err(error)
    }

    function Extract(): T
      requires Ok?
    {
      value
    }
  }
}
